=== FILE: README.md ===
# adverai analytics core in Dafny

adverai turns a marketing question typed in plain language into a dashboard.
The browser posts the prompt to the `/query` route. The route asks a
sequence of language models for a dashboard configuration and cleans up and
parses the first usable reply. It resolves the configuration's date filter
against the `stats` collection and attaches the matching rows, or canned
rows when none match. It also attaches the whole impression history,
grouped by day and sorted. When anything goes wrong it serves a canned
fallback configuration. Three React views render the result:

- the combined dashboard: totals, CTR, ROAS, a campaign bar chart, a
  spend/revenue pie and an impressions trend;
- the descriptor-driven dashboard: metric cards and bar charts chosen by the
  configuration's `visualizations`;
- the visualization hub: one card per descriptor, with a modal.

The index page holds the prompt, the request, the error banner and the
view switches.

The model is split along the same lines:

| file | module | models |
|---|---|---|
| `payload.dfy` | `Payload` | the payload the views receive; JavaScript `Number(v) \|\| 0`; the row fold `reduce` |
| `combined_dashboard.dfy` | `CombinedDashboard` | `CombinedDashboard.tsx` |
| `dynamic_dashboard.dfy` | `DynamicDashboard` | `DynamicDashboard.tsx` |
| `visualization_hub.dfy` | `VisualizationHub` | `VisualizationHub.tsx`: pure render functions plus a `HubState` class for its two state cells |
| `index_page.dfy` | `IndexPage` | `pages/Index.tsx`: a `Page` class over its six state cells |
| `py_json.dfy` | `PyJson` | JSON values on the Python side, truthiness, `str`, `int` |
| `calendar.dfy` | `Calendar` | proleptic Gregorian dates, `timedelta(days=1)`, `strftime`/`strptime` with `%Y-%m-%d` |
| `clean_json.dfy` | `CleanJson` | `clean_json_string` |
| `tally.dfy` | `Tally` | folding keyed counts into a dict: `d[k] = d.get(k, 0) + c` |
| `sorting.dfy` | `Sorting` | Python string order and `sorted` over dict keys |
| `charts_grouping.dfy` | `ChartsGrouping` | the `impressions_by_date` loop and `line_chart_data` |
| `charts_fallback.dfy` | `ChartsFallback` | `_fallback_data` |
| `charts.dfy` | `Charts` | `process_query`: the model loop, the date filter, the data fallback, the response |
| `text.dfy`, `wrappers.dfy` | `Text`, `Wrappers` | lower-casing, stripping, decimal text, `Option` |

Pure code (the renderers, the Python helpers) is written as functions. Code
that updates state step by step is written as methods proved against those
functions:

- the React state cells become class fields;
- the model loop, the `impressions_by_date` loop and the `mongo_filter`
  dict become methods with loops or in-place updates.

The outside world is a parameter of the handler. These are:

- `post`, the chat-completions call: its status code and message content;
- `parse`, `json.loads`;
- `find`, the collection query;
- `today`, `date.today()`;
- `reprOf`, Python `str` of floats, lists and dicts;
- `apiKey` and `database`, the two module-level settings.

Two behaviours of the code that are easy to miss:

- a stored entry without a date is grouped under "None", because `str(None)`
  is truthy; only an empty date string is grouped under "No Date";
- a configuration the first model returns falsy (`{}`, `[]`, `null`) ends
  the loop, and the fallback is served even if a later model would have
  answered.

## Model

| member | source | states |
|---|---|---|
| Payload.Coerce | frontend/src/components/CombinedDashboard.tsx:94-97 | `Number(row[key]) \|\| 0`: 0 for an absent key or NaN, the number otherwise (stated by `CoerceAgreesWithNumber`) |
| Payload.CoerceAgreesWithNumber | frontend/src/components/CombinedDashboard.tsx:94-97 | the coercion equals `Number(v)` whenever that is a number, and is 0 for an absent field or NaN |
| Payload.NumberOfIntText | frontend/src/components/DynamicDashboard.tsx:54 | `Number` of the decimal text of an integer is that integer |
| Payload.CoerceIntegerText | frontend/src/components/DynamicDashboard.tsx:54 | a field sent as integer text coerces to that integer |
| Payload.SumByPermutation | frontend/src/components/CombinedDashboard.tsx:94-97 | the `reduce` sum does not depend on the order of the rows |
| Payload.SumByAppend | frontend/src/components/CombinedDashboard.tsx:94-97 | summing concatenated rows is summing each part |
| Payload.SumByMonotone | frontend/src/components/CombinedDashboard.tsx:94-95 | row-wise `f <= g` gives sum-wise `f <= g` |
| Payload.SumByScaled | frontend/src/components/CombinedDashboard.tsx:96-97 | row-wise `g == c * f` gives sum-wise `g == c * f` |
| Payload.SumByBetween | frontend/src/components/CombinedDashboard.tsx:96-99 | row-wise bounds `lo * w <= g <= hi * w` hold for the sums |
| Payload.SumOfProductsBetween | frontend/src/components/CombinedDashboard.tsx:96-97 | with per-row roas between `lo` and `hi` and non-negative spend, the revenue sum lies between `lo` and `hi` times the spend sum |
| Payload.SumOfProductsScaled | frontend/src/components/CombinedDashboard.tsx:96-97 | with the same roas `c` in every row, the revenue sum is `c` times the spend sum |
| Payload.WeightedAverageBetween | frontend/src/components/CombinedDashboard.tsx:96-99 | a weighted average with non-negative weights and positive total weight lies between the bounds of the averaged values |
| Payload.WeightedAverageOfConstant | frontend/src/components/CombinedDashboard.tsx:96-99 | a weighted average of a constant is that constant |
| Payload.RowsWithField | frontend/src/components/DynamicDashboard.tsx:53-56 | exactly the rows that carry the field |
| Payload.SumOverRowsWithField | frontend/src/components/DynamicDashboard.tsx:53-56 | a field's sum only sees the rows carrying the field |
| CombinedDashboard.Ctr | frontend/src/components/CombinedDashboard.tsx:98 | 0 when impressions are not positive; otherwise `ctr * impressions == 100 * clicks` |
| CombinedDashboard.Roas | frontend/src/components/CombinedDashboard.tsx:99 | 0 when spend is not positive; otherwise `roas * spend == revenue` |
| CombinedDashboard.KeyMetrics | frontend/src/components/CombinedDashboard.tsx:101-107 | five cards in fixed order with their titles, prefixes, suffixes and the totals, ROAS and CTR they show |
| CombinedDashboard.PieData | frontend/src/components/CombinedDashboard.tsx:115-118 | two slices: spend, then revenue |
| CombinedDashboard.CampaignBarChart | frontend/src/components/CombinedDashboard.tsx:196-235 | the bar chart plots all rows against `campaign_name`, with bars for impressions, clicks and conversions in that order |
| CombinedDashboard.TrendPoints | frontend/src/components/CombinedDashboard.tsx:109-113 | one point per `line_chart_data` item, indexed from 1, date and impressions copied |
| CombinedDashboard.TrendSeries | frontend/src/components/CombinedDashboard.tsx:109-113 | an absent `line_chart_data` gives an empty trend; a present one gives `TrendPoints` of it |
| CombinedDashboard.Render | frontend/src/components/CombinedDashboard.tsx:66-364 | the placeholder exactly when there is no response or no rows; otherwise the five key metrics, the pie and the fixed campaign bar chart over all rows, the trend from `line_chart_data`, and a summary exactly when it is truthy, showing the response's own summary text |
| CombinedDashboard.AggregatesOrderIndependent | frontend/src/components/CombinedDashboard.tsx:94-118 | reordering the rows changes no card and no slice |
| CombinedDashboard.CtrIsAPercentage | frontend/src/components/CombinedDashboard.tsx:98 | with clicks between 0 and impressions in every row, CTR lies in [0, 100] |
| CombinedDashboard.PercentBetween | frontend/src/components/CombinedDashboard.tsx:98 | a ratio scaled by 100 of a part to a whole, or 0 for an empty whole, lies in [0, 100] |
| CombinedDashboard.RoasIsRatio | frontend/src/components/CombinedDashboard.tsx:99 | with positive spend, ROAS is revenue divided by spend |
| CombinedDashboard.RoasIsWeightedAverage | frontend/src/components/CombinedDashboard.tsx:97-99 | ROAS is a spend-weighted average and lies between the smallest and largest per-row roas |
| CombinedDashboard.RoasOfUniformRows | frontend/src/components/CombinedDashboard.tsx:97-99 | rows that all have the same roas have that ROAS |
| CombinedDashboard.PieMatchesRoas | frontend/src/components/CombinedDashboard.tsx:115-118 | revenue slice = ROAS × spend slice |
| CombinedDashboard.RevenueIsNotProductOfTotals | frontend/src/components/CombinedDashboard.tsx:97 | revenue is the sum of per-row products, not total spend × total roas (a two-row witness) |
| CombinedDashboard.SingleCampaignExample | frontend/src/components/CombinedDashboard.tsx:94-99 | 100 impressions, 10 clicks, spend 50, roas 2 give CTR 10 and ROAS 2 |
| CombinedDashboard.RenderIgnoresDescriptors | frontend/src/components/CombinedDashboard.tsx:196-235 | the dashboard does not read `visualizations` or `metrics` |
| DynamicDashboard.Filter | frontend/src/components/DynamicDashboard.tsx:39-40 | `Array.filter` never grows the list (members stated by `FilterMembers`) |
| DynamicDashboard.FilterMembers | frontend/src/components/DynamicDashboard.tsx:39-40 | an element survives exactly when it is in the input and passes the test |
| DynamicDashboard.FilterAppend | frontend/src/components/DynamicDashboard.tsx:64-65 | filtering distributes over concatenation, keeping order |
| DynamicDashboard.CardValue | frontend/src/components/DynamicDashboard.tsx:52-57 | 0 without rows or without a truthy `value_key` |
| DynamicDashboard.Bars | frontend/src/components/DynamicDashboard.tsx:105-110 | one bar per y key in order, the first purple and the rest pink |
| DynamicDashboard.ChartBodyFor | frontend/src/components/DynamicDashboard.tsx:76-117 | a chart exactly when there are rows, a truthy `x_key` and `y_keys`; it plots all rows against `x_key` with `Bars` of the y keys: one per key in order, the first purple and the rest pink |
| DynamicDashboard.Cards | frontend/src/components/DynamicDashboard.tsx:41-60 | one card per descriptor in order, with its title and value |
| DynamicDashboard.Charts | frontend/src/components/DynamicDashboard.tsx:66-120 | one chart panel per descriptor in order |
| DynamicDashboard.Render | frontend/src/components/DynamicDashboard.tsx:31-33 | the placeholder exactly when there are no descriptors; every card comes before every chart |
| DynamicDashboard.RenderPanels | frontend/src/components/DynamicDashboard.tsx:39-120 | the panels are a card per "metric-card" descriptor, then a chart per "bar"/"bar-chart" descriptor, each in payload order |
| DynamicDashboard.UnsupportedDescriptorIsIgnored | frontend/src/components/DynamicDashboard.tsx:40 | inserting a descriptor of any other type anywhere changes nothing |
| DynamicDashboard.OnlyUnsupportedDescriptors | frontend/src/components/DynamicDashboard.tsx:31-65 | descriptors that are all unsupported give an empty panel list, not the placeholder |
| DynamicDashboard.TypeMatchIsCaseSensitive | frontend/src/components/DynamicDashboard.tsx:40 | "Metric-Card" and "BAR" are not recognised |
| DynamicDashboard.EmptyKeyShowsZero | frontend/src/components/DynamicDashboard.tsx:52 | an empty `value_key` shows 0 even when the rows hold a "" field |
| DynamicDashboard.CardSumsRowsWithKey | frontend/src/components/DynamicDashboard.tsx:53-56 | a card sums only the rows carrying its key |
| DynamicDashboard.CardValueOrderIndependent | frontend/src/components/DynamicDashboard.tsx:53-56 | a card's value does not depend on row order |
| DynamicDashboard.NoRowsScenario | frontend/src/components/DynamicDashboard.tsx:52-57 | without rows every card shows 0 and every chart shows "No data for chart" |
| VisualizationHub.IconForType | frontend/src/components/VisualizationHub.tsx:23-34 | the line, bar and pie icons exactly for a type that lower-cases to "line", "bar" and "pie"; the default icon for no type and for every other type |
| VisualizationHub.IconForTypeIgnoresCase | frontend/src/components/VisualizationHub.tsx:24 | a type and its lower-cased form get the same icon |
| VisualizationHub.IconForTypeUpperCase | frontend/src/components/VisualizationHub.tsx:24-30 | "BAR", "Line", "PIE" are recognised |
| VisualizationHub.IconForTypeOtherKinds | frontend/src/components/VisualizationHub.tsx:31-32 | "bar-chart", "metric-card" and "area" get the default icon |
| VisualizationHub.CountLabelPlural | frontend/src/components/VisualizationHub.tsx:65-66 | the label ends in "s generated" exactly when the count is not 1 |
| VisualizationHub.CountLabel | frontend/src/components/VisualizationHub.tsx:65-66 | the header is the count's decimal digits, then " visualization", then "s" unless the count is one, then " generated" |
| VisualizationHub.CardsFor | frontend/src/components/VisualizationHub.tsx:111-133 | one card per descriptor, with its title and icon |
| VisualizationHub.Render | frontend/src/components/VisualizationHub.tsx:44-195 | the empty state exactly without descriptors; otherwise the count label for the number of descriptors, `CardsFor` the descriptors, a summary exactly when truthy, showing the response's own summary text, and a modal exactly when something is selected, titled by the selected descriptor |
| VisualizationHub.ToggleTwice | frontend/src/components/VisualizationHub.tsx:118-120 | clicking a card twice restores the selection exactly when nothing or that card was selected |
| VisualizationHub.Toggle | frontend/src/components/VisualizationHub.tsx:118-120 | a click clears the selection exactly when that card was selected, and otherwise selects that card |
| VisualizationHub.HubState.ClickCard | frontend/src/components/VisualizationHub.tsx:118-120 | the selection toggles; the layout is unchanged |
| VisualizationHub.HubState.CloseModal | frontend/src/components/VisualizationHub.tsx:201-215 | the selection is cleared; the layout is unchanged |
| VisualizationHub.HubState.SetLayout | frontend/src/components/VisualizationHub.tsx:73-87 | the layout is set; the selection is unchanged |
| IndexPage.ErrorMessageNonEmpty | frontend/src/pages/Index.tsx:44-52 | every failure has a non-empty message |
| IndexPage.ErrorMessage | frontend/src/pages/Index.tsx:44-52 | a server reply gives "Server error: " and more; a request that got no reply gives the fixed no-reply text; otherwise "Request failed: " followed by the client's message |
| IndexPage.MessageStartsWithCauseLetter | frontend/src/pages/Index.tsx:46-52 | the message's first letter tells a server reply, no reply and a failed request apart |
| IndexPage.ErrorMessageRevealsCause | frontend/src/pages/Index.tsx:46-52 | equal messages come from the same kind of failure |
| IndexPage.ServerErrorRevealsReply | frontend/src/pages/Index.tsx:47 | a server-error message determines the status code and status text |
| IndexPage.BlankPrompts | frontend/src/pages/Index.tsx:22 | "" and " \t\n" are blank; " a " is not |
| IndexPage.BlankIsTrimmedEmpty | frontend/src/pages/Index.tsx:22 | `IsBlank`, every character being JavaScript whitespace, holds exactly when trimming the prompt leaves nothing |
| IndexPage.Page.Submit | frontend/src/pages/Index.tsx:20-26 | a request is sent exactly when the trimmed prompt is non-empty; then loading is on, the error cleared and the dashboard shown |
| IndexPage.Page.Settle | frontend/src/pages/Index.tsx:28-63 | loading ends; a reply replaces the response; a failure sets the banner text and keeps the old response |
| IndexPage.Page.HandleSubmit | frontend/src/pages/Index.tsx:20-63 | for a sent prompt: success shows the reply with no banner; failure keeps the old response and shows the banner with the failure's message; a blank prompt changes nothing |
| IndexPage.Page.BackToHome | frontend/src/pages/Index.tsx:175 | the landing view returns; nothing else changes |
| IndexPage.Page.ToggleSidebar | frontend/src/pages/Index.tsx:160 | the sidebar flips; nothing else changes |
| Text.Lower | backend/data/charts.py:169-171 | `.lower()` keeps the length and lower-cases each character |
| Text.LowerIdempotent | backend/data/charts.py:169-171 | lower-casing twice is lower-casing once |
| Text.LowerAppend | backend/data/charts.py:169-171 | lower-casing distributes over concatenation |
| Text.Strip | backend/data/charts.py:30 | `.strip()` removes leading and trailing whitespace and nothing else |
| Text.IndexOf | backend/data/charts.py:190 | the first index of a character, or the length when it is absent: the split `strptime` makes at a dash |
| PyJson.PyInt | backend/data/charts.py:193 | `int(v)`: an integer is itself, a finite float is truncated, True is 1 and False is 0; None, nan, an infinity, a list or a dict raise |
| PyJson.Trunc | backend/data/charts.py:193 | `int` of a float truncates toward zero |
| PyJson.IntOfIntText | backend/data/charts.py:193 | `int` of an integer's decimal text is that integer |
| PyJson.IntOfTextRejectsEmpty | backend/data/charts.py:193 | `int("")` raises |
| PyJson.IntOfTextRejectsFraction | backend/data/charts.py:193 | `int("1.5")` raises |
| Calendar.PrevDay | backend/data/charts.py:174 | `d - timedelta(days=1)`: raises only at `date.min`, otherwise a valid date |
| Calendar.NextDay | backend/data/charts.py:174 | the following day: fails only at `date.max`, otherwise a valid date |
| Calendar.NextDayOfPrevDay | backend/data/charts.py:174 | the day after yesterday is today |
| Calendar.PrevDayOfNextDay | backend/data/charts.py:174 | the day before tomorrow is today |
| Calendar.PrevDayIsBefore | backend/data/charts.py:174 | yesterday is strictly before today |
| Calendar.ParseIso | backend/data/charts.py:190 | `strptime(s, "%Y-%m-%d")` only yields valid dates |
| Calendar.ParseIsoOfIso | backend/data/charts.py:190 | `strptime` reads back what `strftime` writes |
| Calendar.ParseIsoJoined | backend/data/charts.py:190 | `strptime` of a four-digit year, a month and a day joined by dashes reads the three fields and accepts exactly a valid date |
| Calendar.IsoInjective | backend/data/charts.py:190 | distinct dates render to distinct strings |
| Calendar.Iso | backend/data/charts.py:174-176 | `strftime("%Y-%m-%d")` of a valid date is ten characters with dashes at positions 4 and 7; `ParseIsoOfIso` reads it back |
| CleanJson.Clean | backend/data/charts.py:26-33 | the cleaned text is no longer than the stripped reply |
| CleanJson.CleanWithoutFence | backend/data/charts.py:30-32 | a reply without a fence is only stripped |
| CleanJson.CleanFenced | backend/data/charts.py:30-32 | a body fenced as ```` ```json ```` … ```` ``` ```` comes back as the body plus its newline |
| Tally.OrderMembers | backend/data/charts.py:186-193 | the dict's key order lists exactly the keys seen so far |
| Tally.AccumulateKeys | backend/data/charts.py:193 | the dict's keys are exactly the keys in that order |
| Tally.AccumulateIsTotalOf | backend/data/charts.py:193 | the dict holds, under every key, the sum of the counts at that key |
| Tally.SumOverPermutation | backend/data/charts.py:195-198 | summing a dict over its keys does not depend on the key order |
| Tally.SumOverAccumulate | backend/data/charts.py:186-193 | the dict's values add up to the sum of all counts |
| Sorting.LessTransitive | backend/data/charts.py:197 | Python string order is transitive |
| Sorting.LessTotal | backend/data/charts.py:197 | any two distinct strings are ordered |
| Sorting.Sort | backend/data/charts.py:197 | `sorted` returns a permutation of its input |
| Sorting.SortMembers | backend/data/charts.py:197 | `sorted` keeps exactly the keys it is given |
| Sorting.SortAscending | backend/data/charts.py:197 | `sorted` over distinct keys is strictly ascending |
| Sorting.AscendingUnique | backend/data/charts.py:197 | two ascending lists with the same elements are equal, so the sorted order is the only one |
| ChartsGrouping.NormaliseDate | backend/data/charts.py:189-192 | a key is never empty |
| ChartsGrouping.NormaliseDateIdempotent | backend/data/charts.py:189-192 | normalising a key again changes nothing |
| ChartsGrouping.NormaliseIso | backend/data/charts.py:190 | a canonical date is its own key |
| ChartsGrouping.NormaliseDateMergesPadding | backend/data/charts.py:190 | "2025-8-1" and "2025-08-01" share the key "2025-08-01" |
| ChartsGrouping.MissingDateKey | backend/data/charts.py:188-192 | a missing or null date is keyed "None"; an empty date string is keyed "No Date" |
| ChartsGrouping.ImpressionOf | backend/data/charts.py:193 | a missing count adds 0; a null count raises |
| ChartsGrouping.PointsOf | backend/data/charts.py:195-198 | one `{"date", "impressions"}` item per key, in key order, with that key's total |
| ChartsGrouping.GroupImpressions | backend/data/charts.py:186-198 | the loop and the sorted comprehension compute `Grouped`: raises if some count does not convert; otherwise the totals per key in sorted key order |
| ChartsGrouping.Grouped | backend/data/charts.py:186-198 | raises exactly when some entry's impressions do not convert; its totals, dates and order are stated by the `Grouped*` lemmas |
| ChartsGrouping.GroupedAscending | backend/data/charts.py:197 | the series' dates are strictly ascending |
| ChartsGrouping.GroupedTotals | backend/data/charts.py:193 | each point's impressions are the sum over the entries with its date |
| ChartsGrouping.GroupedDates | backend/data/charts.py:186-198 | a date has a point exactly when some entry has that date |
| ChartsGrouping.GroupedDatesSorted | backend/data/charts.py:186-198 | the series' dates are the first-seen keys, sorted |
| ChartsGrouping.GroupedGrandTotal | backend/data/charts.py:186-198 | the points add up to the total impressions of all entries |
| ChartsFallback.FallbackData | backend/data/charts.py:208-242 | the fallback is a dict with exactly the six sections; `FallbackDataHasNamedKeys` states that its own rows carry every field its metrics and visualizations name |
| ChartsFallback.FallbackDataHasNamedKeys | backend/data/charts.py:208-228 | in the payload `_fallback_data()` returns, every row of `data` holds every field any of its metrics or visualizations names |
| ChartsFallback.StrItems | backend/data/charts.py:222 | the string items of a list, exactly |
| ChartsFallback.FallbackRowsHaveNamedKeys | backend/data/charts.py:211-228 | every field a fallback metric or visualization names is present in every fallback row |
| ChartsFallback.FallbackLineAscending | backend/data/charts.py:238-241 | the fallback line chart is in the order the grouping emits: strictly ascending dates |
| ChartsFallback.FallbackLineNormalised | backend/data/charts.py:238-241 | each fallback date is already a normalised key |
| Charts.SelectConfig | backend/data/charts.py:124-158 | the loop's outcome is `FirstConfig`: the first model that is not skipped decides |
| Charts.StepOfCases | backend/data/charts.py:136-158 | a reply is accepted exactly when it is a 200 whose cleaned content parses, and then carries the parsed value; the loop is left by an exception exactly when the call raises or a 200 has no content; every other reply moves to the next model |
| Charts.FirstConfig | backend/data/charts.py:127-158 | no models means the models ran out; the outcome in general is stated by `FirstConfigFound` and `FirstConfigExhausted` |
| Charts.FirstConfigFound | backend/data/charts.py:127-151 | a configuration is found exactly when some model's reply parses to it and every earlier model was skipped |
| Charts.WitnessIsFound | backend/data/charts.py:127-151 | a model whose reply parses, after only skipped models, supplies the configuration |
| Charts.FirstConfigExhausted | backend/data/charts.py:148-158 | the models run out exactly when every one is skipped |
| Charts.FirstConfigAfterSkips | backend/data/charts.py:148-158 | skipped models leave no trace |
| Charts.FirstConfigIgnoresLater | backend/data/charts.py:145-147 | once a model decides, the later ones are never asked |
| Charts.DateText | backend/data/charts.py:166-171 | raises exactly when `filters` is present and not a dict |
| Charts.DateFilter | backend/data/charts.py:173-178 | raises exactly for "yesterday" at `date.min`; the filter has at most the key "date", present exactly for non-empty text |
| Charts.BuildFilter | backend/data/charts.py:165-178 | the in-place `mongo_filter` equals `DateFilter` |
| Charts.YesterdayFilter | backend/data/charts.py:173-174 | "yesterday" selects the date whose next day is today |
| Charts.TodayFilter | backend/data/charts.py:175-176 | "today" selects today's date |
| Charts.LiteralFilter | backend/data/charts.py:177-178 | any other non-empty text is matched literally |
| Charts.DateTextIgnoresCase | backend/data/charts.py:169 | texts that lower-case alike give the same filter text, the lower-cased one |
| Charts.DateTextOfPlainValue | backend/data/charts.py:170-171 | a truthy `filters.date` that is not a dict is read as its lower-cased `str`; a non-empty string as itself, lower-cased |
| Charts.DateTextOfFalsyValue | backend/data/charts.py:166-171 | a falsy `filters.date` that is not a dict gives no date text |
| Charts.CapitalisedYesterday | backend/data/charts.py:169-174 | "Yesterday", as a dict's `value` or as the bare `date` string, means yesterday |
| Charts.NullDateValue | backend/data/charts.py:169-178 | a null date value filters on the text "none" |
| Charts.NoDateNoFilter | backend/data/charts.py:166-171 | a date dict without a value, or an absent or falsy date, gives no filter |
| Charts.DocsJson | backend/data/charts.py:181 | each fetched row becomes a dict item, in order |
| Charts.DataRows | backend/data/charts.py:181-182 | `data` is never empty: the fetched rows when there are any, the fallback rows otherwise |
| Charts.PointsJson | backend/data/charts.py:195-198 | one item per point, in order |
| Charts.ProcessQuery | backend/data/charts.py:37-205 | the handler's result equals `Respond` |
| Charts.Respond | backend/data/charts.py:37-205 | every response is a JSON object; with a key and a database it always holds `data` and `line_chart_data`; the normal path is stated by `RespondServesConfig` |
| Charts.Enrich | backend/data/charts.py:164-200 | a configuration that is not a dict raises; an enriched configuration is a dict holding `data` and `line_chart_data`, whose contents `EnrichDataRows` and `EnrichLineTotals` state |
| Charts.EnrichConfig | backend/data/charts.py:164-200 | the part after a truthy configuration equals `Enrich` |
| Charts.RespondWithoutKey | backend/data/charts.py:39-40 | without an API key the reply is the key error, whatever else holds |
| Charts.RespondWithoutDatabase | backend/data/charts.py:41-42 | with a key but no database the reply is the database error |
| Charts.RespondWhenModelsFail | backend/data/charts.py:153-162 | when every model is skipped, the fallback is served |
| Charts.RespondFalsyConfig | backend/data/charts.py:145-162 | a falsy configuration from the first model serves the fallback |
| Charts.RespondServesConfig | backend/data/charts.py:145-205 | with a key and a database, a truthy configuration the model loop finds is served enriched, and the fallback only when enriching it raises |
| Charts.RespondServesFirstReply | backend/data/charts.py:142-147 | when the first model's reply parses to a truthy configuration that enriches, that enriched configuration is the response |
| Charts.FallbackServable | backend/data/charts.py:208-242 | the fallback has non-empty rows and an ascending line chart |
| Charts.EnrichServable | backend/data/charts.py:164-200 | an enriched configuration has non-empty rows and an ascending line chart, and keeps every other field the model chose |
| Charts.EnrichLineTotals | backend/data/charts.py:185-198 | the line chart of an enriched configuration is the grouped history of the whole collection |
| Charts.EnrichDataRows | backend/data/charts.py:164-182 | the `data` of an enriched configuration is what `find` returned for the resolved date filter, or the fallback rows when that was empty |
| Charts.RespondServable | backend/data/charts.py:37-205 | with a key and a database every response has non-empty rows and an ascending line chart |
| Charts.AttachServable | backend/data/charts.py:181-200 | attaching `data` and `line_chart_data` adds exactly those keys, keeps every other field, and gives non-empty rows and an ascending line chart |

## Left out

- Markup, styling, icons' artwork, animations, toasts, `console.log` and `print` output are not modelled; the views are modelled as the data they render.
- The language-model prompt text, the request payload and headers, and the models' behaviour: `post` and `parse` are arbitrary functions.
- Network and database I/O, `date.today()` and `window.history.back()`: parameters or left out. The collection's `find` is a parameter. The history query's projection is not modelled, because the grouping reads only `date` and `impressions`.
- MongoDB matching semantics: a filter is the dict `mongo_filter`; which rows it selects is up to `find`.
- Concurrency of the React state updates: `handleSubmit` is modelled as `Submit` followed by `Settle`, with no interleaving of other events.
- Payload.NumberOfText: JavaScript `Number` of a string is modelled for blank text and signed decimal literals only; exponents, `0x`/`0o`/`0b` literals and `Infinity`, which JavaScript parses, give NaN here.
- CombinedDashboard.KeyMetrics: the digits `toLocaleString()` and `toFixed(2)` produce are not modelled; the card records which rendering applies to which number. Numbers are exact reals, with no floating-point rounding.
- VisualizationHub.CardsFor: the CSS `capitalize` of the caption is presentation and is not modelled.
- VisualizationHub.Render: a selection past the end of the descriptors (not reachable by clicking) is a render error, not the thrown exception itself.
- Text.Lower: lower-cases ASCII letters only; it stands for both Python's `str.lower` and JavaScript's `toLowerCase`, which also fold non-ASCII letters.
- PyJson.PyInt: `int` of text accepts ASCII digits and surrounding whitespace only; Unicode digits and `_` separators are not modelled.
- Calendar.ParseIso: `strptime` is modelled for ASCII digits; the year must be four digits, as `strftime` writes it for years 1000 to 9999; dates stored as BSON dates rather than strings are not modelled.
- Calendar.Iso: writes the year as four zero-padded digits; for years before 1000 the output of `strftime("%Y")` depends on the platform's C library.
- ChartsGrouping.GroupImpressions: stated for any key function; the handler uses `DateKey`, whose key for odd dates (floats, lists, dicts) comes from the `reprOf` parameter.
- Charts.Enrich: a response item that is a Mongo document is kept as the document; ObjectId and BSON types are not modelled.

=== FILE: calendar.dfy ===
/**
  * Proleptic Gregorian dates as Python's `datetime.date` holds them (years 1
  * to 9999), the step back one day that `date.today() - timedelta(days=1)`
  * takes, and the `"%Y-%m-%d"` format in both directions: `strftime` renders
  * it, `strptime` parses it.
  */
module Calendar {
  import opened Wrappers
  import Text

  datatype Date = Date(year: int, month: int, day: int)

  predicate IsLeapYear(y: int) {
    y % 4 == 0 && (y % 100 != 0 || y % 400 == 0)
  }

  function DaysInMonth(y: int, m: int): (n: int)
    requires 1 <= m <= 12
    ensures 28 <= n <= 31
    ensures n == 29 <==> m == 2 && IsLeapYear(y)
  {
    if m == 2 then (if IsLeapYear(y) then 29 else 28)
    else if m == 4 || m == 6 || m == 9 || m == 11 then 30
    else 31
  }

  /** The dates `datetime.date` can represent. */
  predicate Valid(d: Date) {
    1 <= d.year <= 9999 && 1 <= d.month <= 12 && 1 <= d.day <= DaysInMonth(d.year, d.month)
  }

  const MinDate := Date(1, 1, 1)
  const MaxDate := Date(9999, 12, 31)

  /** `d - timedelta(days=1)`; `date.min` has no predecessor and the subtraction raises. */
  function PrevDay(d: Date): (r: Option<Date>)
    requires Valid(d)
    ensures r.None? <==> d == MinDate
    ensures r.Some? ==> Valid(r.value)
  {
    if d.day > 1 then Some(Date(d.year, d.month, d.day - 1))
    else if d.month > 1 then Some(Date(d.year, d.month - 1, DaysInMonth(d.year, d.month - 1)))
    else if d.year > 1 then Some(Date(d.year - 1, 12, 31))
    else None
  }

  /** `d + timedelta(days=1)`; `date.max` has no successor. */
  function NextDay(d: Date): (r: Option<Date>)
    requires Valid(d)
    ensures r.None? <==> d == MaxDate
    ensures r.Some? ==> Valid(r.value)
  {
    if d.day < DaysInMonth(d.year, d.month) then Some(Date(d.year, d.month, d.day + 1))
    else if d.month < 12 then Some(Date(d.year, d.month + 1, 1))
    else if d.year < 9999 then Some(Date(d.year + 1, 1, 1))
    else None
  }

  /** Stepping back a day and then forward again returns to the start. */
  lemma NextDayOfPrevDay(d: Date)
    requires Valid(d) && d != MinDate
    ensures NextDay(PrevDay(d).value) == Some(d)
  {
  }

  /** Stepping forward a day and then back again returns to the start. */
  lemma PrevDayOfNextDay(d: Date)
    requires Valid(d) && d != MaxDate
    ensures PrevDay(NextDay(d).value) == Some(d)
  {
  }

  /** Dates in order: the day before `d` comes before it. */
  predicate Before(a: Date, b: Date) {
    a.year < b.year || (a.year == b.year && (a.month < b.month || (a.month == b.month && a.day < b.day)))
  }

  lemma PrevDayIsBefore(d: Date)
    requires Valid(d) && d != MinDate
    ensures Before(PrevDay(d).value, d)
  {
  }

  /** Two decimal digits, zero-padded: `%m` and `%d`. */
  function Two(n: int): (s: string)
    requires 0 <= n < 100
    ensures |s| == 2 && Text.AllDigits(s)
  {
    [Text.DigitChar(n / 10), Text.DigitChar(n % 10)]
  }

  /** Four decimal digits, zero-padded: `%Y`. */
  function Four(n: int): (s: string)
    requires 0 <= n < 10000
    ensures |s| == 4 && Text.AllDigits(s)
  {
    [Text.DigitChar(n / 1000), Text.DigitChar(n / 100 % 10), Text.DigitChar(n / 10 % 10), Text.DigitChar(n % 10)]
  }

  /** `d.strftime("%Y-%m-%d")`. */
  function Iso(d: Date): (s: string)
    requires Valid(d)
    ensures |s| == 10 && s[4] == '-' && s[7] == '-'
  {
    Four(d.year) + "-" + Two(d.month) + "-" + Two(d.day)
  }

  /** `%m` in `strptime`: the pattern `1[0-2]|0[1-9]|[1-9]`, which the whole month field must match. */
  function MonthField(t: string): Option<int> {
    if |t| == 2 && t[0] == '1' && '0' <= t[1] <= '2' then Some(10 + Text.DigitValue(t[1]))
    else if |t| == 2 && t[0] == '0' && '1' <= t[1] <= '9' then Some(Text.DigitValue(t[1]))
    else if |t| == 1 && '1' <= t[0] <= '9' then Some(Text.DigitValue(t[0]))
    else None
  }

  /** `%d` in `strptime`: the pattern `3[01]|[12]\d|0[1-9]|[1-9]| [1-9]`, which the rest of the text must match. */
  function DayField(t: string): Option<int> {
    if |t| == 2 && t[0] == '3' && (t[1] == '0' || t[1] == '1') then Some(30 + Text.DigitValue(t[1]))
    else if |t| == 2 && (t[0] == '1' || t[0] == '2') && Text.IsDigit(t[1]) then Some(Text.DigitValue(t[0]) * 10 + Text.DigitValue(t[1]))
    else if |t| == 2 && t[0] == '0' && '1' <= t[1] <= '9' then Some(Text.DigitValue(t[1]))
    else if |t| == 1 && '1' <= t[0] <= '9' then Some(Text.DigitValue(t[0]))
    else if |t| == 2 && t[0] == ' ' && '1' <= t[1] <= '9' then Some(Text.DigitValue(t[1]))
    else None
  }

  /**
    * `datetime.strptime(s, "%Y-%m-%d")`: four digits, a dash, a month field,
    * a dash and a day field covering the rest, naming a date that exists.
    * None stands for the `ValueError` it raises otherwise.
    */
  function ParseIso(s: string): (r: Option<Date>)
    ensures r.Some? ==> Valid(r.value)
  {
    if |s| < 5 || !Text.AllDigits(s[..4]) || s[4] != '-' then None
    else
      var rest := s[5..];
      var j := Text.IndexOf(rest, '-');
      if j == |rest| then None
      else
        var y := Text.DigitsValue(s[..4]);
        match (MonthField(rest[..j]), DayField(rest[j + 1..]))
        case (Some(m), Some(d)) =>
          var date := Date(y, m, d);
          if Valid(date) then Some(date) else None
        case _ => None
  }

  /** How `strptime` reads a year, a dash-free month field and a day field joined by dashes. */
  lemma ParseIsoJoined(y: string, m: string, d: string)
    requires |y| == 4 && Text.AllDigits(y)
    requires forall k :: 0 <= k < |m| ==> m[k] != '-'
    ensures ParseIso(y + "-" + m + "-" + d) ==
      match (MonthField(m), DayField(d))
      case (Some(mm), Some(dd)) =>
        if Valid(Date(Text.DigitsValue(y), mm, dd)) then Some(Date(Text.DigitsValue(y), mm, dd)) else None
      case _ => None
  {
    var s := y + "-" + m + "-" + d;
    var rest := s[5..];
    assert s[..4] == y;
    assert rest == m + "-" + d;
    DashAfter(m, d);
    assert rest[..|m|] == m && rest[|m| + 1..] == d;
  }

  /** The first dash of `m + "-" + d` when `m` has none is the one after `m`. */
  lemma {:induction false} DashAfter(m: string, d: string)
    requires forall k :: 0 <= k < |m| ==> m[k] != '-'
    ensures Text.IndexOf(m + "-" + d, '-') == |m|
    decreases |m|
  {
    if m != [] {
      assert (m + "-" + d)[1..] == m[1..] + "-" + d;
      DashAfter(m[1..], d);
    }
  }

  /** The `%Y-%m-%d` rendering of a day of August 2025 below the tenth. */
  lemma AugustIso(day: int)
    requires 1 <= day <= 9
    ensures Iso(Date(2025, 8, day)) == "2025-08-0" + [Text.DigitChar(day)]
  {
    assert Four(2025) == "2025";
    assert Two(8) == "08";
    assert Two(day) == "0" + [Text.DigitChar(day)];
  }

  lemma DigitsValueOfFour(n: int)
    requires 0 <= n < 10000
    ensures Text.DigitsValue(Four(n)) == n
  {
    var s1 := [] + [Text.DigitChar(n / 1000)];
    var s2 := s1 + [Text.DigitChar(n / 100 % 10)];
    var s3 := s2 + [Text.DigitChar(n / 10 % 10)];
    var s4 := s3 + [Text.DigitChar(n % 10)];
    Text.DigitsValueSnoc([], n / 1000);
    Text.DigitsValueSnoc(s1, n / 100 % 10);
    Text.DigitsValueSnoc(s2, n / 10 % 10);
    Text.DigitsValueSnoc(s3, n % 10);
    ShiftDigits(n);
    assert s4 == Four(n);
  }

  /** Peeling decimal places off `n` one at a time. */
  lemma ShiftDigits(n: int)
    requires 0 <= n < 10000
    ensures (n / 1000) * 10 + n / 100 % 10 == n / 100
    ensures (n / 100) * 10 + n / 10 % 10 == n / 10
    ensures (n / 10) * 10 + n % 10 == n
  {
  }


  lemma MonthFieldOfTwo(m: int)
    requires 1 <= m <= 12
    ensures MonthField(Two(m)) == Some(m)
  {
  }

  lemma DayFieldOfTwo(d: int)
    requires 1 <= d <= 31
    ensures DayField(Two(d)) == Some(d)
  {
  }

  /** `strptime` reads back what `strftime` wrote: the format round-trips every representable date. */
  lemma ParseIsoOfIso(d: Date)
    requires Valid(d)
    ensures ParseIso(Iso(d)) == Some(d)
  {
    var s := Iso(d);
    assert s[..4] == Four(d.year);
    var rest := s[5..];
    assert rest == Two(d.month) + "-" + Two(d.day);
    assert rest[2] == '-';
    assert Text.IndexOf(rest, '-') == 2;
    assert rest[..2] == Two(d.month);
    assert rest[3..] == Two(d.day);
    DigitsValueOfFour(d.year);
    MonthFieldOfTwo(d.month);
    DayFieldOfTwo(d.day);
  }

  /** Rendering is injective on dates: distinct dates give distinct texts. */
  lemma IsoInjective(a: Date, b: Date)
    requires Valid(a) && Valid(b) && Iso(a) == Iso(b)
    ensures a == b
  {
    ParseIsoOfIso(a);
    ParseIsoOfIso(b);
  }
}

=== FILE: charts.dfy ===
/**
  * `process_query`, the `/query` route: check the API key and the database,
  * ask the language models in turn for a dashboard configuration, resolve
  * its date filter, attach the matching rows (or the fallback rows) and the
  * impression history grouped by date, and serve the fallback configuration
  * whenever a step raises.
  *
  * The HTTP call, `json.loads`, the collection's `find`, `date.today()` and
  * `str` of floats, lists and dicts are parameters: `post`, `parse`, `find`,
  * `today` and `reprOf`.
  */
module Charts {
  import opened Wrappers
  import Text
  import opened PyJson
  import Calendar
  import CleanJson
  import ChartsGrouping
  import ChartsFallback
  import Sorting

  type Doc = ChartsGrouping.Doc

  /** The models asked, in order. */
  const Models: seq<string> := [
    "deepseek/deepseek-r1-0528-qwen3-8b:free",
    "mistralai/mistral-small-3.2-24b-instruct:free",
    "openrouter/horizon-beta"
  ]

  /**
    * What the chat-completions call comes back with: the status code and,
    * for a 200, the string at `choices[0].message.content` (None when the
    * body holds no such string, so that reading or stripping it raises).
    * `Unreachable` stands for `requests.post` itself raising.
    */
  datatype Reply = Answered(status: int, content: Option<string>) | Unreachable

  /** What the loop does with one reply: keep the parsed configuration, try the next model, or leave the loop by an exception. */
  datatype Step = Accept(config: Json) | Skip | Abort

  function StepOf(reply: Reply, parse: string -> Option<Json>): Step {
    match reply
    case Unreachable => Abort
    case Answered(status, content) =>
      if status != 200 then Skip
      else if content.None? then Abort
      else match parse(CleanJson.Clean(content.value))
        case Some(config) => Accept(config)
        case None => Skip
  }

  /**
    * A reply is accepted exactly when it is a 200 whose cleaned content
    * parses, and then carries the parsed value; the loop is left by an
    * exception exactly when the call raises or a 200 carries no content.
    */
  lemma StepOfCases(reply: Reply, parse: string -> Option<Json>)
    ensures var s := StepOf(reply, parse);
      (s.Accept? <==> reply.Answered? && reply.status == 200 && reply.content.Some? && parse(CleanJson.Clean(reply.content.value)).Some?) &&
      (s.Accept? ==> parse(CleanJson.Clean(reply.content.value)) == Some(s.config)) &&
      (s.Abort? <==> reply.Unreachable? || (reply.status == 200 && reply.content.None?))
  {
  }

  /** How the model loop ends. */
  datatype Selection = Found(config: Json) | Exhausted | Aborted

  /** The outcome of asking `models` in order. */
  function FirstConfig(models: seq<string>, post: string -> Reply, parse: string -> Option<Json>): (r: Selection)
    ensures models == [] ==> r == Exhausted
  {
    if models == [] then Exhausted
    else match StepOf(post(models[0]), parse)
      case Accept(config) => Found(config)
      case Abort => Aborted
      case Skip => FirstConfig(models[1..], post, parse)
  }

  /** The model loop, which leaves with `break` on the first configuration that parses. */
  method SelectConfig(models: seq<string>, post: string -> Reply, parse: string -> Option<Json>) returns (selection: Selection)
    ensures selection == FirstConfig(models, post, parse)
  {
    var config: Option<Json> := None;
    var i := 0;
    while i < |models|
      invariant 0 <= i <= |models|
      invariant config.None?
      invariant FirstConfig(models, post, parse) == FirstConfig(models[i..], post, parse)
    {
      assert models[i..][0] == models[i] && models[i..][1..] == models[i + 1..];
      var reply := post(models[i]);
      if reply.Unreachable? {
        return Aborted;
      }
      if reply.status == 200 {
        if reply.content.None? {
          return Aborted;
        }
        var cleaned := CleanJson.Clean(reply.content.value);
        config := parse(cleaned);
        if config.Some? {
          break;
        }
      }
      // a 429 or any other status, or a reply that does not parse: ask the next model
      i := i + 1;
    }
    selection := if config.Some? then Found(config.value) else Exhausted;
  }

  /** The first `i` models were all skipped. */
  predicate SkippedBefore(models: seq<string>, post: string -> Reply, parse: string -> Option<Json>, i: nat)
    requires i <= |models|
  {
    forall j :: 0 <= j < i ==> StepOf(post(models[j]), parse) == Skip
  }

  /** Skipped models leave no trace: the outcome is that of the models after them. */
  lemma {:induction false} FirstConfigAfterSkips(models: seq<string>, post: string -> Reply, parse: string -> Option<Json>, i: nat)
    requires i <= |models| && SkippedBefore(models, post, parse, i)
    ensures FirstConfig(models, post, parse) == FirstConfig(models[i..], post, parse)
  {
    if i > 0 {
      assert SkippedBefore(models[1..], post, parse, i - 1) by {
        forall j | 0 <= j < i - 1
          ensures StepOf(post(models[1..][j]), parse) == Skip
        {
          assert models[1..][j] == models[j + 1];
        }
      }
      FirstConfigAfterSkips(models[1..], post, parse, i - 1);
      assert models[1..][i - 1..] == models[i..];
    }
  }

  /**
    * The loop finds `config` exactly when some model's reply parses to it
    * and every model before that one was skipped.
    */
  lemma FirstConfigFound(models: seq<string>, post: string -> Reply, parse: string -> Option<Json>, config: Json)
    ensures FirstConfig(models, post, parse) == Found(config) <==>
      exists i :: 0 <= i < |models| && SkippedBefore(models, post, parse, i) && StepOf(post(models[i]), parse) == Accept(config)
  {
    if FirstConfig(models, post, parse) == Found(config) {
      FoundHasWitness(models, post, parse, config);
    }
    forall i | 0 <= i < |models| && SkippedBefore(models, post, parse, i) && StepOf(post(models[i]), parse) == Accept(config)
      ensures FirstConfig(models, post, parse) == Found(config)
    {
      WitnessIsFound(models, post, parse, config, i);
    }
  }

  lemma FoundHasWitness(models: seq<string>, post: string -> Reply, parse: string -> Option<Json>, config: Json)
    requires FirstConfig(models, post, parse) == Found(config)
    ensures exists i :: 0 <= i < |models| && SkippedBefore(models, post, parse, i) && StepOf(post(models[i]), parse) == Accept(config)
  {
    var k := FirstFrom(models, post, parse);
    assert StepOf(post(models[k]), parse) == Accept(config);
  }

  lemma WitnessIsFound(models: seq<string>, post: string -> Reply, parse: string -> Option<Json>, config: Json, i: nat)
    requires i < |models| && SkippedBefore(models, post, parse, i) && StepOf(post(models[i]), parse) == Accept(config)
    ensures FirstConfig(models, post, parse) == Found(config)
  {
    FirstConfigAfterSkips(models, post, parse, i);
    assert models[i..][0] == models[i];
  }

  /** The loop runs out of models exactly when every model is skipped. */
  lemma FirstConfigExhausted(models: seq<string>, post: string -> Reply, parse: string -> Option<Json>)
    ensures FirstConfig(models, post, parse) == Exhausted <==> SkippedBefore(models, post, parse, |models|)
  {
    var outcome := FirstFrom(models, post, parse);
    if SkippedBefore(models, post, parse, |models|) {
      FirstConfigAfterSkips(models, post, parse, |models|);
    }
  }

  /** Where the loop stops: the first model not skipped, or `|models|`. */
  lemma {:induction false} FirstFrom(models: seq<string>, post: string -> Reply, parse: string -> Option<Json>) returns (k: nat)
    ensures k <= |models| && SkippedBefore(models, post, parse, k)
    ensures k == |models| ==> FirstConfig(models, post, parse) == Exhausted
    ensures k < |models| ==> FirstConfig(models, post, parse) == match StepOf(post(models[k]), parse)
      case Accept(config) => Found(config)
      case Abort => Aborted
      case Skip => Exhausted
    ensures k < |models| ==> !StepOf(post(models[k]), parse).Skip?
  {
    if models == [] {
      k := 0;
    } else if !StepOf(post(models[0]), parse).Skip? {
      k := 0;
    } else {
      var rest := FirstFrom(models[1..], post, parse);
      k := rest + 1;
      forall j | 0 <= j < k
        ensures StepOf(post(models[j]), parse) == Skip
      {
        if j > 0 {
          assert models[j] == models[1..][j - 1];
        }
      }
      if k < |models| {
        assert models[k] == models[1..][rest];
      }
    }
  }

  /** Once a model decides the outcome, the models after it are never asked. */
  lemma {:induction false} FirstConfigIgnoresLater(a: seq<string>, b: seq<string>, post: string -> Reply, parse: string -> Option<Json>)
    ensures FirstConfig(a + b, post, parse) ==
      if FirstConfig(a, post, parse).Exhausted? then FirstConfig(b, post, parse) else FirstConfig(a, post, parse)
  {
    if a == [] {
      assert a + b == b;
    } else {
      assert (a + b)[0] == a[0] && (a + b)[1..] == a[1..] + b;
      FirstConfigIgnoresLater(a[1..], b, post, parse);
    }
  }

  /** `OPENROUTER_API_KEY` is set and not empty. */
  predicate KeyPresent(apiKey: Option<string>) {
    apiKey.Some? && apiKey.value != []
  }

  const MissingKeyMessage := "Missing OpenRouter API key"
  const NoDatabaseMessage := "Database not connected"

  function ErrorReply(message: string): Json {
    JObj(map["error" := JStr(message)])
  }

  /**
    * `date_str`: the lower-cased `filters.date.value` when `filters.date` is a
    * dict (an absent value reads as ""), the lower-cased `str` of a truthy
    * non-dict `filters.date`, None otherwise. Raised when `filters` is present
    * but not a dict, so that `.get` fails.
    */
  function DateText(config: map<string, Json>, reprOf: Json -> string): (r: Attempt<Option<string>>)
    ensures r == Raised <==> "filters" in config && !config["filters"].JObj?
  {
    var filters := if "filters" in config then config["filters"] else JObj(map[]);
    if !filters.JObj? then Raised
    else
      var info := if "date" in filters.fields then filters.fields["date"] else JNull;
      if info.JObj? then
        var value := if "value" in info.fields then info.fields["value"] else JStr("");
        Done(Some(Text.Lower(PyStr(value, reprOf))))
      else if Truthy(info) then Done(Some(Text.Lower(PyStr(info, reprOf))))
      else Done(None)
  }

  predicate MeansYesterday(text: Option<string>) {
    text == Some("yesterday") || text == Some("yesterday's")
  }

  predicate MeansToday(text: Option<string>) {
    text == Some("today") || text == Some("today's")
  }

  /**
    * `mongo_filter`: the day before `today` or `today` itself for the two
    * relative words (with or without "'s"), any other non-empty text as it
    * stands, no filter otherwise. Stepping back from the first representable
    * date raises.
    */
  function DateFilter(text: Option<string>, today: Calendar.Date): (r: Attempt<map<string, string>>)
    requires Calendar.Valid(today)
    ensures r == Raised <==> MeansYesterday(text) && today == Calendar.MinDate
    ensures r.Done? ==> r.value.Keys <= {"date"}
    ensures r.Done? ==> ("date" in r.value <==> text.Some? && text.value != [])
  {
    if MeansYesterday(text) then
      match Calendar.PrevDay(today)
      case Some(yesterday) => Done(map["date" := Calendar.Iso(yesterday)])
      case None => Raised
    else if MeansToday(text) then Done(map["date" := Calendar.Iso(today)])
    else if text.Some? && text.value != [] then Done(map["date" := text.value])
    else Done(map[])
  }

  /** "yesterday" selects the rows stamped with the date whose next day is today. */
  lemma YesterdayFilter(text: Option<string>, today: Calendar.Date)
    requires Calendar.Valid(today) && today != Calendar.MinDate && MeansYesterday(text)
    ensures var f := DateFilter(text, today);
      f.Done? && "date" in f.value &&
      Calendar.ParseIso(f.value["date"]).Some? &&
      Calendar.NextDay(Calendar.ParseIso(f.value["date"]).value) == Some(today)
  {
    var y := Calendar.PrevDay(today).value;
    Calendar.ParseIsoOfIso(y);
    Calendar.NextDayOfPrevDay(today);
  }

  /** "today" selects the rows stamped with today's date. */
  lemma TodayFilter(text: Option<string>, today: Calendar.Date)
    requires Calendar.Valid(today) && MeansToday(text)
    ensures var f := DateFilter(text, today);
      f.Done? && "date" in f.value && Calendar.ParseIso(f.value["date"]) == Some(today)
  {
    Calendar.ParseIsoOfIso(today);
  }

  /** Any other non-empty text is matched literally, whatever it is. */
  lemma LiteralFilter(text: string, today: Calendar.Date)
    requires Calendar.Valid(today) && text != []
    requires !MeansYesterday(Some(text)) && !MeansToday(Some(text))
    ensures DateFilter(Some(text), today) == Done(map["date" := text])
  {
  }

  /** A config whose date filter is the dict `{"value": v}`. */
  function WithDateValue(v: Json): map<string, Json> {
    map["filters" := JObj(map["date" := JObj(map["value" := v])])]
  }

  /** Texts that lower-case alike give the same filter. */
  lemma DateTextIgnoresCase(a: string, b: string, reprOf: Json -> string, today: Calendar.Date)
    requires Calendar.Valid(today) && Text.Lower(a) == Text.Lower(b)
    ensures DateText(WithDateValue(JStr(a)), reprOf) == DateText(WithDateValue(JStr(b)), reprOf)
    ensures DateText(WithDateValue(JStr(a)), reprOf) == Done(Some(Text.Lower(a)))
  {
  }

  /** A config whose `filters.date` is the value `v` itself rather than a dict. */
  function WithDate(v: Json): map<string, Json> {
    map["filters" := JObj(map["date" := v])]
  }

  /**
    * A truthy `filters.date` that is not a dict is read through `str` and
    * lower-cased; a non-empty string is read as itself, lower-cased.
    */
  lemma DateTextOfPlainValue(v: Json, reprOf: Json -> string)
    requires !v.JObj? && Truthy(v)
    ensures DateText(WithDate(v), reprOf) == Done(Some(Text.Lower(PyStr(v, reprOf))))
    ensures v.JStr? ==> DateText(WithDate(v), reprOf) == Done(Some(Text.Lower(v.s)))
  {
  }

  /** A falsy `filters.date` that is not a dict gives no date text. */
  lemma DateTextOfFalsyValue(v: Json, reprOf: Json -> string)
    requires !v.JObj? && !Truthy(v)
    ensures DateText(WithDate(v), reprOf) == Done(None)
  {
  }

  /** The word is lower-cased in two pieces, which keeps each literal short. */
  lemma LowerYesterday()
    ensures Text.Lower("Yesterday") == "yesterday"
  {
    assert "Yesterday" == "Yest" + "erday";
    assert "yesterday" == "yest" + "erday";
    LowerPieces("Yest", "erday");
  }

  lemma LowerPieces(a: string, b: string)
    requires a == "Yest" && b == "erday"
    ensures Text.Lower(a + b) == "yest" + "erday"
  {
    Text.LowerAppend(a, b);
    LowerHead(a);
    LowerTail(b);
  }

  lemma LowerHead(a: string)
    requires a == "Yest"
    ensures Text.Lower(a) == "yest"
  {
  }

  lemma LowerTail(b: string)
    requires b == "erday"
    ensures Text.Lower(b) == "erday"
  {
  }

  /** "Yesterday", capitalised as a user types it, still means the day before. */
  lemma CapitalisedYesterday(reprOf: Json -> string)
    ensures MeansYesterday(DateText(WithDateValue(JStr("Yesterday")), reprOf).value)
    ensures MeansYesterday(DateText(WithDate(JStr("Yesterday")), reprOf).value)
  {
    LowerYesterday();
    DateTextIgnoresCase("Yesterday", "yesterday", reprOf, Calendar.MinDate);
    DateTextOfPlainValue(JStr("Yesterday"), reprOf);
  }

  /** A null date value is rendered as "None" and lower-cased: the query then asks for rows dated "none". */
  lemma NullDateValue(reprOf: Json -> string, today: Calendar.Date)
    requires Calendar.Valid(today)
    ensures DateText(WithDateValue(JNull), reprOf) == Done(Some("none"))
    ensures DateFilter(Some("none"), today) == Done(map["date" := "none"])
  {
    var l := Text.Lower("None");
    assert l[0] == 'n' && l[1] == 'o' && l[2] == 'n' && l[3] == 'e';
    assert l == "none";
  }

  /** A date dict without a value, or an absent or falsy date, means no filter. */
  lemma NoDateNoFilter(config: map<string, Json>, reprOf: Json -> string, today: Calendar.Date)
    requires Calendar.Valid(today)
    requires "filters" in config && config["filters"].JObj?
    requires var f := config["filters"].fields;
      "date" !in f || (f["date"].JObj? && "value" !in f["date"].fields) || (!f["date"].JObj? && !Truthy(f["date"]))
    ensures DateText(config, reprOf).Done?
    ensures DateFilter(DateText(config, reprOf).value, today) == Done(map[])
  {
  }

  /** `[JObj(r) for r in rows]`. */
  function DocsJson(rows: seq<Doc>): (items: seq<Json>)
    ensures |items| == |rows|
    ensures forall i :: 0 <= i < |rows| ==> items[i] == JObj(rows[i])
  {
    seq(|rows|, i requires 0 <= i < |rows| => JObj(rows[i]))
  }

  /** `rows if rows else _fallback_data()["data"]`. */
  function DataRows(rows: seq<Doc>): (items: seq<Json>)
    ensures items != []
    ensures rows != [] ==> |items| == |rows| && forall i :: 0 <= i < |rows| ==> items[i] == JObj(rows[i])
    ensures rows == [] ==> items == ChartsFallback.FallbackRows
  {
    if rows != [] then DocsJson(rows) else ChartsFallback.FallbackRows
  }

  function PointJson(p: ChartsGrouping.Point): Json {
    JObj(map["date" := JStr(p.date), "impressions" := JInt(p.impressions)])
  }

  function PointsJson(ps: seq<ChartsGrouping.Point>): (items: seq<Json>)
    ensures |items| == |ps|
    ensures forall i :: 0 <= i < |ps| ==> items[i] == PointJson(ps[i])
  {
    seq(|ps|, i requires 0 <= i < |ps| => PointJson(ps[i]))
  }

  /** The grouping key the handler uses. */
  function DateKeyOf(reprOf: Json -> string): Doc -> string {
    entry => ChartsGrouping.DateKey(entry, reprOf)
  }

  /**
    * What happens to a truthy configuration: Raised wherever the handler
    * would raise (a non-dict config, a non-dict `filters`, no day before
    * `date.min`, a failed query, an impression count `int` refuses),
    * otherwise the config with `data` and `line_chart_data` set.
    */
  function Enrich(config: Json, today: Calendar.Date, find: map<string, string> -> Attempt<seq<Doc>>, reprOf: Json -> string): (r: Attempt<Json>)
    requires Calendar.Valid(today)
    ensures !config.JObj? ==> r == Raised
    ensures r.Done? ==> r.value.JObj? && "data" in r.value.fields && "line_chart_data" in r.value.fields
  {
    if !config.JObj? then Raised
    else match DateText(config.fields, reprOf)
      case Raised => Raised
      case Done(text) =>
        match DateFilter(text, today)
        case Raised => Raised
        case Done(filter) =>
          match find(filter)
          case Raised => Raised
          case Done(rows) =>
            match find(map[])
            case Raised => Raised
            case Done(history) =>
              match ChartsGrouping.Grouped(history, DateKeyOf(reprOf))
              case Raised => Raised
              case Done(points) =>
                Done(JObj(config.fields["data" := JArr(DataRows(rows))]["line_chart_data" := JArr(PointsJson(points))]))
  }

  /** The response of the route. */
  function Respond(
    apiKey: Option<string>, database: bool,
    post: string -> Reply, parse: string -> Option<Json>,
    today: Calendar.Date, find: map<string, string> -> Attempt<seq<Doc>>, reprOf: Json -> string): (r: Json)
    requires Calendar.Valid(today)
    ensures r.JObj?
    ensures KeyPresent(apiKey) && database ==> "data" in r.fields && "line_chart_data" in r.fields
  {
    if !KeyPresent(apiKey) then ErrorReply(MissingKeyMessage)
    else if !database then ErrorReply(NoDatabaseMessage)
    else match FirstConfig(Models, post, parse)
      case Found(config) =>
        if !Truthy(config) then ChartsFallback.FallbackData()
        else (match Enrich(config, today, find, reprOf)
          case Done(response) => response
          case Raised => ChartsFallback.FallbackData())
      case _ => ChartsFallback.FallbackData()
  }

  /** `process_query`, statement by statement. */
  method ProcessQuery(
    apiKey: Option<string>, database: bool,
    post: string -> Reply, parse: string -> Option<Json>,
    today: Calendar.Date, find: map<string, string> -> Attempt<seq<Doc>>, reprOf: Json -> string)
    returns (result: Json)
    requires Calendar.Valid(today)
    ensures result == Respond(apiKey, database, post, parse, today, find, reprOf)
  {
    if !KeyPresent(apiKey) {
      return ErrorReply(MissingKeyMessage);
    }
    if !database {
      return ErrorReply(NoDatabaseMessage);
    }
    var selection := SelectConfig(Models, post, parse);
    if !selection.Found? || !Truthy(selection.config) {
      return ChartsFallback.FallbackData();
    }
    var enriched := EnrichConfig(selection.config, today, find, reprOf);
    // the `except` clause: anything raised serves the fallback
    result := if enriched.Done? then enriched.value else ChartsFallback.FallbackData();
  }

  /** The part of `process_query` after a truthy configuration is in hand, up to `return config`. */
  method EnrichConfig(config: Json, today: Calendar.Date, find: map<string, string> -> Attempt<seq<Doc>>, reprOf: Json -> string)
    returns (result: Attempt<Json>)
    requires Calendar.Valid(today)
    ensures result == Enrich(config, today, find, reprOf)
  {
    if !config.JObj? {
      // `config.get` on a list, string or number raises
      return Raised;
    }
    var fields := config.fields;
    var dateText := DateText(fields, reprOf);
    if dateText.Raised? {
      return Raised;
    }
    var mongoFilter := BuildFilter(dateText.value, today);
    if mongoFilter.Raised? {
      return Raised;
    }
    var rows := find(mongoFilter.value);
    if rows.Raised? {
      return Raised;
    }
    fields := fields["data" := JArr(DataRows(rows.value))];
    var history := find(map[]);
    if history.Raised? {
      return Raised;
    }
    var series := ChartsGrouping.GroupImpressions(history.value, DateKeyOf(reprOf));
    if series.Raised? {
      return Raised;
    }
    fields := fields["line_chart_data" := JArr(PointsJson(series.value))];
    return Done(JObj(fields));
  }

  /** The `mongo_filter` dict, filled in place from `date_str`. */
  method BuildFilter(dateStr: Option<string>, today: Calendar.Date) returns (filter: Attempt<map<string, string>>)
    requires Calendar.Valid(today)
    ensures filter == DateFilter(dateStr, today)
  {
    var mongoFilter: map<string, string> := map[];
    if MeansYesterday(dateStr) {
      var yesterday := Calendar.PrevDay(today);
      if yesterday.None? {
        // `date.min - timedelta(days=1)` overflows
        return Raised;
      }
      mongoFilter := mongoFilter["date" := Calendar.Iso(yesterday.value)];
    } else if MeansToday(dateStr) {
      mongoFilter := mongoFilter["date" := Calendar.Iso(today)];
    } else if dateStr.Some? && dateStr.value != [] {
      mongoFilter := mongoFilter["date" := dateStr.value];
    }
    return Done(mongoFilter);
  }

  /** Without an API key the route answers with the key error, whatever the database and the models would do. */
  lemma RespondWithoutKey(
    apiKey: Option<string>, database: bool,
    post: string -> Reply, parse: string -> Option<Json>,
    today: Calendar.Date, find: map<string, string> -> Attempt<seq<Doc>>, reprOf: Json -> string)
    requires Calendar.Valid(today) && !KeyPresent(apiKey)
    ensures Respond(apiKey, database, post, parse, today, find, reprOf) == ErrorReply(MissingKeyMessage)
  {
  }

  /** With a key but no database the route answers with the database error before any model is asked. */
  lemma RespondWithoutDatabase(
    apiKey: Option<string>,
    post: string -> Reply, parse: string -> Option<Json>,
    today: Calendar.Date, find: map<string, string> -> Attempt<seq<Doc>>, reprOf: Json -> string)
    requires Calendar.Valid(today) && KeyPresent(apiKey)
    ensures Respond(apiKey, false, post, parse, today, find, reprOf) == ErrorReply(NoDatabaseMessage)
  {
  }

  /** When every model is rate-limited, fails or answers with text that does not parse, the fallback is served. */
  lemma RespondWhenModelsFail(
    apiKey: Option<string>, database: bool,
    post: string -> Reply, parse: string -> Option<Json>,
    today: Calendar.Date, find: map<string, string> -> Attempt<seq<Doc>>, reprOf: Json -> string)
    requires Calendar.Valid(today) && KeyPresent(apiKey) && database
    requires SkippedBefore(Models, post, parse, |Models|)
    ensures Respond(apiKey, database, post, parse, today, find, reprOf) == ChartsFallback.FallbackData()
  {
    FirstConfigExhausted(Models, post, parse);
  }

  /**
    * A first model whose reply parses to a falsy value (`{}`, `[]`, `null`)
    * ends the loop, and the fallback is served even if a later model would
    * have answered.
    */
  lemma RespondFalsyConfig(
    apiKey: Option<string>, database: bool,
    post: string -> Reply, parse: string -> Option<Json>,
    today: Calendar.Date, find: map<string, string> -> Attempt<seq<Doc>>, reprOf: Json -> string)
    requires Calendar.Valid(today) && KeyPresent(apiKey) && database
    requires StepOf(post(Models[0]), parse).Accept? && !Truthy(StepOf(post(Models[0]), parse).config)
    ensures Respond(apiKey, database, post, parse, today, find, reprOf) == ChartsFallback.FallbackData()
  {
  }

  /**
    * The normal path: with a key and a database, a truthy configuration the
    * model loop finds is served as `Enrich` completes it, and the fallback is
    * served only when enriching it raises.
    */
  lemma RespondServesConfig(
    apiKey: Option<string>, database: bool,
    post: string -> Reply, parse: string -> Option<Json>,
    today: Calendar.Date, find: map<string, string> -> Attempt<seq<Doc>>, reprOf: Json -> string, config: Json)
    requires Calendar.Valid(today) && KeyPresent(apiKey) && database
    requires FirstConfig(Models, post, parse) == Found(config) && Truthy(config)
    ensures var enriched := Enrich(config, today, find, reprOf);
      Respond(apiKey, database, post, parse, today, find, reprOf) ==
        if enriched.Done? then enriched.value else ChartsFallback.FallbackData()
  {
  }

  /** When the first model's reply parses to a truthy configuration that enriches, that enriched configuration is the response. */
  lemma RespondServesFirstReply(
    apiKey: Option<string>, database: bool,
    post: string -> Reply, parse: string -> Option<Json>,
    today: Calendar.Date, find: map<string, string> -> Attempt<seq<Doc>>, reprOf: Json -> string, config: Json)
    requires Calendar.Valid(today) && KeyPresent(apiKey) && database
    requires StepOf(post(Models[0]), parse) == Accept(config) && Truthy(config)
    requires Enrich(config, today, find, reprOf).Done?
    ensures Respond(apiKey, database, post, parse, today, find, reprOf) == Enrich(config, today, find, reprOf).value
  {
    assert FirstConfig(Models, post, parse) == Found(config);
    RespondServesConfig(apiKey, database, post, parse, today, find, reprOf, config);
  }

  /** The shapes every configuration the route serves has: rows to chart, and a line chart in date order. */
  predicate Servable(response: Json) {
    response.JObj? &&
    "data" in response.fields && response.fields["data"].JArr? && response.fields["data"].items != [] &&
    "line_chart_data" in response.fields && response.fields["line_chart_data"].JArr? &&
    Sorting.Ascending(ChartsFallback.LineDates(response.fields["line_chart_data"].items))
  }

  lemma FallbackServable()
    ensures Servable(ChartsFallback.FallbackData())
  {
    ChartsFallback.FallbackLineAscending();
  }

  /** The dates of the line chart built from points are the points' dates. */
  lemma PointsJsonDates(ps: seq<ChartsGrouping.Point>)
    ensures ChartsFallback.LineDates(PointsJson(ps)) == ChartsGrouping.Dates(ps)
  {
  }

  /** Setting `data` and `line_chart_data` adds those two keys, keeps every other field, and is servable when the points ascend. */
  lemma AttachServable(fields: map<string, Json>, rows: seq<Doc>, ps: seq<ChartsGrouping.Point>)
    requires Sorting.Ascending(ChartsGrouping.Dates(ps))
    ensures var r := JObj(fields["data" := JArr(DataRows(rows))]["line_chart_data" := JArr(PointsJson(ps))]);
      Servable(r) &&
      r.fields.Keys == fields.Keys + {"data", "line_chart_data"} &&
      forall k :: k in fields && k != "data" && k != "line_chart_data" ==> r.fields[k] == fields[k]
  {
    PointsJsonDates(ps);
  }

  /** A configuration that makes it through `Enrich` is servable, and keeps every other field the model chose. */
  lemma EnrichServable(config: Json, today: Calendar.Date, find: map<string, string> -> Attempt<seq<Doc>>, reprOf: Json -> string)
    requires Calendar.Valid(today) && Enrich(config, today, find, reprOf).Done?
    ensures var r := Enrich(config, today, find, reprOf).value;
      Servable(r) && config.JObj? &&
      r.fields.Keys == config.fields.Keys + {"data", "line_chart_data"} &&
      forall k :: k in config.fields && k != "data" && k != "line_chart_data" ==> r.fields[k] == config.fields[k]
  {
    var text := DateText(config.fields, reprOf).value;
    var filter := DateFilter(text, today).value;
    var rows := find(filter).value;
    var history := find(map[]).value;
    var ps := ChartsGrouping.Grouped(history, DateKeyOf(reprOf)).value;
    assert Enrich(config, today, find, reprOf).value ==
      JObj(config.fields["data" := JArr(DataRows(rows))]["line_chart_data" := JArr(PointsJson(ps))]);
    ChartsGrouping.GroupedAscending(history, DateKeyOf(reprOf));
    AttachServable(config.fields, rows, ps);
  }

  /**
    * Whenever the key and the database are there, the route serves a
    * configuration with non-empty rows and an ascending line chart: the
    * model's enriched configuration or the fallback.
    */
  lemma RespondServable(
    apiKey: Option<string>, database: bool,
    post: string -> Reply, parse: string -> Option<Json>,
    today: Calendar.Date, find: map<string, string> -> Attempt<seq<Doc>>, reprOf: Json -> string)
    requires Calendar.Valid(today) && KeyPresent(apiKey) && database
    ensures Servable(Respond(apiKey, database, post, parse, today, find, reprOf))
  {
    FallbackServable();
    var selection := FirstConfig(Models, post, parse);
    if selection.Found? && Truthy(selection.config) && Enrich(selection.config, today, find, reprOf).Done? {
      EnrichServable(selection.config, today, find, reprOf);
    }
  }

  /** The line chart of an enriched configuration totals, per date, the impressions of the whole collection. */
  lemma EnrichLineTotals(config: Json, today: Calendar.Date, find: map<string, string> -> Attempt<seq<Doc>>, reprOf: Json -> string)
    requires Calendar.Valid(today) && Enrich(config, today, find, reprOf).Done?
    ensures find(map[]).Done?
    ensures var history := find(map[]).value;
      var items := Enrich(config, today, find, reprOf).value.fields["line_chart_data"].items;
      ChartsGrouping.AllCounted(history) &&
      |items| == |ChartsGrouping.Grouped(history, DateKeyOf(reprOf)).value| &&
      forall i :: 0 <= i < |items| ==> items[i] == PointJson(ChartsGrouping.Grouped(history, DateKeyOf(reprOf)).value[i])
  {
  }

  /** The `data` of an enriched configuration is what the query with the resolved date filter returned, or the fallback rows when it returned none. */
  lemma EnrichDataRows(config: Json, today: Calendar.Date, find: map<string, string> -> Attempt<seq<Doc>>, reprOf: Json -> string)
    requires Calendar.Valid(today) && Enrich(config, today, find, reprOf).Done?
    ensures config.JObj? && DateText(config.fields, reprOf).Done?
    ensures DateFilter(DateText(config.fields, reprOf).value, today).Done?
    ensures var filter := DateFilter(DateText(config.fields, reprOf).value, today).value;
      find(filter).Done? &&
      Enrich(config, today, find, reprOf).value.fields["data"] == JArr(DataRows(find(filter).value))
  {
  }
}

=== FILE: charts_fallback.dfy ===
/**
  * `_fallback_data()`: the canned configuration the query handler serves
  * whenever the language models or the database cannot produce one.
  */
module ChartsFallback {
  import opened PyJson
  import Sorting
  import Calendar
  import ChartsGrouping
  import Text

  /** A `{"title", "value_key"}` metric descriptor. */
  function Metric(title: string, key: string): Json {
    JObj(map["title" := JStr(title), "value_key" := JStr(key)])
  }

  /** A `{"type", "title", "value_key"}` visualization descriptor. */
  function Card(kind: string, title: string, key: string): Json {
    JObj(map["type" := JStr(kind), "title" := JStr(title), "value_key" := JStr(key)])
  }

  /** A `{"type": "bar-chart", "title", "x_key", "y_keys"}` descriptor with two series. */
  function BarChart(title: string, x: string, y1: string, y2: string): Json {
    JObj(map["type" := JStr("bar-chart"), "title" := JStr(title), "x_key" := JStr(x), "y_keys" := JArr([JStr(y1), JStr(y2)])])
  }

  const FallbackMetrics: seq<Json> := [
    Metric("Impressions", "impressions"),
    Metric("Conversions", "conversions")
  ]

  const FallbackVisualizations: seq<Json> := [
    Card("metric-card", "Impressions", "impressions"),
    Card("metric-card", "Conversions", "conversions"),
    BarChart("Impressions vs Conversions", "campaign_name", "impressions", "conversions")
  ]

  const FallbackRows: seq<Json> := [
    JObj(map["campaign_name" := JStr("Campaign A"), "impressions" := JInt(1200), "conversions" := JInt(40)]),
    JObj(map["campaign_name" := JStr("Campaign B"), "impressions" := JInt(900), "conversions" := JInt(25)])
  ]

  const FallbackFilters: Json := JObj(map[
    "date" := JObj(map["type" := JStr("single"), "value" := JStr("2025-08-04")]),
    "campaign" := JNull,
    "additional_context" := JNull])

  const FallbackInsights: seq<Json> := [
    JStr("Campaign A had higher engagement than Campaign B."),
    JStr("Conversions were proportionally higher for Campaign A.")
  ]

  const FallbackLine: seq<Json> := [
    JObj(map["date" := JStr("2025-08-01"), "impressions" := JInt(1000)]),
    JObj(map["date" := JStr("2025-08-02"), "impressions" := JInt(1500)])
  ]

  /** `_fallback_data()`: a configuration with every section the dashboards read. */
  function FallbackData(): (d: Json)
    ensures d.JObj?
    ensures d.fields.Keys == {"metrics", "visualizations", "data", "filters", "insights", "line_chart_data"}
  {
    JObj(map[
      "metrics" := JArr(FallbackMetrics),
      "visualizations" := JArr(FallbackVisualizations),
      "data" := JArr(FallbackRows),
      "filters" := FallbackFilters,
      "insights" := JArr(FallbackInsights),
      "line_chart_data" := JArr(FallbackLine)])
  }

  /** The value of `key` when it is a string, as a one-element set. */
  function StrField(obj: map<string, Json>, key: string): set<string> {
    if key in obj && obj[key].JStr? then {obj[key].s} else {}
  }

  /** The row fields a metric or visualization descriptor reads: `value_key`, `x_key` and the strings in `y_keys`. */
  function NamedKeys(descriptor: Json): set<string> {
    if !descriptor.JObj? then {}
    else
      var f := descriptor.fields;
      var ys := if "y_keys" in f && f["y_keys"].JArr? then f["y_keys"].items else [];
      StrField(f, "value_key") + StrField(f, "x_key") + StrItems(ys)
  }

  /** The strings among the items of a list. */
  function StrItems(items: seq<Json>): (r: set<string>)
    ensures forall k :: k in r <==> JStr(k) in items
  {
    if items == [] then {}
    else (if items[0].JStr? then {items[0].s} else {}) + StrItems(items[1..])
  }

  /** Every row is a dict holding every one of the keys. */
  predicate Covers(rows: seq<Json>, keys: set<string>) {
    forall j :: 0 <= j < |rows| ==> rows[j].JObj? && keys <= rows[j].fields.Keys
  }

  lemma FallbackRowsCover()
    ensures Covers(FallbackRows, {"campaign_name", "impressions", "conversions"})
  {
  }

  /** A metric descriptor names exactly its `value_key`. */
  lemma MetricKeys(title: string, key: string)
    ensures NamedKeys(Metric(title, key)) == {key}
  {
    var f := Metric(title, key).fields;
    assert "x_key" !in f && "y_keys" !in f;
  }

  /** A card descriptor names exactly its `value_key`. */
  lemma CardKeys(kind: string, title: string, key: string)
    ensures NamedKeys(Card(kind, title, key)) == {key}
  {
    var f := Card(kind, title, key).fields;
    assert "x_key" !in f && "y_keys" !in f;
  }

  /** A bar chart names its `x_key` and both `y_keys`. */
  lemma BarChartKeys(title: string, x: string, y1: string, y2: string)
    ensures NamedKeys(BarChart(title, x, y1, y2)) == {x, y1, y2}
  {
    var f := BarChart(title, x, y1, y2).fields;
    assert "value_key" !in f;
    assert StrItems([JStr(y1), JStr(y2)]) == {y1, y2};
  }

  /** Rows holding every key of a set hold every key of its subsets. */
  lemma CoversSubset(rows: seq<Json>, keys: set<string>, all: set<string>)
    requires Covers(rows, all) && keys <= all
    ensures Covers(rows, keys)
  {
  }

  lemma VisualizationCovered(i: nat)
    requires i < |FallbackVisualizations|
    ensures Covers(FallbackRows, NamedKeys(FallbackVisualizations[i]))
  {
    var v := FallbackVisualizations;
    if i == 0 {
      assert v[0] == Card("metric-card", "Impressions", "impressions");
      CardKeys("metric-card", "Impressions", "impressions");
    } else if i == 1 {
      assert v[1] == Card("metric-card", "Conversions", "conversions");
      CardKeys("metric-card", "Conversions", "conversions");
    } else {
      assert v[2] == BarChart("Impressions vs Conversions", "campaign_name", "impressions", "conversions");
      BarChartKeys("Impressions vs Conversions", "campaign_name", "impressions", "conversions");
    }
    FallbackRowsCover();
    CoversSubset(FallbackRows, NamedKeys(v[i]), {"campaign_name", "impressions", "conversions"});
  }

  lemma MetricCovered(i: nat)
    requires i < |FallbackMetrics|
    ensures Covers(FallbackRows, NamedKeys(FallbackMetrics[i]))
  {
    var m := FallbackMetrics;
    if i == 0 {
      assert m[0] == Metric("Impressions", "impressions");
      MetricKeys("Impressions", "impressions");
    } else {
      assert m[1] == Metric("Conversions", "conversions");
      MetricKeys("Conversions", "conversions");
    }
    FallbackRowsCover();
    CoversSubset(FallbackRows, NamedKeys(m[i]), {"campaign_name", "impressions", "conversions"});
  }

  /** Every field a fallback metric or visualization names is present in every fallback row. */
  lemma FallbackRowsHaveNamedKeys()
    ensures forall i :: 0 <= i < |FallbackVisualizations| ==> Covers(FallbackRows, NamedKeys(FallbackVisualizations[i]))
    ensures forall i :: 0 <= i < |FallbackMetrics| ==> Covers(FallbackRows, NamedKeys(FallbackMetrics[i]))
  {
    forall i | 0 <= i < |FallbackVisualizations|
      ensures Covers(FallbackRows, NamedKeys(FallbackVisualizations[i]))
    {
      VisualizationCovered(i);
    }
    forall i | 0 <= i < |FallbackMetrics|
      ensures Covers(FallbackRows, NamedKeys(FallbackMetrics[i]))
    {
      MetricCovered(i);
    }
  }

  /** In the payload itself: every field a metric or visualization of `FallbackData()` names is present in every one of its rows. */
  lemma FallbackDataHasNamedKeys()
    ensures var f := FallbackData().fields;
      f["data"].JArr? && f["metrics"].JArr? && f["visualizations"].JArr? &&
      (forall i :: 0 <= i < |f["visualizations"].items| ==> Covers(f["data"].items, NamedKeys(f["visualizations"].items[i]))) &&
      (forall i :: 0 <= i < |f["metrics"].items| ==> Covers(f["data"].items, NamedKeys(f["metrics"].items[i])))
  {
    var f := FallbackData().fields;
    assert f["data"] == JArr(FallbackRows);
    assert f["metrics"] == JArr(FallbackMetrics);
    assert f["visualizations"] == JArr(FallbackVisualizations);
    FallbackRowsHaveNamedKeys();
  }

  /** The date of a `line_chart_data` item; "" for an item without a string date. */
  function DateOf(item: Json): string {
    if item.JObj? && "date" in item.fields && item.fields["date"].JStr? then item.fields["date"].s else ""
  }

  /** The dates of a `line_chart_data` list, in order. */
  function LineDates(items: seq<Json>): (ds: seq<string>)
    ensures |ds| == |items|
    ensures forall i :: 0 <= i < |items| ==> ds[i] == DateOf(items[i])
  {
    seq(|items|, i requires 0 <= i < |items| => DateOf(items[i]))
  }

  lemma FallbackLineDates()
    ensures LineDates(FallbackLine) == ["2025-08-01", "2025-08-02"]
  {
  }

  /** The fallback line chart is in the order the grouping emits: strictly ascending dates. */
  lemma FallbackLineAscending()
    ensures Sorting.Ascending(LineDates(FallbackLine))
  {
    FallbackLineDates();
    var a := "2025-08-01";
    var b := "2025-08-02";
    assert a[..9] == b[..9];
    LessAfterCommonPrefix(a, b, 9);
  }

  /** A string that is the `%Y-%m-%d` rendering of a valid date is its own key. */
  lemma IsoIsKey(s: string, d: Calendar.Date)
    requires Calendar.Valid(d) && Calendar.Iso(d) == s
    ensures ChartsGrouping.NormaliseDate(s) == s
  {
    ChartsGrouping.NormaliseIso(d);
  }

  /** Each fallback date is already a normalised date key, as the grouping emits them. */
  lemma FallbackLineNormalised()
    ensures forall i :: 0 <= i < |FallbackLine| ==>
      ChartsGrouping.NormaliseDate(LineDates(FallbackLine)[i]) == LineDates(FallbackLine)[i]
  {
    forall i | 0 <= i < |FallbackLine|
      ensures ChartsGrouping.NormaliseDate(LineDates(FallbackLine)[i]) == LineDates(FallbackLine)[i]
    {
      FallbackDateIsKey(i, LineDates(FallbackLine)[i]);
    }
  }

  lemma FallbackDateIsKey(i: nat, s: string)
    requires i < |FallbackLine| && s == LineDates(FallbackLine)[i]
    ensures ChartsGrouping.NormaliseDate(s) == s
  {
    FallbackLineDates();
    AugustDateIsKey(s, i + 1);
  }

  /** `2025-08-0d` for a day `d` below ten is its own key. */
  lemma AugustDateIsKey(s: string, day: int)
    requires 1 <= day <= 9 && s == "2025-08-0" + [Text.DigitChar(day)]
    ensures ChartsGrouping.NormaliseDate(s) == s
  {
    Calendar.AugustIso(day);
    IsoIsKey(s, Calendar.Date(2025, 8, day));
  }

  /** Two strings that agree on their first `n` characters and then differ upward are in order. */
  lemma {:induction false} LessAfterCommonPrefix(a: string, b: string, n: nat)
    requires n < |a| && n < |b| && a[..n] == b[..n] && a[n] < b[n]
    ensures Sorting.Less(a, b)
    decreases n
  {
    if n > 0 {
      assert a[0] == a[..n][0] == b[..n][0] == b[0];
      assert a[1..][..n - 1] == a[..n][1..] == b[..n][1..] == b[1..][..n - 1];
      LessAfterCommonPrefix(a[1..], b[1..], n - 1);
    }
  }
}

=== FILE: charts_grouping.dfy ===
/**
  * The impression history behind `line_chart_data`: every stored entry's date
  * is normalised through `strptime`/`strftime` (falling back to its text, or
  * "No Date"), impressions are summed per normalised date in a dict, and the
  * dict's items are emitted in ascending key order.
  */
module ChartsGrouping {
  import opened Wrappers
  import Text
  import opened PyJson
  import Calendar
  import Sorting
  import opened Tally

  /** A stored document, `_id` projected away. */
  type Doc = map<string, Json>

  /** The key for the text of a stored date: the canonical `YYYY-MM-DD` when it parses, the text itself otherwise, "No Date" for empty text. */
  function NormaliseDate(text: string): (key: string)
    ensures key != []
  {
    match Calendar.ParseIso(text)
    case Some(d) => Calendar.Iso(d)
    case None => if text == [] then "No Date" else text
  }

  /** Normalising a key again changes nothing: keys are fixed points. */
  lemma NormaliseDateIdempotent(text: string)
    ensures NormaliseDate(NormaliseDate(text)) == NormaliseDate(text)
  {
    match Calendar.ParseIso(text)
    case Some(d) =>
      Calendar.ParseIsoOfIso(d);
    case None =>
      if text == [] {
        assert !Text.IsDigit("No Date"[0]);
        assert !Text.AllDigits("No Date"[..4]);
      }
  }

  /** A date rendered by `strftime` is its own key. */
  lemma NormaliseIso(d: Calendar.Date)
    requires Calendar.Valid(d)
    ensures NormaliseDate(Calendar.Iso(d)) == Calendar.Iso(d)
  {
    Calendar.ParseIsoOfIso(d);
  }

  /** Unpadded and padded spellings of one day land under one key. */
  lemma NormaliseDateMergesPadding()
    ensures NormaliseDate("2025-8-1") == "2025-08-01"
    ensures NormaliseDate("2025-08-01") == "2025-08-01"
  {
    var date := Calendar.Date(2025, 8, 1);
    UnpaddedParses();
    Calendar.ParseIsoOfIso(date);
    Calendar.AugustIso(1);
    assert "2025-08-0" + [Text.DigitChar(1)] == "2025-08-01";
  }

  /** `strptime` accepts the unpadded spelling of 1 August 2025. */
  lemma UnpaddedParses()
    ensures Calendar.ParseIso("2025-8-1") == Some(Calendar.Date(2025, 8, 1))
  {
    assert Calendar.Four(2025) == "2025";
    Calendar.DigitsValueOfFour(2025);
    assert "2025-8-1" == "2025" + "-" + "8" + "-" + "1";
    Calendar.ParseIsoJoined("2025", "8", "1");
  }

  /** `str(entry.get("date"))`, normalised. */
  function DateKey(entry: Doc, reprOf: Json -> string): string {
    NormaliseDate(PyStr(if "date" in entry then entry["date"] else JNull, reprOf))
  }

  /**
    * An entry without a date, or with a null one, is keyed by `str(None)`:
    * "None" is truthy, so only an empty date string becomes "No Date".
    */
  lemma MissingDateKey(reprOf: Json -> string)
    ensures DateKey(map[], reprOf) == "None"
    ensures DateKey(map["date" := JNull], reprOf) == "None"
    ensures DateKey(map["date" := JStr("")], reprOf) == "No Date"
  {
    assert !Text.IsDigit("None"[0]);
    assert !Text.AllDigits("None"[..4]);
  }

  /** `int(entry.get("impressions", 0))`: absent counts 0, a null or non-numeric value raises. */
  function ImpressionOf(entry: Doc): (n: Attempt<int>)
    ensures "impressions" !in entry ==> n == Done(0)
    ensures "impressions" in entry && entry["impressions"].JNull? ==> n == Raised
  {
    if "impressions" in entry then PyInt(entry["impressions"]) else Done(0)
  }

  /** The impressions an entry contributes once it is known not to raise. */
  function Count(entry: Doc): int {
    match ImpressionOf(entry)
    case Done(n) => n
    case Raised => 0
  }

  predicate AllCounted(entries: seq<Doc>) {
    forall i :: 0 <= i < |entries| ==> ImpressionOf(entries[i]).Done?
  }

  /** Each entry's key. */
  function KeysOf(entries: seq<Doc>, keyOf: Doc -> string): (keys: seq<string>)
    ensures |keys| == |entries|
    ensures forall i :: 0 <= i < |entries| ==> keys[i] == keyOf(entries[i])
  {
    seq(|entries|, i requires 0 <= i < |entries| => keyOf(entries[i]))
  }

  /** Each entry's impressions. */
  function Counts(entries: seq<Doc>): (counts: seq<int>)
    ensures |counts| == |entries|
    ensures forall i :: 0 <= i < |entries| ==> counts[i] == Count(entries[i])
  {
    seq(|entries|, i requires 0 <= i < |entries| => Count(entries[i]))
  }

  /** Reference definition: the impressions of the entries whose key is `key`. */
  function TotalFor(entries: seq<Doc>, keyOf: Doc -> string, key: string): int {
    TotalOf(KeysOf(entries, keyOf), Counts(entries), |entries|, key)
  }

  /** One entry of `line_chart_data`. */
  datatype Point = Point(date: string, impressions: int)

  /** `[{"date": d, "impressions": v} for d, v in ...]` over the given keys. */
  function PointsOf(keys: seq<string>, m: map<string, int>): (ps: seq<Point>)
    ensures |ps| == |keys|
    ensures forall i :: 0 <= i < |keys| ==> ps[i] == Point(keys[i], Get(m, keys[i]))
  {
    if keys == [] then []
    else PointsOf(keys[..|keys| - 1], m) + [Point(keys[|keys| - 1], Get(m, keys[|keys| - 1]))]
  }

  /** The series the handler produces, or Raised when some entry's impressions do not convert. */
  function Grouped(entries: seq<Doc>, keyOf: Doc -> string): (r: Attempt<seq<Point>>)
    ensures r.Raised? <==> exists i :: 0 <= i < |entries| && ImpressionOf(entries[i]).Raised?
  {
    if !AllCounted(entries) then Raised
    else
      var keys := KeysOf(entries, keyOf);
      var n := |entries|;
      Done(PointsOf(Sorting.Sort(Order(keys, n)), Accumulate(keys, Counts(entries), n)))
  }

  /**
    * The grouping loop and the sorted comprehension after it. The handler
    * groups by `DateKey`; the loop is stated for any key function.
    */
  method GroupImpressions(entries: seq<Doc>, keyOf: Doc -> string) returns (series: Attempt<seq<Point>>)
    ensures series == Grouped(entries, keyOf)
  {
    ghost var keys := KeysOf(entries, keyOf);
    ghost var counts := Counts(entries);
    var byDate: map<string, int> := map[];
    var order: seq<string> := [];
    for i := 0 to |entries|
      invariant byDate == Accumulate(keys, counts, i)
      invariant order == Order(keys, i)
      invariant AllCounted(entries[..i])
    {
      var d := keyOf(entries[i]);
      var n := ImpressionOf(entries[i]);
      if n.Raised? {
        GroupedRaises(entries, keyOf, i);
        return Raised;
      }
      FoldStep(keys, counts, i, byDate, order, d, n.value);
      CountedPrefix(entries, i);
      if d !in byDate {
        order := order + [d];
      }
      byDate := AddTo(byDate, d, n.value);
    }
    assert entries[..|entries|] == entries;
    GroupedDone(entries, keyOf);
    series := Done(PointsOf(Sorting.Sort(order), byDate));
  }

  /** One entry whose impressions do not convert makes the whole grouping raise. */
  lemma GroupedRaises(entries: seq<Doc>, keyOf: Doc -> string, i: nat)
    requires i < |entries| && ImpressionOf(entries[i]).Raised?
    ensures Grouped(entries, keyOf) == Raised
  {
  }

  /** When every entry converts, the series is the sorted fold. */
  lemma GroupedDone(entries: seq<Doc>, keyOf: Doc -> string)
    requires AllCounted(entries)
    ensures var keys := KeysOf(entries, keyOf);
      Grouped(entries, keyOf) == Done(PointsOf(Sorting.Sort(Order(keys, |entries|)), Accumulate(keys, Counts(entries), |entries|)))
  {
  }

  /** A counted prefix grows by one entry whose impressions convert. */
  lemma CountedPrefix(entries: seq<Doc>, i: nat)
    requires i < |entries| && AllCounted(entries[..i]) && ImpressionOf(entries[i]).Done?
    ensures AllCounted(entries[..i + 1])
  {
    assert entries[..i + 1] == entries[..i] + [entries[i]];
  }

  function Dates(ps: seq<Point>): (ds: seq<string>)
    ensures |ds| == |ps|
    ensures forall i :: 0 <= i < |ps| ==> ds[i] == ps[i].date
  {
    if ps == [] then [] else [ps[0].date] + Dates(ps[1..])
  }

  function SumPoints(ps: seq<Point>): int {
    if ps == [] then 0 else SumPoints(ps[..|ps| - 1]) + ps[|ps| - 1].impressions
  }

  /** The series' dates are strictly ascending: sorted, and no date twice. */
  lemma GroupedAscending(entries: seq<Doc>, keyOf: Doc -> string)
    requires AllCounted(entries)
    ensures Grouped(entries, keyOf).Done?
    ensures Sorting.Ascending(Dates(Grouped(entries, keyOf).value))
  {
    var order := Order(KeysOf(entries, keyOf), |entries|);
    Sorting.SortAscending(order);
    GroupedDatesSorted(entries, keyOf);
  }

  /** The dates of the series are the sorted first-seen keys. */
  lemma GroupedDatesSorted(entries: seq<Doc>, keyOf: Doc -> string)
    requires AllCounted(entries)
    ensures Grouped(entries, keyOf).Done?
    ensures Dates(Grouped(entries, keyOf).value) == Sorting.Sort(Order(KeysOf(entries, keyOf), |entries|))
  {
    var keys := KeysOf(entries, keyOf);
    GroupedDone(entries, keyOf);
    DatesOfPoints(Sorting.Sort(Order(keys, |entries|)), Accumulate(keys, Counts(entries), |entries|));
  }

  /** A point per key, so the dates read back are the keys. */
  lemma DatesOfPoints(keys: seq<string>, m: map<string, int>)
    ensures Dates(PointsOf(keys, m)) == keys
  {
    var ds := Dates(PointsOf(keys, m));
    assert forall i :: 0 <= i < |keys| ==> ds[i] == keys[i];
  }

  /** Each point carries the reference total of its date. */
  lemma GroupedTotals(entries: seq<Doc>, keyOf: Doc -> string)
    requires AllCounted(entries)
    ensures Grouped(entries, keyOf).Done?
    ensures var ps := Grouped(entries, keyOf).value;
      forall i :: 0 <= i < |ps| ==> ps[i].impressions == TotalFor(entries, keyOf, ps[i].date)
  {
    var keys := KeysOf(entries, keyOf);
    var n := |entries|;
    var ps := Grouped(entries, keyOf).value;
    forall i | 0 <= i < |ps|
      ensures ps[i].impressions == TotalFor(entries, keyOf, ps[i].date)
    {
      AccumulateIsTotalOf(keys, Counts(entries), n, ps[i].date);
    }
  }

  /** The series has a point for a date exactly when some entry has that date. */
  lemma GroupedDates(entries: seq<Doc>, keyOf: Doc -> string, k: string)
    requires AllCounted(entries)
    ensures Grouped(entries, keyOf).Done?
    ensures k in Dates(Grouped(entries, keyOf).value) <==> exists i :: 0 <= i < |entries| && keyOf(entries[i]) == k
  {
    var keys := KeysOf(entries, keyOf);
    var n := |entries|;
    var order := Order(keys, n);
    GroupedDatesSorted(entries, keyOf);
    Sorting.SortMembers(order, k);
    OrderMembers(keys, n, k);
    assert keys[..n] == keys;
    KeyOccurs(entries, keyOf, k);
  }

  lemma KeyOccurs(entries: seq<Doc>, keyOf: Doc -> string, k: string)
    ensures k in KeysOf(entries, keyOf) <==> exists i :: 0 <= i < |entries| && keyOf(entries[i]) == k
  {
    var keys := KeysOf(entries, keyOf);
    if k in keys {
      var i :| 0 <= i < |keys| && keys[i] == k;
      assert keyOf(entries[i]) == k;
    }
  }

  /** The line chart accounts for every impression exactly once. */
  lemma GroupedGrandTotal(entries: seq<Doc>, keyOf: Doc -> string)
    requires AllCounted(entries)
    ensures Grouped(entries, keyOf).Done?
    ensures SumPoints(Grouped(entries, keyOf).value) == Sum(Counts(entries), |entries|)
  {
    var keys := KeysOf(entries, keyOf);
    var n := |entries|;
    var order := Order(keys, n);
    var sorted := Sorting.Sort(order);
    var m := Accumulate(keys, Counts(entries), n);
    SumPointsOf(sorted, m);
    SumOverPermutation(sorted, order, m);
    SumOverAccumulate(keys, Counts(entries), n);
  }

  lemma {:induction false} SumPointsOf(keys: seq<string>, m: map<string, int>)
    ensures SumPoints(PointsOf(keys, m)) == SumOver(keys, m)
    decreases |keys|
  {
    if keys != [] {
      var n := |keys| - 1;
      var ps := PointsOf(keys[..n], m);
      assert (ps + [Point(keys[n], Get(m, keys[n]))])[..n] == ps;
      SumPointsOf(keys[..n], m);
    }
  }
}

=== FILE: clean_json.dfy ===
/**
  * `clean_json_string`: strip the reply, then delete markdown code fences with
  * the multi-line pattern `^```(?:json)?\s*|```$`. The substitution is a
  * left-to-right scan of the stripped text: at each position the first
  * alternative is tried, then the second, and a match is deleted; otherwise
  * the character is kept and the scan moves on.
  */
module CleanJson {
  import Text
  import opened PyJson

  const Fence := "```"
  const JsonTag := "json"

  /** `^` under `re.MULTILINE`: the start of the text or just after a newline. */
  predicate AtLineStart(s: string, i: nat) {
    i == 0 || (0 < i <= |s| && s[i - 1] == '\n')
  }

  /** `$` under `re.MULTILINE`: the end of the text or just before a newline. */
  predicate AtLineEnd(s: string, i: nat) {
    i == |s| || (i < |s| && s[i] == '\n')
  }

  /** Where `\s*` stops when it starts at `i`: the first position that is not whitespace. */
  function SkipSpace(s: string, i: nat): (j: nat)
    requires i <= |s|
    ensures i <= j <= |s|
    ensures forall k :: i <= k < j ==> s[k] in PySpace
    ensures j < |s| ==> s[j] !in PySpace
    decreases |s| - i
  {
    if i < |s| && s[i] in PySpace then SkipSpace(s, i + 1) else i
  }

  /** The substitution from position `i` on. */
  function Scan(s: string, i: nat): (r: string)
    requires i <= |s|
    ensures |r| <= |s| - i
    decreases |s| - i
  {
    if i == |s| then []
    else if AtLineStart(s, i) && Text.OccursAt(s, i, Fence) then
      var k := if Text.OccursAt(s, i + 3, JsonTag) then i + 7 else i + 3;
      Scan(s, SkipSpace(s, k))
    else if Text.OccursAt(s, i, Fence) && AtLineEnd(s, i + 3) then
      Scan(s, i + 3)
    else
      [s[i]] + Scan(s, i + 1)
  }

  /** `clean_json_string(s)`. */
  function Clean(s: string): (r: string)
    ensures |r| <= |Text.Strip(s, PySpace)|
  {
    Scan(Text.Strip(s, PySpace), 0)
  }

  /** Where no fence starts, the scan copies the text. */
  lemma {:induction false} ScanCopies(s: string, i: nat, j: nat)
    requires i <= j <= |s|
    requires forall k :: i <= k < j ==> !Text.OccursAt(s, k, Fence)
    ensures Scan(s, i) == s[i..j] + Scan(s, j)
    decreases j - i
  {
    if i < j {
      assert !Text.OccursAt(s, i, Fence);
      assert Scan(s, i) == [s[i]] + Scan(s, i + 1);
      ScanCopies(s, i + 1, j);
      ConsSlice(s, i, j, Scan(s, j));
    }
  }

  /** A slice is its first character followed by the rest of the slice. */
  lemma ConsSlice(s: string, i: nat, j: nat, rest: string)
    requires i < j <= |s|
    ensures [s[i]] + (s[i + 1..j] + rest) == s[i..j] + rest
  {
    assert s[i..j] == [s[i]] + s[i + 1..j];
  }

  /** The stripped text is a slice of the original. */
  lemma StripIsSlice(s: string, ws: set<char>) returns (k: nat)
    ensures k + |Text.Strip(s, ws)| <= |s|
    ensures Text.Strip(s, ws) == s[k..k + |Text.Strip(s, ws)|]
  {
    var front := Text.StripStart(s, ws);
    k := |s| - |front|;
    var r := Text.StripEnd(front, ws);
    assert r == Text.Strip(s, ws);
    assert front == s[k..];
    assert r == front[..|r|];
  }

  /** A slice of fence-free text is fence-free at every position. */
  lemma NoFenceInSlice(s: string, k: nat, t: string)
    requires !Text.Contains(s, Fence)
    requires k + |t| <= |s| && t == s[k..k + |t|]
    ensures forall i :: 0 <= i < |t| ==> !Text.OccursAt(t, i, Fence)
  {
    forall i | 0 <= i < |t|
      ensures !Text.OccursAt(t, i, Fence)
    {
      if i + 3 <= |t| {
        Text.Window(t, i, s, k + i, 3);
        assert !Text.OccursAt(s, k + i, Fence);
      }
    }
  }

  /** Text in which no fence starts is copied whole. */
  lemma ScanCopiesAll(t: string)
    requires forall i :: 0 <= i < |t| ==> !Text.OccursAt(t, i, Fence)
    ensures Scan(t, 0) == t
  {
    ScanCopies(t, 0, |t|);
    assert t[0..|t|] == t;
  }

  /** A reply without a fence is only stripped. */
  lemma CleanWithoutFence(s: string)
    requires !Text.Contains(s, Fence)
    ensures Clean(s) == Text.Strip(s, PySpace)
  {
    var t := Text.Strip(s, PySpace);
    var k := StripIsSlice(s, PySpace);
    NoFenceInSlice(s, k, t);
    ScanCopiesAll(t);
  }

  const Opening := "```json\n"
  const Closing := "\n```"

  /** The fenced reply the language models are prone to send. */
  function Fenced(body: string): (s: string)
    ensures |s| == |body| + 12
  {
    Opening + body + Closing
  }

  /** The opening fence, its tag and the whitespace after them are one match of the first alternative. */
  lemma FencedOpening(body: string)
    requires body != [] && body[0] !in PySpace
    ensures Scan(Fenced(body), 0) == Scan(Fenced(body), 8)
  {
    var s := Fenced(body);
    assert forall m :: 0 <= m < 8 ==> s[m] == Opening[m];
    assert s[..3] == Fence;
    assert s[3..7] == JsonTag;
    assert s[7] == '\n' && s[8] == body[0];
    assert SkipSpace(s, 8) == 8;
    assert SkipSpace(s, 7) == 8;
  }

  /** No fence starts in the body or at the newline after it. */
  lemma NoFenceInBody(body: string, k: nat)
    requires !Text.Contains(body, Fence)
    requires 8 <= k < |body| + 9
    ensures !Text.OccursAt(Fenced(body), k, Fence)
  {
    var s := Fenced(body);
    var n := |body|;
    assert forall m :: 8 <= m < n + 8 ==> s[m] == body[m - 8];
    assert s[n + 8] == '\n';
    if k + 3 <= n + 8 {
      Text.Window(s, k, body, k - 8, 3);
      assert !Text.OccursAt(body, k - 8, Fence);
    } else {
      assert s[k..k + 3][n + 8 - k] == '\n' != Fence[n + 8 - k];
    }
  }

  lemma FencedMiddle(body: string)
    ensures Fenced(body)[8..|body| + 9] == body + "\n"
  {
    var s := Fenced(body);
    var n := |body|;
    assert s[8..] == body + Closing;
  }

  /** No fence starts anywhere from the body to the newline after it. */
  lemma NoFenceInMiddle(body: string)
    requires !Text.Contains(body, Fence)
    ensures forall k :: 8 <= k < |body| + 9 ==> !Text.OccursAt(Fenced(body), k, Fence)
  {
    forall k | 8 <= k < |body| + 9
      ensures !Text.OccursAt(Fenced(body), k, Fence)
    {
      NoFenceInBody(body, k);
    }
  }

  /** The body and the newline after it are copied. */
  lemma FencedBodyCopied(body: string)
    requires !Text.Contains(body, Fence)
    ensures Scan(Fenced(body), 8) == body + "\n" + Scan(Fenced(body), |body| + 9)
  {
    NoFenceInMiddle(body);
    ScanCopies(Fenced(body), 8, |body| + 9);
    FencedMiddle(body);
  }

  /** A fence that ends the text and starts a line is deleted by the first alternative. */
  lemma ClosingFenceDeleted(s: string)
    requires |s| >= 4 && s[|s| - 3..] == Fence && s[|s| - 4] == '\n'
    ensures Scan(s, |s| - 3) == []
  {
    assert AtLineStart(s, |s| - 3);
    assert Text.OccursAt(s, |s| - 3, Fence);
    assert SkipSpace(s, |s|) == |s| && !Text.OccursAt(s, |s|, JsonTag) && Scan(s, |s|) == [];
  }

  lemma FencedTail(body: string)
    ensures var s := Fenced(body);
      s[|s| - 3..] == Fence && s[|s| - 4] == '\n' && |s| - 3 == |body| + 9
  {
    var s := Fenced(body);
    assert s[|body| + 8..] == Closing;
  }


  /**
    * A body fenced as a `json` code block comes out without either fence and
    * without the whitespace after the opening one, but keeps the newline
    * before the closing fence: nothing is stripped after the substitution.
    */
  lemma CleanFenced(body: string)
    requires body != [] && body[0] !in PySpace
    requires !Text.Contains(body, Fence)
    ensures Clean(Fenced(body)) == body + "\n"
  {
    FencedStripped(body);
    FencedScan(body);
  }

  /** The substitution over the whole fenced reply leaves the body and the newline after it. */
  lemma FencedScan(body: string)
    requires body != [] && body[0] !in PySpace
    requires !Text.Contains(body, Fence)
    ensures Scan(Fenced(body), 0) == body + "\n"
  {
    FencedOpening(body);
    FencedBodyCopied(body);
    FencedClosing(body);
    var kept: string := body + "\n";
    assert kept + [] == kept;
  }

  /** The closing fence of a fenced reply is deleted. */
  lemma FencedClosing(body: string)
    ensures Scan(Fenced(body), |body| + 9) == []
  {
    FencedTail(body);
    ClosingFenceDeleted(Fenced(body));
  }


  /** A fenced reply starts and ends with a backtick, so stripping leaves it as it is. */
  lemma FencedStripped(body: string)
    ensures Text.Strip(Fenced(body), PySpace) == Fenced(body)
  {
    var s := Fenced(body);
    assert s[0] == '`' && s[|s| - 1] == '`';
    assert '`' !in PySpace;
  }
}

=== FILE: combined_dashboard.dfy ===
/**
  * The combined analytics dashboard: a whole-dashboard data guard, totals of
  * impressions, clicks, spend and revenue over the coerced rows, the CTR and
  * ROAS ratios with their zero-denominator policy, the five key-metric cards,
  * the fixed campaign bar chart, the spend/revenue pie and the indexed trend
  * series built from `line_chart_data`.
  */
module CombinedDashboard {
  import opened Wrappers
  import opened Payload

  /** How a number is rendered: `toLocaleString()` or `toFixed(2)`; the digits themselves are not modelled. */
  datatype NumberText = Grouped(x: real) | TwoDecimals(x: real)

  /** A displayed value: a prefix, a rendered number and a suffix. */
  datatype Shown = Shown(prefix: string, number: NumberText, suffix: string)

  /** One key-metric card. */
  datatype KeyMetric = KeyMetric(title: string, value: Shown, color: string, trend: string)

  /** One bar series of a bar chart: the row field it plots and its fill. */
  datatype Bar = Bar(dataKey: string, fill: string)

  /** A bar chart: the rows it is drawn from, the x-axis field and the bars. */
  datatype BarChart = BarChart(data: seq<Row>, xKey: string, bars: seq<Bar>)

  datatype PieSlice = PieSlice(name: string, value: real, color: string)

  /** One point of the impressions trend. */
  datatype TrendPoint = TrendPoint(index: nat, date: string, impressions: real)

  /** What the dashboard renders. */
  datatype View =
    | NoDataPlaceholder
    | Dashboard(
        keyMetrics: seq<KeyMetric>,
        bar: BarChart,
        pie: seq<PieSlice>,
        trend: seq<TrendPoint>,
        summary: Option<string>)

  // Per-row contributions, each field coerced with `Number(v) || 0`.
  function ImpressionsOf(row: Row): real { Coerce(row, "impressions") }
  function ClicksOf(row: Row): real { Coerce(row, "clicks") }
  function SpendOf(row: Row): real { Coerce(row, "spend") }
  function RoasOf(row: Row): real { Coerce(row, "roas") }
  /** Per-row revenue: spend × roas. */
  const RevenueOf: Row -> real := Times(SpendOf, RoasOf)

  function TotalImpressions(rows: seq<Row>): real { SumBy(rows, ImpressionsOf) }
  function TotalClicks(rows: seq<Row>): real { SumBy(rows, ClicksOf) }
  function TotalSpend(rows: seq<Row>): real { SumBy(rows, SpendOf) }

  /** Revenue is the sum of the per-row products spend × roas. */
  function TotalRevenue(rows: seq<Row>): real { SumBy(rows, RevenueOf) }

  /** Click-through rate in percent; 0 unless total impressions are positive. */
  function Ctr(rows: seq<Row>): (r: real)
    ensures TotalImpressions(rows) <= 0.0 ==> r == 0.0
    ensures TotalImpressions(rows) > 0.0 ==> r * TotalImpressions(rows) == 100.0 * TotalClicks(rows)
  {
    var impressions := TotalImpressions(rows);
    if impressions > 0.0 then TotalClicks(rows) / impressions * 100.0 else 0.0
  }

  /** Return on ad spend; 0 unless total spend is positive. */
  function Roas(rows: seq<Row>): (r: real)
    ensures TotalSpend(rows) <= 0.0 ==> r == 0.0
    ensures TotalSpend(rows) > 0.0 ==> r * TotalSpend(rows) == TotalRevenue(rows)
  {
    var spend := TotalSpend(rows);
    if spend > 0.0 then TotalRevenue(rows) / spend else 0.0
  }

  /** The five key-metric cards, in their fixed order. */
  function KeyMetrics(rows: seq<Row>): (r: seq<KeyMetric>)
    ensures |r| == 5
    ensures r[0].title == "Total Impressions" && r[0].value == Shown("", Grouped(TotalImpressions(rows)), "")
    ensures r[1].title == "Total Clicks" && r[1].value == Shown("", Grouped(TotalClicks(rows)), "")
    ensures r[2].title == "Total Spend" && r[2].value == Shown("$", Grouped(TotalSpend(rows)), "")
    ensures r[3].title == "ROAS" && r[3].value == Shown("", TwoDecimals(Roas(rows)), "x")
    ensures r[4].title == "CTR" && r[4].value == Shown("", TwoDecimals(Ctr(rows)), "%")
  {
    [ KeyMetric("Total Impressions", Shown("", Grouped(TotalImpressions(rows)), ""), "violet", "+12%"),
      KeyMetric("Total Clicks", Shown("", Grouped(TotalClicks(rows)), ""), "emerald", "+8%"),
      KeyMetric("Total Spend", Shown("$", Grouped(TotalSpend(rows)), ""), "amber", "-3%"),
      KeyMetric("ROAS", Shown("", TwoDecimals(Roas(rows)), "x"), "blue", "+15%"),
      KeyMetric("CTR", Shown("", TwoDecimals(Ctr(rows)), "%"), "pink", "+5%") ]
  }

  /** The campaign chart: always campaign_name against impressions, clicks and conversions. */
  function CampaignBarChart(rows: seq<Row>): (r: BarChart)
    ensures r.data == rows && r.xKey == "campaign_name"
    ensures |r.bars| == 3
    ensures r.bars[0].dataKey == "impressions" && r.bars[1].dataKey == "clicks" && r.bars[2].dataKey == "conversions"
  {
    BarChart(rows, "campaign_name",
      [Bar("impressions", "url(#impressionsBar)"),
       Bar("clicks", "url(#clicksBar)"),
       Bar("conversions", "url(#conversionsBar)")])
  }

  /** The two-slice financial pie: spend, then revenue. */
  function PieData(rows: seq<Row>): (r: seq<PieSlice>)
    ensures |r| == 2
    ensures r[0].name == "Ad Spend" && r[0].value == TotalSpend(rows)
    ensures r[1].name == "Revenue" && r[1].value == TotalRevenue(rows)
  {
    [PieSlice("Ad Spend", TotalSpend(rows), "#ef4444"), PieSlice("Revenue", TotalRevenue(rows), "#10b981")]
  }

  /** `line_chart_data?.map((item, idx) => ({index: idx + 1, ...})) || []`. */
  function TrendPoints(points: seq<LinePoint>): (r: seq<TrendPoint>)
    ensures |r| == |points|
    ensures forall i :: 0 <= i < |points| ==>
      r[i] == TrendPoint(i + 1, points[i].date, points[i].impressions)
  {
    if points == [] then []
    else
      var n := |points| - 1;
      TrendPoints(points[..n]) + [TrendPoint(n + 1, points[n].date, points[n].impressions)]
  }

  function TrendSeries(lineChartData: Option<seq<LinePoint>>): (r: seq<TrendPoint>)
    ensures lineChartData.None? ==> r == []
    ensures lineChartData.Some? ==> r == TrendPoints(lineChartData.value)
  {
    match lineChartData
    case None => []
    case Some(points) => TrendPoints(points)
  }

  /** True when the dashboard has rows to aggregate. */
  predicate HasRows(resp: Option<Response>) {
    resp.Some? && resp.value.data.Some? && |resp.value.data.value| > 0
  }

  /** The whole dashboard for a (possibly null) response. */
  function Render(resp: Option<Response>): (v: View)
    ensures v.NoDataPlaceholder? <==> !HasRows(resp)
    ensures v.Dashboard? ==> v.trend == TrendSeries(resp.value.lineChartData)
    ensures v.Dashboard? ==> v.bar.data == resp.value.data.value
    ensures v.Dashboard? ==> v.keyMetrics == KeyMetrics(resp.value.data.value)
    ensures v.Dashboard? ==> v.pie == PieData(resp.value.data.value)
    ensures v.Dashboard? ==> v.bar == CampaignBarChart(resp.value.data.value)
    ensures v.Dashboard? ==> (v.summary.Some? <==> Truthy(resp.value.summary))
    ensures v.Dashboard? && v.summary.Some? ==> v.summary == resp.value.summary
  {
    if !HasRows(resp) then NoDataPlaceholder
    else
      var r := resp.value;
      var rows := r.data.value;
      Dashboard(
        KeyMetrics(rows),
        CampaignBarChart(rows),
        PieData(rows),
        TrendSeries(r.lineChartData),
        if Truthy(r.summary) then r.summary else None)
  }

  /** Reordering the rows changes no aggregate, so the rendered figures are the same. */
  lemma AggregatesOrderIndependent(a: seq<Row>, b: seq<Row>)
    requires multiset(a) == multiset(b)
    ensures KeyMetrics(a) == KeyMetrics(b)
    ensures PieData(a) == PieData(b)
  {
    SumByPermutation(a, b, ImpressionsOf);
    SumByPermutation(a, b, ClicksOf);
    SumByPermutation(a, b, SpendOf);
    SumByPermutation(a, b, RevenueOf);
  }

  /** Cancelling a positive factor on both sides of `<=`. */
  lemma CancelPositive(c: real, a: real, b: real)
    requires b > 0.0 && c * b <= a * b
    ensures c <= a
  {
  }

  /** A ratio `r` with `r * m == 100 * c` for `0 <= c <= m`, and 0 when `m` is 0, is a percentage. */
  lemma PercentBetween(c: real, m: real, r: real)
    requires 0.0 <= c <= m
    requires m <= 0.0 ==> r == 0.0
    requires m > 0.0 ==> r * m == 100.0 * c
    ensures 0.0 <= r <= 100.0
  {
    if m > 0.0 {
      assert r * m <= 100.0 * m;
      CancelPositive(r, 100.0, m);
      assert 0.0 * m <= r * m;
      CancelPositive(0.0, r, m);
    }
  }

  /** With non-negative clicks that never exceed impressions row by row, CTR lies in [0, 100]. */
  lemma CtrIsAPercentage(rows: seq<Row>)
    requires forall i :: 0 <= i < |rows| ==> 0.0 <= ClicksOf(rows[i]) <= ImpressionsOf(rows[i])
    ensures 0.0 <= Ctr(rows) <= 100.0
  {
    SumByNonNegative(rows, ClicksOf);
    SumByMonotone(rows, ClicksOf, ImpressionsOf);
    PercentBetween(TotalClicks(rows), TotalImpressions(rows), Ctr(rows));
  }

  /** ROAS is revenue over spend when something was spent. */
  lemma RoasIsRatio(rows: seq<Row>)
    requires TotalSpend(rows) > 0.0
    ensures Roas(rows) == TotalRevenue(rows) / TotalSpend(rows)
  {
  }

  /** ROAS is the spend-weighted average of the per-row roas: it lies between their bounds. */
  lemma RoasIsWeightedAverage(rows: seq<Row>, lo: real, hi: real)
    requires forall i :: 0 <= i < |rows| ==> SpendOf(rows[i]) >= 0.0
    requires forall i :: 0 <= i < |rows| ==> lo <= RoasOf(rows[i]) <= hi
    requires TotalSpend(rows) > 0.0
    ensures lo <= Roas(rows) <= hi
  {
    RoasIsRatio(rows);
    WeightedAverageBetween(rows, SpendOf, RoasOf, lo, hi);
  }

  /** When every row has the same roas, ROAS is that value (as long as something was spent). */
  lemma RoasOfUniformRows(rows: seq<Row>, rho: real)
    requires forall i :: 0 <= i < |rows| ==> RoasOf(rows[i]) == rho
    requires TotalSpend(rows) > 0.0
    ensures Roas(rows) == rho
  {
    RoasIsRatio(rows);
    WeightedAverageOfConstant(rows, SpendOf, RoasOf, rho);
  }

  /** The pie is consistent with the ROAS card: revenue slice = ROAS × spend slice when spend is positive. */
  lemma PieMatchesRoas(rows: seq<Row>)
    requires TotalSpend(rows) > 0.0
    ensures PieData(rows)[1].value == Roas(rows) * PieData(rows)[0].value
  {
  }

  /** Revenue is not the product of total spend and total roas: two rows that tell them apart. */
  lemma RevenueIsNotProductOfTotals()
    ensures var rows := [map["spend" := Num(1.0), "roas" := Num(2.0)], map["spend" := Num(3.0), "roas" := Num(0.0)]];
      TotalRevenue(rows) == 2.0 && TotalSpend(rows) * SumBy(rows, RoasOf) == 8.0
  {
    var a: Row := map["spend" := Num(1.0), "roas" := Num(2.0)];
    var b: Row := map["spend" := Num(3.0), "roas" := Num(0.0)];
    SumByAppend([a], [b], RevenueOf);
    SumByAppend([a], [b], SpendOf);
    SumByAppend([a], [b], RoasOf);
    SumBySingle(a, RevenueOf); SumBySingle(b, RevenueOf);
    SumBySingle(a, SpendOf); SumBySingle(b, SpendOf);
    SumBySingle(a, RoasOf); SumBySingle(b, RoasOf);
    assert [a] + [b] == [a, b];
  }

  /** One campaign with 100 impressions, 10 clicks, spend 50 and roas 2: CTR 10 %, ROAS 2x. */
  lemma SingleCampaignExample()
    ensures var row: Row := map["campaign_name" := Str("A"), "impressions" := Num(100.0),
                                "clicks" := Num(10.0), "spend" := Num(50.0), "roas" := Num(2.0)];
      Ctr([row]) == 10.0 && Roas([row]) == 2.0 && TotalImpressions([row]) == 100.0
  {
    var row: Row := map["campaign_name" := Str("A"), "impressions" := Num(100.0),
                        "clicks" := Num(10.0), "spend" := Num(50.0), "roas" := Num(2.0)];
    SumBySingle(row, ImpressionsOf);
    SumBySingle(row, ClicksOf);
    SumBySingle(row, SpendOf);
    SumBySingle(row, RevenueOf);
  }

  /** The dashboard ignores the payload's descriptors and metric hints entirely. */
  lemma RenderIgnoresDescriptors(resp: Response, vs: Option<seq<Visualization>>, ms: Option<seq<Metric>>)
    ensures Render(Some(resp.(visualizations := vs, metrics := ms))) == Render(Some(resp))
  {
  }
}

=== FILE: dynamic_dashboard.dfy ===
/**
  * The descriptor-driven dashboard: metric cards are the descriptors typed
  * exactly "metric-card", each showing the coerced sum of its `value_key`;
  * bar charts are the descriptors typed "bar" or "bar-chart", each drawn from
  * the full row set when the data, `x_key` and `y_keys` allow it and shown as
  * "No data for chart" otherwise. Every other descriptor produces nothing.
  */
module DynamicDashboard {
  import opened Wrappers
  import opened Payload

  const PrimaryBarColor := "#a855f7"
  const SecondaryBarColor := "#ec4899"

  /** One bar series: the row field it plots and its fill colour. */
  datatype Bar = Bar(dataKey: string, fill: string)

  /** The body of a chart panel. */
  datatype ChartBody = NoDataForChart | BarChart(data: seq<Row>, xKey: string, bars: seq<Bar>)

  datatype Panel = MetricCard(title: string, value: real) | ChartPanel(title: string, body: ChartBody)

  /** What the dashboard renders: one placeholder, or the panels in order. */
  datatype View = NoDataAvailable | Panels(items: seq<Panel>)

  /** `v.type === "metric-card"`: exact, case-sensitive comparison. */
  predicate IsMetricCard(v: Visualization) {
    v.kind == Some("metric-card")
  }

  /** `v.type === "bar" || v.type === "bar-chart"`. */
  predicate IsBarChart(v: Visualization) {
    v.kind == Some("bar") || v.kind == Some("bar-chart")
  }

  /** `Array.prototype.filter`: the elements satisfying `p`, in order. */
  function Filter<T>(xs: seq<T>, p: T -> bool): (r: seq<T>)
    ensures |r| <= |xs|
  {
    if xs == [] then [] else (if p(xs[0]) then [xs[0]] else []) + Filter(xs[1..], p)
  }

  /** An element survives the filter exactly when it is in the input and satisfies `p`. */
  lemma {:induction false} FilterMembers<T>(xs: seq<T>, p: T -> bool, x: T)
    ensures x in Filter(xs, p) <==> x in xs && p(x)
    decreases |xs|
  {
    if xs != [] {
      FilterMembers(xs[1..], p, x);
      assert xs == [xs[0]] + xs[1..];
    }
  }

  /** Filtering a concatenation filters each part and keeps them in order. */
  lemma {:induction false} FilterAppend<T>(a: seq<T>, b: seq<T>, p: T -> bool)
    ensures Filter(a + b, p) == Filter(a, p) + Filter(b, p)
    decreases |a|
  {
    if a == [] {
      assert a + b == b;
    } else {
      var ab := a + b;
      var head := if p(a[0]) then [a[0]] else [];
      assert ab[0] == a[0] && ab[1..] == a[1..] + b;
      assert Filter(ab, p) == head + Filter(a[1..] + b, p);
      FilterAppend(a[1..], b, p);
      assert Filter(a, p) == head + Filter(a[1..], p);
    }
  }

  /** Filtering a rejected element between two parts gives the filtered parts. */
  lemma FilterDropsBetween<T>(pre: seq<T>, x: T, post: seq<T>, p: T -> bool)
    requires !p(x)
    ensures Filter(pre + [x] + post, p) == Filter(pre, p) + Filter(post, p)
  {
    var single := [x];
    assert Filter(single, p) == [] by {
      assert single[1..] == [];
    }
    FilterAppend(pre, single, p);
    assert Filter(pre + single, p) == Filter(pre, p);
    FilterAppend(pre + single, post, p);
  }

  /** Inserting an element that `p` rejects does not change the filtered sequence. */
  lemma FilterSkipsRejected<T>(xs: seq<T>, k: nat, x: T, p: T -> bool)
    requires k <= |xs| && !p(x)
    ensures Filter(xs[..k] + [x] + xs[k..], p) == Filter(xs, p)
  {
    var pre, post := xs[..k], xs[k..];
    SplitAt(xs, k);
    FilterDropsBetween(pre, x, post, p);
    FilterAppend(pre, post, p);
  }

  /** A sequence is its prefix followed by the rest. */
  lemma SplitAt<T>(xs: seq<T>, k: nat)
    requires k <= |xs|
    ensures xs[..k] + xs[k..] == xs
  {
  }

  /** Nothing survives a filter that rejects every element. */
  lemma {:induction false} FilterRejectsAll<T>(xs: seq<T>, p: T -> bool)
    requires forall i :: 0 <= i < |xs| ==> !p(xs[i])
    ensures Filter(xs, p) == []
    decreases |xs|
  {
    if xs != [] {
      FilterRejectsAll(xs[1..], p);
    }
  }

  /** The value a metric card shows: the field's coerced sum, or 0 without rows or without a truthy key. */
  function CardValue(data: Option<seq<Row>>, valueKey: Option<string>): (r: real)
    ensures data.None? || data.value == [] || !Truthy(valueKey) ==> r == 0.0
  {
    if data.Some? && |data.value| > 0 && Truthy(valueKey)
    then SumBy(data.value, FieldOf(valueKey.value))
    else 0.0
  }

  /** One bar per key, in key order: the first in the primary colour, every later one in the secondary. */
  function Bars(keys: seq<string>, first: bool): (r: seq<Bar>)
    ensures |r| == |keys|
    ensures forall i :: 0 <= i < |keys| ==> r[i].dataKey == keys[i]
    ensures forall i :: 0 <= i < |keys| ==>
      r[i].fill == (if first && i == 0 then PrimaryBarColor else SecondaryBarColor)
  {
    if keys == [] then []
    else [Bar(keys[0], if first then PrimaryBarColor else SecondaryBarColor)] + Bars(keys[1..], false)
  }

  /** The body of a bar-chart panel: drawn only with rows, a truthy `x_key` and a present `y_keys`. */
  function ChartBodyFor(data: Option<seq<Row>>, v: Visualization): (r: ChartBody)
    ensures r.BarChart? <==> data.Some? && |data.value| > 0 && Truthy(v.xKey) && v.yKeys.Some?
    ensures r.BarChart? ==> r.data == data.value && r.xKey == v.xKey.value && r.bars == Bars(v.yKeys.value, true)
  {
    if data.Some? && |data.value| > 0 && Truthy(v.xKey) && v.yKeys.Some?
    then BarChart(data.value, v.xKey.value, Bars(v.yKeys.value, true))
    else NoDataForChart
  }

  /** The metric-card panels, one per descriptor, in order. */
  function Cards(vs: seq<Visualization>, data: Option<seq<Row>>): (r: seq<Panel>)
    ensures |r| == |vs|
    ensures forall i :: 0 <= i < |vs| ==> r[i] == MetricCard(vs[i].title, CardValue(data, vs[i].valueKey))
  {
    if vs == [] then [] else [MetricCard(vs[0].title, CardValue(data, vs[0].valueKey))] + Cards(vs[1..], data)
  }

  /** The chart panels, one per descriptor, in order. */
  function Charts(vs: seq<Visualization>, data: Option<seq<Row>>): (r: seq<Panel>)
    ensures |r| == |vs|
    ensures forall i :: 0 <= i < |vs| ==> r[i] == ChartPanel(vs[i].title, ChartBodyFor(data, vs[i]))
  {
    if vs == [] then [] else [ChartPanel(vs[0].title, ChartBodyFor(data, vs[0]))] + Charts(vs[1..], data)
  }

  /** True when the payload carries at least one descriptor. */
  predicate HasDescriptors(resp: Option<Response>) {
    resp.Some? && resp.value.visualizations.Some? && |resp.value.visualizations.value| > 0
  }

  /** The whole dashboard: all metric cards, then all bar charts. */
  function Render(resp: Option<Response>): (v: View)
    ensures v.NoDataAvailable? <==> !HasDescriptors(resp)
    ensures v.Panels? ==> forall i, j :: 0 <= i < j < |v.items| && v.items[j].MetricCard? ==> v.items[i].MetricCard?
  {
    if !HasDescriptors(resp) then NoDataAvailable
    else
      var vs := resp.value.visualizations.value;
      var data := resp.value.data;
      var cards := Cards(Filter(vs, IsMetricCard), data);
      var charts := Charts(Filter(vs, IsBarChart), data);
      assert forall k :: 0 <= k < |charts| ==> !charts[k].MetricCard?;
      Panels(cards + charts)
  }

  /** The panels are exactly: a card per "metric-card" descriptor, then a chart per bar descriptor, each in payload order. */
  lemma RenderPanels(resp: Response)
    requires HasDescriptors(Some(resp))
    ensures var vs := resp.visualizations.value;
      var cardVs, chartVs := Filter(vs, IsMetricCard), Filter(vs, IsBarChart);
      var items := Render(Some(resp)).items;
      && |items| == |cardVs| + |chartVs|
      && (forall i :: 0 <= i < |cardVs| ==>
            items[i] == MetricCard(cardVs[i].title, CardValue(resp.data, cardVs[i].valueKey)))
      && (forall j :: |cardVs| <= j < |items| ==>
            items[j] == ChartPanel(chartVs[j - |cardVs|].title, ChartBodyFor(resp.data, chartVs[j - |cardVs|])))
  {
    var vs := resp.visualizations.value;
    var cardVs, chartVs := Filter(vs, IsMetricCard), Filter(vs, IsBarChart);
    var items := Render(Some(resp)).items;
    RenderItems(resp);
    CardsThenCharts(cardVs, chartVs, resp.data, items);
  }

  lemma CardsThenCharts(cardVs: seq<Visualization>, chartVs: seq<Visualization>, data: Option<seq<Row>>, items: seq<Panel>)
    requires items == Cards(cardVs, data) + Charts(chartVs, data)
    ensures |items| == |cardVs| + |chartVs|
    ensures forall i :: 0 <= i < |cardVs| ==> items[i] == MetricCard(cardVs[i].title, CardValue(data, cardVs[i].valueKey))
    ensures forall j :: |cardVs| <= j < |items| ==>
      items[j] == ChartPanel(chartVs[j - |cardVs|].title, ChartBodyFor(data, chartVs[j - |cardVs|]))
  {
    var cards, charts := Cards(cardVs, data), Charts(chartVs, data);
    forall j | |cardVs| <= j < |items|
      ensures items[j] == ChartPanel(chartVs[j - |cardVs|].title, ChartBodyFor(data, chartVs[j - |cardVs|]))
    {
      assert items[j] == charts[j - |cards|];
    }
  }

  lemma RenderItems(resp: Response)
    requires HasDescriptors(Some(resp))
    ensures var vs := resp.visualizations.value;
      Render(Some(resp)) == Panels(Cards(Filter(vs, IsMetricCard), resp.data) + Charts(Filter(vs, IsBarChart), resp.data))
  {
  }

  /** A descriptor of any other type (line, pie, area, a mis-cased type, none) changes nothing when inserted. */
  lemma {:induction false} UnsupportedDescriptorIsIgnored(resp: Response, k: nat, v: Visualization)
    requires HasDescriptors(Some(resp)) && k <= |resp.visualizations.value|
    requires !IsMetricCard(v) && !IsBarChart(v)
    ensures var vs := resp.visualizations.value;
      Render(Some(resp.(visualizations := Some(vs[..k] + [v] + vs[k..])))) == Render(Some(resp))
  {
    var vs := resp.visualizations.value;
    FilterSkipsRejected(vs, k, v, IsMetricCard);
    FilterSkipsRejected(vs, k, v, IsBarChart);
  }

  /** A payload whose descriptors are all unsupported renders an empty panel list, not the placeholder. */
  lemma OnlyUnsupportedDescriptors(resp: Response)
    requires HasDescriptors(Some(resp))
    requires forall i :: 0 <= i < |resp.visualizations.value| ==>
      !IsMetricCard(resp.visualizations.value[i]) && !IsBarChart(resp.visualizations.value[i])
    ensures Render(Some(resp)) == Panels([])
  {
    FilterRejectsAll(resp.visualizations.value, IsMetricCard);
    FilterRejectsAll(resp.visualizations.value, IsBarChart);
  }

  /** Type matching is case-sensitive: "Metric-Card" and "BAR" are not recognised. */
  lemma TypeMatchIsCaseSensitive(title: string)
    ensures !IsMetricCard(Visualization(Some("Metric-Card"), title, None, None, None))
    ensures !IsBarChart(Visualization(Some("BAR"), title, None, None, None))
    ensures IsBarChart(Visualization(Some("bar-chart"), title, None, None, None))
  {
  }

  /** An empty `value_key` shows 0 even when every row carries a numeric "" field. */
  lemma EmptyKeyShowsZero(rows: seq<Row>)
    requires |rows| > 0 && forall i :: 0 <= i < |rows| ==> "" in rows[i] && rows[i][""] == Num(1.0)
    ensures CardValue(Some(rows), Some("")) == 0.0
    ensures SumBy(rows, FieldOf("")) == |rows| as real
  {
    SumOfOnes(rows);
  }

  lemma {:induction false} SumOfOnes(rows: seq<Row>)
    requires forall i :: 0 <= i < |rows| ==> "" in rows[i] && rows[i][""] == Num(1.0)
    ensures SumBy(rows, FieldOf("")) == |rows| as real
    decreases |rows|
  {
    if rows != [] {
      SumOfOnes(rows[..|rows| - 1]);
    }
  }

  /** A card's value sums only the rows that carry its key; rows without it count as 0. */
  lemma CardSumsRowsWithKey(rows: seq<Row>, key: string)
    requires |rows| > 0 && key != ""
    ensures CardValue(Some(rows), Some(key)) == SumBy(RowsWithField(rows, key), FieldOf(key))
  {
    SumOverRowsWithField(rows, key);
  }

  /** A card's value does not depend on the order of the rows. */
  lemma CardValueOrderIndependent(a: seq<Row>, b: seq<Row>, key: Option<string>)
    requires multiset(a) == multiset(b)
    ensures CardValue(Some(a), key) == CardValue(Some(b), key)
  {
    if Truthy(key) {
      SumByPermutation(a, b, FieldOf(key.value));
    }
    assert |a| == |multiset(a)| == |multiset(b)| == |b|;
  }

  /** With no rows, every card shows 0 and every bar chart shows "No data for chart". */
  lemma NoRowsScenario(resp: Response)
    requires HasDescriptors(Some(resp))
    requires resp.data.None? || resp.data.value == []
    ensures forall p :: p in Render(Some(resp)).items ==>
      (p.MetricCard? ==> p.value == 0.0) && (p.ChartPanel? ==> p.body == NoDataForChart)
  {
  }
}

=== FILE: index_page.dfy ===
/**
  * The index page: the prompt form, the request to the analytics backend, the
  * error banner, and the switches between the landing view and the dashboard
  * and between a collapsed and an expanded sidebar.
  *
  * The request itself is a parameter: `HandleSubmit` is given the outcome the
  * backend produces for the prompt it sends.
  */
module IndexPage {
  import opened Wrappers
  import Text
  import opened Payload

  /** The status line of an HTTP reply that was not a success. */
  datatype HttpReply = HttpReply(status: int, statusText: string)

  /**
    * A failed request as the HTTP client reports it: a reply when the server
    * answered, otherwise whether the request left the browser, and a message.
    */
  datatype FetchError = FetchError(response: Option<HttpReply>, requestSent: bool, message: string)

  /** What the request for one prompt yields. */
  datatype Outcome = Ok(data: Response) | Failed(err: FetchError)

  /** `!prompt.trim()`: every character is JavaScript whitespace, so trimming leaves nothing (`BlankIsTrimmedEmpty`). */
  predicate IsBlank(prompt: string) {
    forall i :: 0 <= i < |prompt| ==> prompt[i] in JsSpace
  }

  lemma BlankIsTrimmedEmpty(prompt: string)
    ensures IsBlank(prompt) <==> Text.Strip(prompt, JsSpace) == []
  {
  }

  const ServerErrorPrefix := "Server error: "
  const NoReplyMessage := "No response from server." + " Is the backend running?"
  const RequestFailedPrefix := "Request failed: "

  /** The banner text for a failed request: a server reply wins over a lost request, which wins over the client's own message. */
  function ErrorMessage(e: FetchError): (m: string)
    ensures e.response.Some? ==> |m| > |ServerErrorPrefix| && m[..|ServerErrorPrefix|] == ServerErrorPrefix
    ensures e.response.None? && e.requestSent ==> m == NoReplyMessage
    ensures e.response.None? && !e.requestSent ==> |m| >= |RequestFailedPrefix| && m[..|RequestFailedPrefix|] == RequestFailedPrefix && m[|RequestFailedPrefix|..] == e.message
  {
    if e.response.Some? then
      ServerErrorPrefix + Text.IntText(e.response.value.status) + " " + e.response.value.statusText
    else if e.requestSent then NoReplyMessage
    else RequestFailedPrefix + e.message
  }

  /** The three situations the banner tells apart. */
  datatype Cause = ServerReplied | NoReply | NotSent

  function CauseOf(e: FetchError): Cause {
    if e.response.Some? then ServerReplied else if e.requestSent then NoReply else NotSent
  }

  /** Every failure produces a non-empty message, so the banner is always shown after one. */
  lemma ErrorMessageNonEmpty(e: FetchError)
    ensures ErrorMessage(e) != []
    ensures |ErrorMessage(e)| >= |RequestFailedPrefix|
  {
  }

  /** The first letter of the message: S for a server reply, N for no reply, R for a request that failed. */
  function CauseLetter(c: Cause): char {
    match c
    case ServerReplied => 'S'
    case NoReply => 'N'
    case NotSent => 'R'
  }

  lemma MessageStartsWithCauseLetter(e: FetchError)
    ensures |ErrorMessage(e)| > 0 && ErrorMessage(e)[0] == CauseLetter(CauseOf(e))
  {
    if e.response.Some? {
      var rest := Text.IntText(e.response.value.status) + " " + e.response.value.statusText;
      assert ErrorMessage(e) == ServerErrorPrefix + rest;
    } else if !e.requestSent {
      assert ErrorMessage(e) == RequestFailedPrefix + e.message;
    } else {
      assert ErrorMessage(e) == NoReplyMessage;
    }
  }

  /** Equal messages come from the same kind of failure: the message reveals its cause. */
  lemma ErrorMessageRevealsCause(e1: FetchError, e2: FetchError)
    requires ErrorMessage(e1) == ErrorMessage(e2)
    ensures CauseOf(e1) == CauseOf(e2)
  {
    MessageStartsWithCauseLetter(e1);
    MessageStartsWithCauseLetter(e2);
  }

  /** Index of the first space in `s`, or `|s|` when there is none. */
  function FirstSpace(s: string): (i: nat)
    ensures i <= |s|
  {
    if s == [] || s[0] == ' ' then 0 else 1 + FirstSpace(s[1..])
  }

  /** In a space-free head joined to a tail by a space, the first space is the joint. */
  lemma {:induction false} FirstSpaceOfJoin(x: string, y: string)
    requires ' ' !in x
    ensures FirstSpace(x + " " + y) == |x|
  {
    if x != [] {
      assert x[0] in x;
      assert (x + " " + y)[1..] == x[1..] + " " + y;
      assert forall c :: c in x[1..] ==> c in x;
      FirstSpaceOfJoin(x[1..], y);
    }
  }

  /** A space-free head followed by a space is recovered from the joined text, and so is the tail. */
  lemma SpaceDelimitedHead(x: string, y: string, x2: string, y2: string)
    requires ' ' !in x && ' ' !in x2
    requires x + " " + y == x2 + " " + y2
    ensures x == x2 && y == y2
  {
    var s := x + " " + y;
    FirstSpaceOfJoin(x, y);
    FirstSpaceOfJoin(x2, y2);
    assert x == s[..|x|];
    assert x2 == (x2 + " " + y2)[..|x2|];
    assert y == s[|x| + 1..];
    assert y2 == (x2 + " " + y2)[|x2| + 1..];
  }

  /** The decimal text of an integer has no space in it. */
  lemma IntTextHasNoSpace(i: int)
    ensures ' ' !in Text.IntText(i)
  {
    var t := Text.IntText(i);
    if i < 0 {
      assert forall k :: 1 <= k < |t| ==> t[k] == t[1..][k - 1];
    }
    assert forall k :: 0 <= k < |t| ==> t[k] != ' ';
  }

  /** Distinct integers render differently. */
  lemma IntTextInjective(a: int, b: int)
    requires Text.IntText(a) == Text.IntText(b)
    ensures a == b
  {
    if a < 0 && b < 0 {
      assert Text.IntText(a)[1..] == Text.NatText(-a);
      assert Text.IntText(b)[1..] == Text.NatText(-b);
      Text.NatTextInjective(-a, -b);
    } else if a >= 0 && b >= 0 {
      Text.NatTextInjective(a, b);
    }
  }

  /** A server-error message determines the status code and the status text it reports. */
  lemma ServerErrorRevealsReply(e1: FetchError, e2: FetchError)
    requires e1.response.Some? && e2.response.Some?
    requires ErrorMessage(e1) == ErrorMessage(e2)
    ensures e1.response.value == e2.response.value
  {
    var r1, r2 := e1.response.value, e2.response.value;
    var t1, t2 := Text.IntText(r1.status), Text.IntText(r2.status);
    ServerMessageTail(e1);
    ServerMessageTail(e2);
    IntTextHasNoSpace(r1.status);
    IntTextHasNoSpace(r2.status);
    SpaceDelimitedHead(t1, r1.statusText, t2, r2.statusText);
    IntTextInjective(r1.status, r2.status);
  }

  /** After its prefix, a server-error message is the status code, a space and the status text. */
  lemma ServerMessageTail(e: FetchError)
    requires e.response.Some?
    ensures ErrorMessage(e)[|ServerErrorPrefix|..] == Text.IntText(e.response.value.status) + " " + e.response.value.statusText
  {
    var tail := Text.IntText(e.response.value.status) + " " + e.response.value.statusText;
    assert ErrorMessage(e) == ServerErrorPrefix + tail;
  }

  /** The page's state cells. */
  class Page {
    var prompt: string
    var aiResponse: Option<Response>
    var loading: bool
    var error: string
    var sidebarCollapsed: bool
    var showDashboard: bool

    constructor ()
      ensures prompt == [] && aiResponse == None && !loading && error == []
      ensures !sidebarCollapsed && !showDashboard
    {
      prompt := [];
      aiResponse := None;
      loading := false;
      error := [];
      sidebarCollapsed := false;
      showDashboard := false;
    }

    /** The error banner is rendered when `error` is truthy. */
    predicate ShowsErrorBanner()
      reads this
    {
      error != []
    }

    /** Typing in the prompt box. */
    method SetPrompt(p: string)
      modifies this
      ensures prompt == p
      ensures aiResponse == old(aiResponse) && loading == old(loading) && error == old(error)
      ensures sidebarCollapsed == old(sidebarCollapsed) && showDashboard == old(showDashboard)
    {
      prompt := p;
    }

    /**
      * The synchronous part of the submit handler: a blank prompt does
      * nothing; otherwise the loading overlay appears, the old error is
      * cleared and the dashboard view is entered, and the request is sent.
      */
    method Submit() returns (sent: bool)
      modifies this
      ensures sent <==> !IsBlank(old(prompt))
      ensures !sent ==> loading == old(loading) && error == old(error) && showDashboard == old(showDashboard)
      ensures sent ==> loading && error == [] && showDashboard
      ensures prompt == old(prompt) && aiResponse == old(aiResponse) && sidebarCollapsed == old(sidebarCollapsed)
    {
      if IsBlank(prompt) {
        return false;
      }
      loading := true;
      error := [];
      showDashboard := true;
      return true;
    }

    /**
      * The continuation once the request settles: a reply replaces the
      * response, a failure sets the banner text and keeps whatever response
      * was shown before; the loading overlay goes away either way.
      */
    method Settle(outcome: Outcome)
      modifies this
      ensures !loading
      ensures outcome.Ok? ==> aiResponse == Some(outcome.data) && error == old(error)
      ensures outcome.Failed? ==> aiResponse == old(aiResponse) && error == ErrorMessage(outcome.err)
      ensures prompt == old(prompt) && sidebarCollapsed == old(sidebarCollapsed) && showDashboard == old(showDashboard)
    {
      loading := false;
      match outcome
      case Ok(data) =>
        aiResponse := Some(data);
      case Failed(err) =>
        error := ErrorMessage(err);
    }

    /** `handleSubmit`, with `request` standing for the backend's answer to a prompt. */
    method HandleSubmit(request: string -> Outcome) returns (sent: bool)
      modifies this
      ensures sent <==> !IsBlank(old(prompt))
      ensures !sent ==> loading == old(loading) && error == old(error) && aiResponse == old(aiResponse)
      ensures !sent ==> showDashboard == old(showDashboard)
      ensures sent ==> !loading && showDashboard
      ensures sent && request(old(prompt)).Ok? ==> aiResponse == Some(request(old(prompt)).data) && !ShowsErrorBanner()
      ensures sent && request(old(prompt)).Failed? ==>
        aiResponse == old(aiResponse) && ShowsErrorBanner() && error == ErrorMessage(request(old(prompt)).err)
      ensures prompt == old(prompt) && sidebarCollapsed == old(sidebarCollapsed)
    {
      sent := Submit();
      if sent {
        var outcome := request(prompt);
        Settle(outcome);
        if outcome.Failed? {
          ErrorMessageNonEmpty(outcome.err);
        }
      }
    }

    /** The "Back to Home" button. */
    method BackToHome()
      modifies this
      ensures !showDashboard
      ensures prompt == old(prompt) && aiResponse == old(aiResponse) && loading == old(loading)
      ensures error == old(error) && sidebarCollapsed == old(sidebarCollapsed)
    {
      showDashboard := false;
    }

    /** The sidebar's collapse button. */
    method ToggleSidebar()
      modifies this
      ensures sidebarCollapsed == !old(sidebarCollapsed)
      ensures prompt == old(prompt) && aiResponse == old(aiResponse) && loading == old(loading)
      ensures error == old(error) && showDashboard == old(showDashboard)
    {
      sidebarCollapsed := !sidebarCollapsed;
    }
  }

  /** A prompt made only of spaces, tabs and newlines is blank; one with a letter is not. */
  lemma BlankPrompts()
    ensures IsBlank("")
    ensures IsBlank(" \t\n")
    ensures !IsBlank(" a ")
  {
    assert " \t\n"[0] in JsSpace && " \t\n"[1] in JsSpace && " \t\n"[2] in JsSpace;
    assert " a "[1] !in JsSpace;
  }
}

=== FILE: payload.dfy ===
/**
  * The analytics payload as the frontend receives it, and the one numeric
  * policy every dashboard applies to it: `Number(v) || 0`, summed over rows.
  */
module Payload {
  import opened Wrappers
  import Text
  import Tally

  /** One cell of a data row: JSON numbers, strings, booleans and null. */
  datatype Value = Num(x: real) | Str(s: string) | Bool(b: bool) | Null

  /** A data row: field name to cell. A field that is absent reads as `undefined`. */
  type Row = map<string, Value>

  /** A metric hint of the payload (`format` is one of number, currency, percentage). */
  datatype Metric = Metric(title: string, valueKey: string, format: Option<string>)

  /** A visualization descriptor; every field but the title is optional on the wire. */
  datatype Visualization = Visualization(
    kind: Option<string>,
    title: string,
    xKey: Option<string>,
    yKeys: Option<seq<string>>,
    valueKey: Option<string>)

  /** One entry of `line_chart_data`. */
  datatype LinePoint = LinePoint(date: string, impressions: real)

  /** The payload returned for one prompt. */
  datatype Response = Response(
    metrics: Option<seq<Metric>>,
    visualizations: Option<seq<Visualization>>,
    data: Option<seq<Row>>,
    summary: Option<string>,
    lineChartData: Option<seq<LinePoint>>)

  /** JavaScript truthiness of an optional string: present and not empty. */
  predicate Truthy(s: Option<string>) {
    s.Some? && s.value != ""
  }

  /** The result of JavaScript `Number(...)`: a finite number or NaN. */
  datatype JsNumber = NaN | Finite(x: real)

  /** ECMAScript WhiteSpace and LineTerminator code points, which `Number(string)` trims. */
  const JsSpace: set<char> := {
    '\t', '\n', '\U{B}', '\U{C}', '\r', ' ', '\U{A0}', '\U{1680}',
    '\U{2000}', '\U{2001}', '\U{2002}', '\U{2003}', '\U{2004}', '\U{2005}',
    '\U{2006}', '\U{2007}', '\U{2008}', '\U{2009}', '\U{200A}',
    '\U{2028}', '\U{2029}', '\U{202F}', '\U{205F}', '\U{3000}', '\U{FEFF}'
  }

  /** The value of the digits after a decimal point. */
  function FractionValue(ds: string): real
    requires Text.AllDigits(ds)
  {
    if ds == [] then 0.0 else (Text.DigitValue(ds[0]) as real + FractionValue(ds[1..])) / 10.0
  }

  /** An unsigned decimal literal `digits`, `digits.`, `.digits` or `digits.digits`. */
  function UnsignedDecimal(b: string): JsNumber {
    var i := Text.IndexOf(b, '.');
    var whole := b[..i];
    var frac := if i < |b| then b[i + 1..] else [];
    if Text.AllDigits(whole) && Text.AllDigits(frac) && (whole != [] || frac != [])
    then Finite(Text.DigitsValue(whole) as real + FractionValue(frac))
    else NaN
  }

  /** `Number(s)` for a string: blank is 0, a signed decimal literal is its value, anything else NaN. */
  function NumberOfText(s: string): JsNumber {
    NumberOfTrimmed(Text.Strip(s, JsSpace))
  }

  /** `Number` of text already trimmed of whitespace. */
  function NumberOfTrimmed(t: string): JsNumber {
    if t == [] then Finite(0.0)
    else if t[0] == '-' then (match UnsignedDecimal(t[1..]) case NaN => NaN case Finite(x) => Finite(-x))
    else if t[0] == '+' then UnsignedDecimal(t[1..])
    else UnsignedDecimal(t)
  }

  /** `Number(v)` for a cell. */
  function NumberOf(v: Value): JsNumber {
    match v
    case Num(x) => Finite(x)
    case Str(s) => NumberOfText(s)
    case Bool(b) => Finite(if b then 1.0 else 0.0)
    case Null => Finite(0.0)
  }

  /** `Number(row[key]) || 0`: the defensive coercion applied to every field before summing. */
  function Coerce(row: Row, key: string): real {
    if key !in row then 0.0   // Number(undefined) is NaN
    else match NumberOf(row[key])
      case NaN => 0.0
      case Finite(x) => x
  }

  /** The coercion agrees with `Number` whenever `Number` gives a number, and is 0 otherwise. */
  lemma CoerceAgreesWithNumber(row: Row, key: string)
    ensures key !in row ==> Coerce(row, key) == 0.0
    ensures key in row && NumberOf(row[key]) == NaN ==> Coerce(row, key) == 0.0
    ensures key in row && NumberOf(row[key]).Finite? ==> Coerce(row, key) == NumberOf(row[key]).x
    ensures key in row && row[key].Num? ==> Coerce(row, key) == row[key].x
  {
  }

  /** No decimal digit is JavaScript whitespace. */
  lemma DigitIsNotSpace(c: char)
    requires Text.IsDigit(c)
    ensures c !in JsSpace
  {
  }

  /** An unsigned run of digits reads back as the number it renders. */
  lemma UnsignedDecimalOfNatText(m: nat)
    ensures UnsignedDecimal(Text.NatText(m)) == Finite(m as real)
  {
    var digits := Text.NatText(m);
    assert forall k :: 0 <= k < |digits| ==> digits[k] != '.';
    assert digits[..|digits|] == digits;
    Text.DigitsValueOfNatText(m);
  }

  /** The decimal text of an integer has no whitespace to trim. */
  lemma IntTextIsTrimmed(n: int)
    ensures Text.Strip(Text.IntText(n), JsSpace) == Text.IntText(n)
  {
    var t := Text.IntText(n);
    if n < 0 {
      assert t[|t| - 1] == t[1..][|t| - 2];
      DigitIsNotSpace(t[|t| - 1]);
      assert t[0] == '-';
      assert '-' !in JsSpace;
    } else {
      DigitIsNotSpace(t[0]);
      DigitIsNotSpace(t[|t| - 1]);
    }
    assert t[0] !in JsSpace && t[|t| - 1] !in JsSpace;
  }

  /** `Number` of the decimal text of an integer is that integer. */
  lemma NumberOfIntText(n: int)
    ensures NumberOfText(Text.IntText(n)) == Finite(n as real)
  {
    IntTextIsTrimmed(n);
    NumberOfTrimmedText(Text.IntText(n));
    NumberOfTrimmedIntText(n);
  }

  /** Text with nothing to trim reads as it stands. */
  lemma NumberOfTrimmedText(t: string)
    requires Text.Strip(t, JsSpace) == t
    ensures NumberOfText(t) == NumberOfTrimmed(t)
  {
  }

  lemma NumberOfTrimmedIntText(n: int)
    ensures NumberOfTrimmed(Text.IntText(n)) == Finite(n as real)
  {
    if n < 0 {
      assert Text.IntText(n) == "-" + Text.NatText(-n);
      NumberOfNegativeText(-n);
    } else {
      NumberOfNatText(n);
    }
  }

  lemma NumberOfNatText(m: nat)
    ensures NumberOfTrimmed(Text.NatText(m)) == Finite(m as real)
  {
    var t := Text.NatText(m);
    assert Text.IsDigit(t[0]);
    UnsignedDecimalOfNatText(m);
  }

  lemma NumberOfNegativeText(m: nat)
    ensures NumberOfTrimmed("-" + Text.NatText(m)) == Finite(-(m as real))
  {
    var u := Text.NatText(m);
    assert ("-" + u)[1..] == u;
    UnsignedDecimalOfNatText(m);
  }

  /** A numeric field sent as the decimal text of an integer coerces to that integer. */
  lemma CoerceIntegerText(row: Row, key: string, n: int)
    requires key in row && row[key] == Str(Text.IntText(n))
    ensures Coerce(row, key) == n as real
  {
    NumberOfIntText(n);
  }

  /** The per-row contribution of one field, as a function to fold with. */
  function FieldOf(key: string): Row -> real {
    row => Coerce(row, key)
  }

  /** `rows.reduce((sum, row) => sum + f(row), 0)`: a left fold, last row added last. */
  function SumBy(rows: seq<Row>, f: Row -> real): real {
    if rows == [] then 0.0 else SumBy(rows[..|rows| - 1], f) + f(rows[|rows| - 1])
  }

  /** Summing a concatenation is summing the parts. */
  lemma {:induction false} SumByAppend(a: seq<Row>, b: seq<Row>, f: Row -> real)
    ensures SumBy(a + b, f) == SumBy(a, f) + SumBy(b, f)
    decreases |b|
  {
    if b == [] {
      assert a + b == a;
    } else {
      var n := |b| - 1;
      assert (a + b)[..|a + b| - 1] == a + b[..n];
      SumByAppend(a, b[..n], f);
    }
  }

  /** The sum of one row is that row's contribution. */
  lemma SumBySingle(r: Row, f: Row -> real)
    ensures SumBy([r], f) == f(r)
  {
    assert [r][..0] == [];
  }

  /** Aggregation does not depend on row order: a permutation of the rows has the same sum. */
  lemma {:induction false} SumByPermutation(a: seq<Row>, b: seq<Row>, f: Row -> real)
    requires multiset(a) == multiset(b)
    ensures SumBy(a, f) == SumBy(b, f)
    decreases |a|
  {
    if a == [] {
      assert |b| == |multiset(b)| == 0;
    } else {
      var n := |a| - 1;
      assert a[n] in multiset(a);
      var j :| 0 <= j < |b| && b[j] == a[n];
      RemoveMatching(a, b, j);
      SumByPermutation(a[..n], b[..j] + b[j + 1..], f);
      SumByRemove(b, j, f);
    }
  }

  /** Taking the last row of `a` and the same row at `j` out of `b` leaves equal multisets. */
  lemma RemoveMatching(a: seq<Row>, b: seq<Row>, j: nat)
    requires multiset(a) == multiset(b) && a != [] && j < |b| && b[j] == a[|a| - 1]
    ensures multiset(a[..|a| - 1]) == multiset(b[..j] + b[j + 1..])
  {
    var n := |a| - 1;
    Tally.MultisetRemove(b, j);
    Tally.MultisetRemove(a, n);
    assert a[..n] + a[n + 1..] == a[..n];
  }

  /** A sum is the sum without the row at `j`, plus that row. */
  lemma SumByRemove(b: seq<Row>, j: nat, f: Row -> real)
    requires j < |b|
    ensures SumBy(b, f) == SumBy(b[..j] + b[j + 1..], f) + f(b[j])
  {
    var x := b[j];
    Tally.SplitAround(b, j);
    SumByAppend(b[..j] + [x], b[j + 1..], f);
    SumByAppend(b[..j], [x], f);
    SumByAppend(b[..j], b[j + 1..], f);
    SumBySingle(x, f);
  }


  /** Row-wise `f <= g` gives sum-wise `f <= g`. */
  lemma {:induction false} SumByMonotone(rows: seq<Row>, f: Row -> real, g: Row -> real)
    requires forall i :: 0 <= i < |rows| ==> f(rows[i]) <= g(rows[i])
    ensures SumBy(rows, f) <= SumBy(rows, g)
    decreases |rows|
  {
    if rows != [] {
      SumByMonotone(rows[..|rows| - 1], f, g);
    }
  }

  /** Row-wise `g == c * f` gives sum-wise `g == c * f`. */
  lemma {:induction false} SumByScaled(rows: seq<Row>, f: Row -> real, g: Row -> real, c: real)
    requires forall i :: 0 <= i < |rows| ==> g(rows[i]) == c * f(rows[i])
    ensures SumBy(rows, g) == c * SumBy(rows, f)
    decreases |rows|
  {
    if rows != [] {
      SumByScaled(rows[..|rows| - 1], f, g, c);
    }
  }

  /** If each row's `g` lies between `lo * w` and `hi * w`, so does the sum of `g` against the sum of `w`. */
  lemma SumByBetween(rows: seq<Row>, w: Row -> real, g: Row -> real, lo: real, hi: real)
    requires forall i :: 0 <= i < |rows| ==> lo * w(rows[i]) <= g(rows[i]) <= hi * w(rows[i])
    ensures lo * SumBy(rows, w) <= SumBy(rows, g) <= hi * SumBy(rows, w)
  {
    var low: Row -> real := row => lo * w(row);
    var high: Row -> real := row => hi * w(row);
    SumByScaled(rows, w, low, lo);
    SumByScaled(rows, w, high, hi);
    SumByMonotone(rows, low, g);
    SumByMonotone(rows, g, high);
  }

  /** Multiplying `lo <= q <= hi` by a non-negative factor. */
  lemma ProductBetween(w: real, q: real, lo: real, hi: real)
    requires w >= 0.0 && lo <= q <= hi
    ensures lo * w <= w * q <= hi * w
  {
    assert (q - lo) * w >= 0.0 && (hi - q) * w >= 0.0;
  }

  /** The row-wise product of two per-row values. */
  function Times(w: Row -> real, q: Row -> real): Row -> real {
    row => w(row) * q(row)
  }

  /** A sum of products `w * q` with `q` between `lo` and `hi` and `w` non-negative lies between `lo` and `hi` times the sum of `w`. */
  lemma SumOfProductsBetween(rows: seq<Row>, w: Row -> real, q: Row -> real, lo: real, hi: real)
    requires forall i :: 0 <= i < |rows| ==> w(rows[i]) >= 0.0 && lo <= q(rows[i]) <= hi
    ensures lo * SumBy(rows, w) <= SumBy(rows, Times(w, q)) <= hi * SumBy(rows, w)
  {
    forall i | 0 <= i < |rows|
      ensures lo * w(rows[i]) <= Times(w, q)(rows[i]) <= hi * w(rows[i])
    {
      var row := rows[i];
      ProductBetween(w(row), q(row), lo, hi);
      assert Times(w, q)(row) == w(row) * q(row);
    }
    SumByBetween(rows, w, Times(w, q), lo, hi);
  }

  /** A sum of products `w * q` with `q` constant is that constant times the sum of `w`. */
  lemma SumOfProductsScaled(rows: seq<Row>, w: Row -> real, q: Row -> real, c: real)
    requires forall i :: 0 <= i < |rows| ==> q(rows[i]) == c
    ensures SumBy(rows, Times(w, q)) == c * SumBy(rows, w)
  {
    SumByScaled(rows, w, Times(w, q), c);
  }

  /** Sums of row values that are all non-negative are non-negative. */
  lemma {:induction false} SumByNonNegative(rows: seq<Row>, f: Row -> real)
    requires forall i :: 0 <= i < |rows| ==> 0.0 <= f(rows[i])
    ensures 0.0 <= SumBy(rows, f)
    decreases |rows|
  {
    if rows != [] {
      SumByNonNegative(rows[..|rows| - 1], f);
    }
  }

  /** Dividing `lo * s <= x <= hi * s` by a positive `s`. */
  lemma QuotientBetween(x: real, s: real, lo: real, hi: real)
    requires s > 0.0 && lo * s <= x <= hi * s
    ensures lo <= x / s <= hi
  {
    assert lo * s <= (x / s) * s;
    assert (x / s) * s <= hi * s;
  }

  /** A weighted average of `q` with non-negative weights `w` and positive total weight lies between the bounds of `q`. */
  lemma WeightedAverageBetween(rows: seq<Row>, w: Row -> real, q: Row -> real, lo: real, hi: real)
    requires forall i :: 0 <= i < |rows| ==> w(rows[i]) >= 0.0 && lo <= q(rows[i]) <= hi
    requires SumBy(rows, w) > 0.0
    ensures lo <= SumBy(rows, Times(w, q)) / SumBy(rows, w) <= hi
  {
    var x, total := SumBy(rows, Times(w, q)), SumBy(rows, w);
    assert lo * total <= x <= hi * total by {
      SumOfProductsBetween(rows, w, q, lo, hi);
    }
    QuotientBetween(x, total, lo, hi);
  }

  /** A weighted average of a constant `c` is `c`. */
  lemma WeightedAverageOfConstant(rows: seq<Row>, w: Row -> real, q: Row -> real, c: real)
    requires forall i :: 0 <= i < |rows| ==> q(rows[i]) == c
    requires SumBy(rows, w) > 0.0
    ensures SumBy(rows, Times(w, q)) / SumBy(rows, w) == c
  {
    SumOfProductsScaled(rows, w, q, c);
  }

  /** The rows that carry `key`, in their original order. */
  function RowsWithField(rows: seq<Row>, key: string): (r: seq<Row>)
    ensures forall x :: x in r <==> x in rows && key in x
  {
    if rows == [] then []
    else
      var n := |rows| - 1;
      RowsWithField(rows[..n], key) + (if key in rows[n] then [rows[n]] else [])
  }

  /** A field's sum only sees the rows that carry the field: the others contribute 0. */
  lemma {:induction false} SumOverRowsWithField(rows: seq<Row>, key: string)
    ensures SumBy(rows, FieldOf(key)) == SumBy(RowsWithField(rows, key), FieldOf(key))
    decreases |rows|
  {
    if rows != [] {
      var n := |rows| - 1;
      SumOverRowsWithField(rows[..n], key);
      var last := if key in rows[n] then [rows[n]] else [];
      SumByAppend(RowsWithField(rows[..n], key), last, FieldOf(key));
      if key in rows[n] {
        SumBySingle(rows[n], FieldOf(key));
      }
    }
  }
}

=== FILE: py_json.dfy ===
/**
  * JSON values as the backend handles them after `json.loads` or a database
  * read, and the few Python built-ins the query handler applies to them:
  * truthiness, `str(...)`, `int(...)` and `str.strip()`'s notion of
  * whitespace.
  */
module PyJson {
  import opened Wrappers
  import Text

  /**
    * A decoded JSON value; integers and floats stay apart, as Python keeps them.
    * `json.loads` also accepts `NaN`, `Infinity` and `-Infinity`, the floats
    * that are not finite.
    */
  datatype Json =
    | JNull
    | JBool(b: bool)
    | JInt(i: int)
    | JFloat(x: real)
    | JNaN
    | JInfinity(negative: bool)
    | JStr(s: string)
    | JArr(items: seq<Json>)
    | JObj(fields: map<string, Json>)

  /** A Python call that either returns a value or raises. */
  datatype Attempt<+T> = Done(value: T) | Raised

  /** Python truthiness: None, False, zero and empty containers are false. */
  predicate Truthy(v: Json) {
    match v
    case JNull => false
    case JBool(b) => b
    case JInt(i) => i != 0
    case JFloat(x) => x != 0.0
    case JNaN => true
    case JInfinity(_) => true
    case JStr(s) => s != []
    case JArr(items) => items != []
    case JObj(fields) => fields != map[]
  }

  /** The characters `str.isspace()` accepts: what `str.strip()` removes and what `\s` matches in a `re` pattern over `str`. */
  const PySpace: set<char> := {
    '\t', '\n', '\U{B}', '\U{C}', '\r', '\U{1C}', '\U{1D}', '\U{1E}', '\U{1F}', ' ',
    '\U{85}', '\U{A0}', '\U{1680}',
    '\U{2000}', '\U{2001}', '\U{2002}', '\U{2003}', '\U{2004}', '\U{2005}',
    '\U{2006}', '\U{2007}', '\U{2008}', '\U{2009}', '\U{200A}',
    '\U{2028}', '\U{2029}', '\U{202F}', '\U{205F}', '\U{3000}'
  }

  /**
    * `str(v)`. None, booleans, integers and strings are rendered here;
    * `reprOf` stands for the rendering of floats, lists and dicts.
    */
  function PyStr(v: Json, reprOf: Json -> string): string {
    match v
    case JNull => "None"
    case JBool(b) => if b then "True" else "False"
    case JInt(i) => Text.IntText(i)
    case JStr(s) => s
    case _ => reprOf(v)
  }

  /** `int(x)` for a float: truncation toward zero. */
  function Trunc(x: real): (n: int)
    ensures x >= 0.0 ==> 0.0 <= n as real <= x < n as real + 1.0
    ensures x < 0.0 ==> n as real - 1.0 < x <= n as real <= 0.0
  {
    if x >= 0.0 then x.Floor else -((-x).Floor)
  }

  /** `int(s)` for a string: surrounding whitespace, an optional sign, then ASCII digits. */
  function IntOfText(s: string): Attempt<int> {
    IntOfStripped(Text.Strip(s, PySpace))
  }

  /** `int` of text with its whitespace already stripped. */
  function IntOfStripped(t: string): Attempt<int> {
    var sign := if t != [] && (t[0] == '-' || t[0] == '+') then t[0] else ' ';
    var digits := if sign == ' ' then t else t[1..];
    if digits == [] || !Text.AllDigits(digits) then Raised
    else if sign == '-' then Done(-(Text.DigitsValue(digits) as int))
    else Done(Text.DigitsValue(digits) as int)
  }

  /** `int(v)`: finite numbers, booleans and numeric strings convert; None, nan, infinities, lists and dicts raise. */
  function PyInt(v: Json): (r: Attempt<int>)
    ensures v.JNull? || v.JArr? || v.JObj? ==> r == Raised
    ensures v.JNaN? || v.JInfinity? ==> r == Raised
    ensures v.JFloat? ==> r == Done(Trunc(v.x))
    ensures v.JInt? ==> r == Done(v.i)
    ensures v.JBool? ==> r == Done(if v.b then 1 else 0)
  {
    match v
    case JInt(i) => Done(i)
    case JFloat(x) => Done(Trunc(x))
    case JBool(b) => Done(if b then 1 else 0)
    case JStr(s) => IntOfText(s)
    case _ => Raised
  }

  /** No decimal digit is Python whitespace. */
  lemma DigitIsNotPySpace(c: char)
    requires Text.IsDigit(c)
    ensures c !in PySpace
  {
  }

  /** The decimal text of an integer has no whitespace to strip. */
  lemma IntTextIsStripped(n: int)
    ensures Text.Strip(Text.IntText(n), PySpace) == Text.IntText(n)
  {
    var t := Text.IntText(n);
    if n < 0 {
      assert t[|t| - 1] == t[1..][|t| - 2];
      assert t[0] == '-';
      assert '-' !in PySpace;
    } else {
      DigitIsNotPySpace(t[0]);
    }
    DigitIsNotPySpace(t[|t| - 1]);
  }

  /** `int` of an unsigned run of ASCII digits is its value. */
  lemma IntOfDigits(t: string)
    requires t != [] && Text.AllDigits(t)
    ensures IntOfStripped(t) == Done(Text.DigitsValue(t) as int)
  {
    assert t[0] != '-' && t[0] != '+';
  }

  /** `int` of a minus sign before a run of ASCII digits is the negated value. */
  lemma IntOfNegativeDigits(t: string)
    requires |t| > 1 && t[0] == '-' && Text.AllDigits(t[1..])
    ensures IntOfStripped(t) == Done(-(Text.DigitsValue(t[1..]) as int))
  {
  }

  lemma IntOfNonNegativeText(n: int)
    requires n >= 0
    ensures IntOfText(Text.IntText(n)) == Done(n)
  {
    var t := Text.IntText(n);
    assert t == Text.NatText(n);
    IntTextIsStripped(n);
    Text.DigitsValueOfNatText(n);
    IntOfDigits(t);
  }

  lemma IntOfNegativeText(n: int)
    requires n < 0
    ensures IntOfText(Text.IntText(n)) == Done(n)
  {
    var m: nat := -n;
    var t := "-" + Text.NatText(m);
    assert Text.IntText(n) == t;
    IntTextIsStripped(n);
    assert t[1..] == Text.NatText(m);
    Text.DigitsValueOfNatText(m);
    IntOfNegativeDigits(t);
  }

  /** `int` of a string is `int` of its text. */
  lemma PyIntOfText(s: string)
    ensures PyInt(JStr(s)) == IntOfText(s)
  {
  }

  /** `int(str(n)) == n`: an integer stored as its decimal text converts back to itself. */
  lemma IntOfIntText(n: int)
    ensures PyInt(JStr(Text.IntText(n))) == Done(n)
  {
    PyIntOfText(Text.IntText(n));
    if n < 0 {
      IntOfNegativeText(n);
    } else {
      IntOfNonNegativeText(n);
    }
  }

  /** Texts that `int` refuses: the empty string and a decimal fraction. */
  lemma IntOfTextRejectsEmpty()
    ensures IntOfText("") == Raised
  {
  }

  lemma IntOfTextRejectsFraction()
    ensures IntOfText("1.5") == Raised
  {
    assert '1' !in PySpace && '5' !in PySpace;
    assert Text.Strip("1.5", PySpace) == "1.5";
    assert !Text.IsDigit("1.5"[1]);
  }
}

=== FILE: sorting.dfy ===
/**
  * Python's ordering of `str` values (code point by code point, a proper
  * prefix first) and `sorted` over distinct strings, which is all the
  * handler sorts: the keys of a dict.
  */
module Sorting {
  import opened Tally

  /** `a < b` for Python strings. */
  predicate Less(a: string, b: string)
    decreases |a|
  {
    if a == [] then b != []
    else if b == [] then false
    else if a[0] != b[0] then a[0] < b[0]
    else Less(a[1..], b[1..])
  }

  lemma {:induction false} LessIrreflexive(a: string)
    ensures !Less(a, a)
    decreases |a|
  {
    if a != [] {
      LessIrreflexive(a[1..]);
    }
  }

  lemma {:induction false} LessTransitive(a: string, b: string, c: string)
    requires Less(a, b) && Less(b, c)
    ensures Less(a, c)
    decreases |a|
  {
    if a != [] && a[0] == b[0] && b[0] == c[0] {
      LessTransitive(a[1..], b[1..], c[1..]);
    }
  }

  /** Any two distinct strings are ordered one way or the other. */
  lemma {:induction false} LessTotal(a: string, b: string)
    requires a != b
    ensures Less(a, b) || Less(b, a)
    decreases |a|
  {
    if a != [] && b != [] && a[0] == b[0] {
      assert a == [a[0]] + a[1..] && b == [b[0]] + b[1..];
      LessTotal(a[1..], b[1..]);
    }
  }

  lemma LessAsymmetric(a: string, b: string)
    requires Less(a, b)
    ensures !Less(b, a)
  {
    if Less(b, a) {
      LessTransitive(a, b, a);
      LessIrreflexive(a);
    }
  }

  /** Strictly increasing under `Less`. */
  predicate Ascending(s: seq<string>) {
    forall i, j :: 0 <= i < j < |s| ==> Less(s[i], s[j])
  }

  /** Insertion of `x` before the first element above it. */
  function Insert(x: string, s: seq<string>): (r: seq<string>)
    ensures multiset(r) == multiset(s) + multiset{x}
    ensures |r| == |s| + 1
  {
    if s == [] then [x]
    else if Less(x, s[0]) then [x] + s
    else
      assert s == [s[0]] + s[1..];
      [s[0]] + Insert(x, s[1..])
  }

  /** `sorted(keys)`. */
  function Sort(keys: seq<string>): (r: seq<string>)
    ensures multiset(r) == multiset(keys)
    ensures |r| == |keys|
  {
    if keys == [] then []
    else
      var n := |keys| - 1;
      assert keys == keys[..n] + [keys[n]];
      Insert(keys[n], Sort(keys[..n]))
  }

  /** Sorting keeps exactly the keys it was given. */
  lemma SortMembers(keys: seq<string>, x: string)
    ensures x in Sort(keys) <==> x in keys
  {
    assert x in Sort(keys) <==> x in multiset(Sort(keys));
    assert x in keys <==> x in multiset(keys);
  }

  lemma {:induction false} InsertAscending(x: string, s: seq<string>)
    requires Ascending(s) && x !in s
    ensures Ascending(Insert(x, s))
    decreases |s|
  {
    if s != [] && !Less(x, s[0]) {
      assert x != s[0];
      LessTotal(x, s[0]);
      InsertAscending(x, s[1..]);
      var tail := Insert(x, s[1..]);
      forall y | y in tail
        ensures Less(s[0], y)
      {
        InsertMember(x, s[1..], y);
        if y != x {
          HeadBelowRest(s, y);
        }
      }
      ConsAscending(s[0], tail);
    } else if s != [] {
      forall y | y in s
        ensures Less(x, y)
      {
        HeadBelowRest(s, y);
        if y != s[0] {
          LessTransitive(x, s[0], y);
        }
      }
      ConsAscending(x, s);
    }
  }

  /** What an insertion holds is the new key or an old one. */
  lemma InsertMember(x: string, s: seq<string>, y: string)
    requires y in Insert(x, s)
    ensures y == x || y in s
  {
    assert y in multiset(Insert(x, s));
  }

  /** In an ascending sequence, the head is below everything after it. */
  lemma HeadBelowRest(s: seq<string>, y: string)
    requires Ascending(s) && s != [] && y in s
    ensures y == s[0] || Less(s[0], y)
  {
  }

  /** Prefixing a key below everything in an ascending sequence keeps it ascending. */
  lemma ConsAscending(h: string, t: seq<string>)
    requires Ascending(t) && forall y :: y in t ==> Less(h, y)
    ensures Ascending([h] + t)
  {
    var r := [h] + t;
    forall i, j | 0 <= i < j < |r|
      ensures Less(r[i], r[j])
    {
      if i == 0 {
        assert r[j] == t[j - 1];
      } else {
        assert r[i] == t[i - 1] && r[j] == t[j - 1];
      }
    }
  }

  /** `sorted` over distinct keys gives a strictly ascending sequence of the same keys. */
  lemma {:induction false} SortAscending(keys: seq<string>)
    requires Distinct(keys)
    ensures Ascending(Sort(keys))
  {
    if keys != [] {
      var n := |keys| - 1;
      SortAscending(keys[..n]);
      assert keys[n] !in multiset(keys[..n]);
      assert keys[n] !in multiset(Sort(keys[..n]));
      InsertAscending(keys[n], Sort(keys[..n]));
    }
  }

  /** Two ascending sequences with the same elements are the same sequence. */
  lemma {:induction false} AscendingUnique(a: seq<string>, b: seq<string>)
    requires Ascending(a) && Ascending(b)
    requires forall x :: x in a <==> x in b
    ensures a == b
    decreases |a|
  {
    assert a == [] <==> b == [] by {
      if a != [] {
        assert a[0] in a;
      }
      if b != [] {
        assert b[0] in b;
      }
    }
    if a != [] {
      assert a[0] in a && b[0] in b;
      var ka :| 0 <= ka < |b| && b[ka] == a[0];
      var kb :| 0 <= kb < |a| && a[kb] == b[0];
      if ka > 0 && kb > 0 {
        assert Less(a[0], b[0]) && Less(b[0], a[0]);
        LessAsymmetric(a[0], b[0]);
      }
      assert a[0] == b[0];
      forall x
        ensures x in a[1..] <==> x in b[1..]
      {
        if x in a[1..] {
          var k :| 0 <= k < |a[1..]| && a[1..][k] == x;
          assert Less(a[0], a[k + 1]);
          LessIrreflexive(x);
          assert x in b;
          var m :| 0 <= m < |b| && b[m] == x;
          assert m != 0;
          assert b[1..][m - 1] == x;
        }
        if x in b[1..] {
          var k :| 0 <= k < |b[1..]| && b[1..][k] == x;
          assert Less(b[0], b[k + 1]);
          LessIrreflexive(x);
          assert x in a;
          var m :| 0 <= m < |a| && a[m] == x;
          assert m != 0;
          assert a[1..][m - 1] == x;
        }
      }
      AscendingUnique(a[1..], b[1..]);
      assert a == [a[0]] + a[1..] && b == [b[0]] + b[1..];
    }
  }
}

=== FILE: tally.dfy ===
/**
  * Accumulation into a dict: a run of keys, each with a count, is folded into
  * a map from key to running sum (`d[k] = d.get(k, 0) + c`), whose keys
  * remember the order of their first insertion.
  */
module Tally {

  predicate Distinct<K(==)>(s: seq<K>) {
    forall i, j :: 0 <= i < j < |s| ==> s[i] != s[j]
  }

  /** `m.get(k, 0)`. */
  function Get<K(==)>(m: map<K, int>, k: K): int {
    if k in m then m[k] else 0
  }

  /** The dict's keys after the first `i` insertions, in insertion order: each key where it first appears. */
  function Order<K(==)>(keys: seq<K>, i: nat): (r: seq<K>)
    requires i <= |keys|
    ensures Distinct(r)
  {
    if i == 0 then []
    else
      var r := Order(keys, i - 1);
      if keys[i - 1] in r then r else r + [keys[i - 1]]
  }

  /** `m[k] = m.get(k, 0) + c`. */
  function AddTo<K(==)>(m: map<K, int>, k: K, c: int): map<K, int> {
    m[k := Get(m, k) + c]
  }

  /** The dict after the first `i` steps of the fold: each key's running sum. */
  function Accumulate<K(==)>(keys: seq<K>, counts: seq<int>, i: nat): map<K, int>
    requires i <= |keys| == |counts|
  {
    if i == 0 then map[]
    else
      AddTo(Accumulate(keys, counts, i - 1), keys[i - 1], counts[i - 1])
  }

  /** Reference definition: the sum of the first `i` counts at positions holding `k`. */
  function TotalOf<K(==)>(keys: seq<K>, counts: seq<int>, i: nat, k: K): int
    requires i <= |keys| == |counts|
  {
    if i == 0 then 0
    else TotalOf(keys, counts, i - 1, k) + (if keys[i - 1] == k then counts[i - 1] else 0)
  }

  /** The sum of the first `i` counts. */
  function Sum(counts: seq<int>, i: nat): int
    requires i <= |counts|
  {
    if i == 0 then 0 else Sum(counts, i - 1) + counts[i - 1]
  }

  /** The sum of a map's values at the given keys. */
  function SumOver<K(==)>(keys: seq<K>, m: map<K, int>): int {
    if keys == [] then 0 else SumOver(keys[..|keys| - 1], m) + Get(m, keys[|keys| - 1])
  }

  /** The order lists exactly the keys that occur among the first `i`. */
  lemma {:induction false} OrderMembers<K>(keys: seq<K>, i: nat, k: K)
    requires i <= |keys|
    ensures k in Order(keys, i) <==> k in keys[..i]
  {
    if i > 0 {
      OrderMembers(keys, i - 1, k);
      assert keys[..i] == keys[..i - 1] + [keys[i - 1]];
    }
  }

  /** The dict's keys are the keys in the order. */
  lemma {:induction false} AccumulateKeys<K>(keys: seq<K>, counts: seq<int>, i: nat, k: K)
    requires i <= |keys| == |counts|
    ensures k in Accumulate(keys, counts, i) <==> k in Order(keys, i)
  {
    if i > 0 {
      AccumulateKeys(keys, counts, i - 1, k);
    }
  }

  /**
    * One step of the loop: from the dict and the key order after `i` steps,
    * adding `counts[i]` under `keys[i]` (and appending the key when the dict
    * did not hold it) gives the dict and the order after `i + 1` steps.
    */
  lemma FoldStep<K>(keys: seq<K>, counts: seq<int>, i: nat, m: map<K, int>, order: seq<K>, k: K, c: int)
    requires i < |keys| == |counts|
    requires m == Accumulate(keys, counts, i) && order == Order(keys, i)
    requires k == keys[i] && c == counts[i]
    ensures AddTo(m, k, c) == Accumulate(keys, counts, i + 1)
    ensures (if k in m then order else order + [k]) == Order(keys, i + 1)
  {
    AccumulateKeys(keys, counts, i, k);
  }

  /** The dict holds, under every key, the reference total for that key. */
  lemma {:induction false} AccumulateIsTotalOf<K>(keys: seq<K>, counts: seq<int>, i: nat, k: K)
    requires i <= |keys| == |counts|
    ensures Get(Accumulate(keys, counts, i), k) == TotalOf(keys, counts, i, k)
  {
    if i > 0 {
      AccumulateIsTotalOf(keys, counts, i - 1, k);
    }
  }

  lemma {:induction false} SumOverAppend<K>(a: seq<K>, b: seq<K>, m: map<K, int>)
    ensures SumOver(a + b, m) == SumOver(a, m) + SumOver(b, m)
    decreases |b|
  {
    if b == [] {
      assert a + b == a;
    } else {
      var n := |b| - 1;
      assert (a + b)[..|a + b| - 1] == a + b[..n];
      SumOverAppend(a, b[..n], m);
    }
  }

  lemma SumOverSingle<K>(k: K, m: map<K, int>)
    ensures SumOver([k], m) == Get(m, k)
  {
    assert [k][..0] == [];
  }

  /** Taking the element at `j` out of a sequence takes it out of its multiset. */
  lemma MultisetRemove<K>(b: seq<K>, j: nat)
    requires j < |b|
    ensures multiset(b[..j] + b[j + 1..]) == multiset(b) - multiset{b[j]}
  {
    SplitAround(b, j);
  }

  /** A sequence is what comes before position `j`, the element at `j`, and what comes after. */
  lemma SplitAround<K>(b: seq<K>, j: nat)
    requires j < |b|
    ensures b == b[..j] + [b[j]] + b[j + 1..]
  {
  }

  /** Taking the key at `j` out of the keys takes its value out of the sum. */
  lemma SumOverRemove<K>(b: seq<K>, j: nat, m: map<K, int>)
    requires j < |b|
    ensures SumOver(b, m) == SumOver(b[..j] + b[j + 1..], m) + Get(m, b[j])
  {
    assert b == b[..j] + [b[j]] + b[j + 1..];
    SumOverAppend(b[..j] + [b[j]], b[j + 1..], m);
    SumOverAppend(b[..j], [b[j]], m);
    SumOverAppend(b[..j], b[j + 1..], m);
    SumOverSingle(b[j], m);
  }

  /** The sum does not depend on the order of the keys. */
  lemma {:induction false} SumOverPermutation<K>(a: seq<K>, b: seq<K>, m: map<K, int>)
    requires multiset(a) == multiset(b)
    ensures SumOver(a, m) == SumOver(b, m)
    decreases |a|
  {
    if a == [] {
      assert |b| == |multiset(b)| == 0;
    } else {
      var n := |a| - 1;
      var x := a[n];
      assert a == a[..n] + [x];
      assert x in multiset(b);
      var j :| 0 <= j < |b| && b[j] == x;
      MultisetRemove(b, j);
      SumOverPermutation(a[..n], b[..j] + b[j + 1..], m);
      SumOverRemove(b, j, m);
    }
  }

  /** Values at keys other than `k` decide the sum when `k` is not among the keys. */
  lemma {:induction false} SumOverUpdateElsewhere<K>(keys: seq<K>, m: map<K, int>, k: K, v: int)
    requires k !in keys
    ensures SumOver(keys, m[k := v]) == SumOver(keys, m)
    decreases |keys|
  {
    if keys != [] {
      var n := |keys| - 1;
      assert k !in keys[..n];
      SumOverUpdateElsewhere(keys[..n], m, k, v);
    }
  }

  /** Adding `v` under a key that occurs once adds `v` to the sum. */
  lemma {:induction false} SumOverBump<K>(keys: seq<K>, m: map<K, int>, k: K, v: int)
    requires Distinct(keys) && k in keys
    ensures SumOver(keys, m[k := Get(m, k) + v]) == SumOver(keys, m) + v
    decreases |keys|
  {
    var n := |keys| - 1;
    if keys[n] == k {
      assert k !in keys[..n];
      SumOverUpdateElsewhere(keys[..n], m, k, Get(m, k) + v);
    } else {
      assert k in keys[..n];
      SumOverBump(keys[..n], m, k, v);
    }
  }

  /** A key already in the dict: its count adds to its total. */
  lemma SumOverAccumulateOld<K>(keys: seq<K>, counts: seq<int>, i: nat)
    requires 0 < i <= |keys| == |counts|
    requires keys[i - 1] in Order(keys, i - 1)
    ensures SumOver(Order(keys, i), Accumulate(keys, counts, i)) ==
      SumOver(Order(keys, i - 1), Accumulate(keys, counts, i - 1)) + counts[i - 1]
  {
    SumOverBump(Order(keys, i - 1), Accumulate(keys, counts, i - 1), keys[i - 1], counts[i - 1]);
  }

  /** A new key: it is appended to the order with its count. */
  lemma SumOverAccumulateNew<K>(keys: seq<K>, counts: seq<int>, i: nat)
    requires 0 < i <= |keys| == |counts|
    requires keys[i - 1] !in Order(keys, i - 1)
    ensures SumOver(Order(keys, i), Accumulate(keys, counts, i)) ==
      SumOver(Order(keys, i - 1), Accumulate(keys, counts, i - 1)) + counts[i - 1]
  {
    var order := Order(keys, i - 1);
    var m := Accumulate(keys, counts, i - 1);
    var k := keys[i - 1];
    var v := Get(m, k) + counts[i - 1];
    AccumulateKeys(keys, counts, i - 1, k);
    SumOverUpdateElsewhere(order, m, k, v);
    SumOverAppend(order, [k], m[k := v]);
    SumOverSingle(k, m[k := v]);
  }

  /** Summing the dict over its keys gives the sum of all counts: every count lands in exactly one total. */
  lemma {:induction false} SumOverAccumulate<K>(keys: seq<K>, counts: seq<int>, i: nat)
    requires i <= |keys| == |counts|
    ensures SumOver(Order(keys, i), Accumulate(keys, counts, i)) == Sum(counts, i)
  {
    if i > 0 {
      SumOverAccumulate(keys, counts, i - 1);
      if keys[i - 1] in Order(keys, i - 1) {
        SumOverAccumulateOld(keys, counts, i);
      } else {
        SumOverAccumulateNew(keys, counts, i);
      }
    }
  }
}

=== FILE: text.dfy ===
/**
  * Character-level helpers shared by the frontend and the backend models:
  * ASCII lower-casing, whitespace stripping with a caller-chosen whitespace
  * set, decimal rendering and parsing of integers, and substring search.
  */
module Text {

  /** ASCII lower-casing of one character; every other character is kept. */
  function LowerChar(c: char): char {
    if 'A' <= c <= 'Z' then (c as int - 'A' as int + 'a' as int) as char else c
  }

  /** `toLowerCase()` / `str.lower()`, restricted to ASCII letters. */
  function Lower(s: string): (r: string)
    ensures |r| == |s|
    ensures forall i :: 0 <= i < |s| ==> r[i] == LowerChar(s[i])
  {
    if s == [] then [] else [LowerChar(s[0])] + Lower(s[1..])
  }

  /** Index of the first `c` in `s`, or `|s|` when there is none (`str.find` and `indexOf`, with `|s|` for -1). */
  function IndexOf(s: string, c: char): (i: nat)
    ensures i <= |s|
    ensures i < |s| ==> s[i] == c
    ensures forall k :: 0 <= k < i ==> s[k] != c
  {
    if s == [] || s[0] == c then 0 else 1 + IndexOf(s[1..], c)
  }

  /** Lower-casing twice is lower-casing once. */
  lemma LowerIdempotent(s: string)
    ensures Lower(Lower(s)) == Lower(s)
  {
    var once := Lower(s);
    assert forall i :: 0 <= i < |s| ==> LowerChar(once[i]) == once[i];
  }

  /** Lower-casing works character by character, so it distributes over concatenation. */
  lemma LowerAppend(a: string, b: string)
    ensures Lower(a + b) == Lower(a) + Lower(b)
  {
    var l, r := Lower(a + b), Lower(a) + Lower(b);
    assert forall i :: 0 <= i < |l| ==> l[i] == r[i];
  }

  /** Drops the leading characters that belong to `ws`. */
  function StripStart(s: string, ws: set<char>): (r: string)
    ensures |r| <= |s| && r == s[|s| - |r|..]
    ensures forall k :: 0 <= k < |s| - |r| ==> s[k] in ws
    ensures r != [] ==> r[0] !in ws
  {
    if s != [] && s[0] in ws then StripStart(s[1..], ws) else s
  }

  /** Drops the trailing characters that belong to `ws`. */
  function StripEnd(s: string, ws: set<char>): (r: string)
    ensures |r| <= |s| && r == s[..|r|]
    ensures forall k :: |r| <= k < |s| ==> s[k] in ws
    ensures r != [] ==> r[|r| - 1] !in ws
  {
    if s != [] && s[|s| - 1] in ws then StripEnd(s[..|s| - 1], ws) else s
  }

  /** Drops whitespace (as `ws` defines it) from both ends. */
  function Strip(s: string, ws: set<char>): (r: string)
    ensures r == [] <==> forall k :: 0 <= k < |s| ==> s[k] in ws
    ensures r != [] ==> r[0] !in ws && r[|r| - 1] !in ws
    ensures s == [] || (s[0] !in ws && s[|s| - 1] !in ws) ==> r == s
  {
    var front := StripStart(s, ws);
    assert forall k :: |s| - |front| <= k < |s| ==> s[k] == front[k - (|s| - |front|)];
    StripEnd(front, ws)
  }

  predicate IsDigit(c: char) {
    '0' <= c <= '9'
  }

  predicate AllDigits(s: string) {
    forall i :: 0 <= i < |s| ==> IsDigit(s[i])
  }

  function DigitChar(d: nat): (c: char)
    requires d < 10
    ensures IsDigit(c)
  {
    ('0' as int + d) as char
  }

  function DigitValue(c: char): (d: nat)
    requires IsDigit(c)
    ensures d < 10 && DigitChar(d) == c
  {
    c as int - '0' as int
  }

  /** The value of a string of decimal digits, most significant first. */
  function DigitsValue(s: string): nat
    requires AllDigits(s)
  {
    if s == [] then 0 else DigitsValue(s[..|s| - 1]) * 10 + DigitValue(s[|s| - 1])
  }

  /** The shortest decimal rendering of a natural number. */
  function NatText(n: nat): (r: string)
    ensures r != [] && AllDigits(r)
    ensures |r| > 1 ==> r[0] != '0'
  {
    if n < 10 then [DigitChar(n)] else NatText(n / 10) + [DigitChar(n % 10)]
  }

  /** The decimal rendering of an integer, with a leading `-` when negative. */
  function IntText(i: int): (r: string)
    ensures r != [] && (i < 0 <==> r[0] == '-')
    ensures i >= 0 ==> AllDigits(r)
    ensures i < 0 ==> AllDigits(r[1..]) && |r| > 1
  {
    if i < 0 then "-" + NatText(-i) else NatText(i)
  }

  /** Reading back the rendering of `n` gives `n`. */
  lemma {:induction false} DigitsValueOfNatText(n: nat)
    ensures DigitsValue(NatText(n)) == n
  {
    if n >= 10 {
      DigitsValueOfNatText(n / 10);
      var t := NatText(n);
      assert t[..|t| - 1] == NatText(n / 10);
    }
  }

  /** Appending a digit shifts the value one place and adds the digit. */
  lemma DigitsValueSnoc(s: string, d: nat)
    requires AllDigits(s) && d < 10
    ensures AllDigits(s + [DigitChar(d)])
    ensures DigitsValue(s + [DigitChar(d)]) == DigitsValue(s) * 10 + d
  {
    var t := s + [DigitChar(d)];
    assert t[..|t| - 1] == s;
  }

  /** Distinct numbers have distinct renderings. */
  lemma NatTextInjective(m: nat, n: nat)
    requires NatText(m) == NatText(n)
    ensures m == n
  {
    DigitsValueOfNatText(m);
    DigitsValueOfNatText(n);
  }

  /** Two windows of width `w` that agree character by character are equal. */
  lemma Window(a: string, i: nat, b: string, j: nat, w: nat)
    requires i + w <= |a| && j + w <= |b|
    requires forall m :: i <= m < i + w ==> a[m] == b[m - i + j]
    ensures a[i..i + w] == b[j..j + w]
  {
  }

  /** `t` occurs in `s` starting at index `i`. */
  predicate OccursAt(s: string, i: int, t: string) {
    0 <= i && i + |t| <= |s| && s[i..i + |t|] == t
  }

  /** `t` occurs somewhere in `s`. */
  predicate Contains(s: string, t: string) {
    exists i :: 0 <= i <= |s| - |t| && OccursAt(s, i, t)
  }
}

=== FILE: visualization_hub.dfy ===
/**
  * The visualization hub: a card per descriptor with an icon chosen by a
  * case-insensitive type dispatch, a pluralised count label, an optional
  * summary, and a modal driven by the `selectedViz` state cell, which a card
  * click toggles and the backdrop or close button clears.
  */
module VisualizationHub {
  import opened Wrappers
  import Text
  import opened Payload

  datatype Icon = LineChartIcon | BarChartIcon | PieChartIcon | TrendingUpIcon

  /** `getIconForType`: lower-case the type, then line, bar and pie have their icons; anything else, or no type, the default. */
  function IconForType(kind: Option<string>): (icon: Icon)
    ensures kind.None? ==> icon == TrendingUpIcon
    ensures kind.Some? && |kind.value| != 3 && |kind.value| != 4 ==> icon == TrendingUpIcon
    ensures icon == LineChartIcon <==> kind.Some? && Text.Lower(kind.value) == "line"
    ensures icon == BarChartIcon <==> kind.Some? && Text.Lower(kind.value) == "bar"
    ensures icon == PieChartIcon <==> kind.Some? && Text.Lower(kind.value) == "pie"
  {
    match kind
    case None => TrendingUpIcon
    case Some(t) =>
      var lower := Text.Lower(t);
      if lower == "line" then LineChartIcon
      else if lower == "bar" then BarChartIcon
      else if lower == "pie" then PieChartIcon
      else TrendingUpIcon
  }

  /** The dispatch does not see letter case: a type and its lower-cased form get the same icon. */
  lemma IconForTypeIgnoresCase(t: string)
    ensures IconForType(Some(t)) == IconForType(Some(Text.Lower(t)))
  {
    Text.LowerIdempotent(t);
  }

  /** Upper- or mixed-case names of the three chart kinds are recognised. */
  lemma IconForTypeUpperCase()
    ensures IconForType(Some("BAR")) == BarChartIcon
    ensures IconForType(Some("Line")) == LineChartIcon
    ensures IconForType(Some("PIE")) == PieChartIcon
  {
    LowerBar("BAR");
    LowerLine("Line");
    LowerPie("PIE");
  }

  lemma LowerBar(t: string)
    requires t == "BAR"
    ensures Text.Lower(t) == "bar"
  {
    assert Text.Lower(t)[0] == 'b' && Text.Lower(t)[1] == 'a' && Text.Lower(t)[2] == 'r';
  }

  lemma LowerLine(t: string)
    requires t == "Line"
    ensures Text.Lower(t) == "line"
  {
    assert Text.Lower(t)[0] == 'l' && Text.Lower(t)[1] == 'i';
  }

  lemma LowerPie(t: string)
    requires t == "PIE"
    ensures Text.Lower(t) == "pie"
  {
    assert Text.Lower(t)[0] == 'p' && Text.Lower(t)[1] == 'i' && Text.Lower(t)[2] == 'e';
  }

  /** The dashboard's own type names (`bar-chart`, `metric-card`) and other kinds fall back to the default icon. */
  lemma IconForTypeOtherKinds()
    ensures IconForType(Some("bar-chart")) == TrendingUpIcon
    ensures IconForType(Some("metric-card")) == TrendingUpIcon
    ensures IconForType(Some("area")) == TrendingUpIcon
  {
    DefaultIcon("bar-chart");
    DefaultIcon("metric-card");
    AreaIcon("area");
  }

  lemma DefaultIcon(t: string)
    requires |t| != 3 && |t| != 4
    ensures IconForType(Some(t)) == TrendingUpIcon
  {
  }

  lemma AreaIcon(t: string)
    requires t == "area"
    ensures IconForType(Some(t)) == TrendingUpIcon
  {
    assert Text.Lower(t)[0] == 'a';
  }

  /** "visualization", or "visualizations" for any count other than one. */
  function Noun(n: nat): string {
    if n != 1 then "visualizations" else "visualization"
  }

  /** The header line `{n} visualization{s} generated`. */
  function CountLabel(n: nat): (line: string)
    ensures |line| > |Text.NatText(n)| + |Generated|
    ensures line[..|Text.NatText(n)|] == Text.NatText(n)
    ensures line[|line| - |Generated|..] == Generated
    ensures line[|Text.NatText(n)|..|line| - |Generated|] == " visualization" + (if n != 1 then "s" else "")
  {
    var digits, noun := Text.NatText(n), " " + Noun(n);
    assert noun == " visualization" + (if n != 1 then "s" else "");
    var line := digits + noun + Generated;
    assert line[|digits|..|line| - |Generated|] == noun;
    line
  }

  const Generated := " generated"

  /** The label ends in "s generated" exactly when the count is not one. */
  lemma CountLabelPlural(n: nat)
    ensures var line := CountLabel(n);
      |line| > |Generated| &&
      line[|line| - |Generated|..] == Generated &&
      (line[|line| - |Generated| - 1] == 's' <==> n != 1)
  {
    var line := CountLabel(n);
    var head := Text.NatText(n) + " " + Noun(n);
    assert line == head + Generated;
    assert line[|line| - |Generated| - 1] == head[|head| - 1];
  }

  /** One card of the grid. */
  datatype HubCard = HubCard(title: string, icon: Icon, caption: string)

  /** The enlarged view of the selected card; an index past the end makes the render throw. */
  datatype Modal = Closed | Open(title: string) | RenderError

  datatype HubView =
    | NoVisualizationsYet
    | Hub(countLabel: string, cards: seq<HubCard>, summary: Option<string>, modal: Modal)

  /** The caption `{viz.type} Chart`; an absent type renders as nothing. */
  function Caption(kind: Option<string>): string {
    (if kind.Some? then kind.value else "") + " Chart"
  }

  function CardsFor(vs: seq<Visualization>): (r: seq<HubCard>)
    ensures |r| == |vs|
    ensures forall i :: 0 <= i < |vs| ==> r[i].title == vs[i].title && r[i].icon == IconForType(vs[i].kind)
    ensures forall i :: 0 <= i < |vs| ==> r[i].caption == Caption(vs[i].kind)
  {
    if vs == [] then [] else [HubCard(vs[0].title, IconForType(vs[0].kind), Caption(vs[0].kind))] + CardsFor(vs[1..])
  }

  predicate HasVisualizations(resp: Option<Response>) {
    resp.Some? && resp.value.visualizations.Some? && |resp.value.visualizations.value| > 0
  }

  /** The hub for a response and the current selection. */
  function Render(resp: Option<Response>, selected: Option<nat>): (v: HubView)
    ensures v.NoVisualizationsYet? <==> !HasVisualizations(resp)
    ensures v.Hub? ==> |v.cards| == |resp.value.visualizations.value|
    ensures v.Hub? ==> v.cards == CardsFor(resp.value.visualizations.value)
    ensures v.Hub? ==> v.countLabel == CountLabel(|resp.value.visualizations.value|)
    ensures v.Hub? ==> (v.summary.Some? <==> Truthy(resp.value.summary))
    ensures v.Hub? && v.summary.Some? ==> v.summary == resp.value.summary
    ensures v.Hub? ==> (v.modal.Closed? <==> selected.None?)
    ensures v.Hub? && selected.Some? && selected.value < |resp.value.visualizations.value| ==>
      v.modal == Open(resp.value.visualizations.value[selected.value].title)
  {
    if !HasVisualizations(resp) then NoVisualizationsYet
    else
      var vs := resp.value.visualizations.value;
      Hub(
        CountLabel(|vs|),
        CardsFor(vs),
        if Truthy(resp.value.summary) then resp.value.summary else None,
        match selected
        case None => Closed
        case Some(i) => if i < |vs| then Open(vs[i].title) else RenderError)
  }

  /** Clicking card `index`: deselect it if it was selected, otherwise select it. */
  function Toggle(selected: Option<nat>, index: nat): (r: Option<nat>)
    ensures r == None <==> selected == Some(index)
    ensures r != None ==> r == Some(index)
  {
    if selected == Some(index) then None else Some(index)
  }

  /** Clicking the same card twice restores the selection exactly when nothing or that card was selected. */
  lemma ToggleTwice(selected: Option<nat>, index: nat)
    ensures Toggle(Toggle(selected, index), index) == selected <==> selected == None || selected == Some(index)
  {
  }

  datatype Layout = Grid | Masonry

  /** The hub's two state cells. */
  class HubState {
    var selectedViz: Option<nat>
    var layout: Layout

    constructor ()
      ensures selectedViz == None && layout == Masonry
    {
      selectedViz := None;
      layout := Masonry;
    }

    /** What the hub shows for `resp` in the current state. */
    function View(resp: Option<Response>): HubView
      reads this
    {
      Render(resp, selectedViz)
    }

    /** A click on card `index`. */
    method ClickCard(index: nat)
      modifies this
      ensures selectedViz == Toggle(old(selectedViz), index)
      ensures layout == old(layout)
    {
      if selectedViz == Some(index) {
        selectedViz := None;
      } else {
        selectedViz := Some(index);
      }
    }

    /** A click on the backdrop or on the modal's close button. */
    method CloseModal()
      modifies this
      ensures selectedViz == None
      ensures layout == old(layout)
    {
      selectedViz := None;
    }

    /** The grid / masonry toggle. */
    method SetLayout(l: Layout)
      modifies this
      ensures layout == l
      ensures selectedViz == old(selectedViz)
    {
      layout := l;
    }
  }
}

=== FILE: wrappers.dfy ===
/** Optional values, shared by every module of the model. */
module Wrappers {

  /** A value that may be absent: an optional JSON field, a null reference. */
  datatype Option<+T> = None | Some(value: T)
}
